=== FILE: README.md ===
# Freelance marketplace core, modelled in Dafny

This project models the domain logic of a freelance marketplace backend,
together with two of its client-side form validators. Users are clients or
freelancers. Freelancers publish gigs, clients order them, and orders move
through a six-state lifecycle: pending, accepted, in progress, delivered,
completed, cancelled. When an order is completed it is settled: the gig's
order counter rises by one and the freelancer's wallet by the order price.
The client then reviews the order once, and every review recomputes the
freelancer's and the gig's rating. The two parties chat per order, and
prospective clients send inquiries about a gig. The inbox merges both kinds
of thread.

The store is an immutable value `Entities.Store`:
- users and gigs are maps from identifiers to records, because both can be deleted;
- orders, reviews and messages are sequences, and an identifier is a position in its sequence.

Every endpoint is a pure function from the store and the request to a
`Result`. The result holds the new store and/or the response, or one of four
errors:
- `NotFound` (404);
- `Forbidden` (403);
- `BadRequest` (400);
- `ServerError`: the 500 the error middleware answers when the schema
  validators reject a document, a unique index is violated, or the store
  refuses a query.

A failed request carries no store, so nothing changes on failure.

Each endpoint's checks run in the source's order. The module layout follows
the repository:

| module | file | models |
|---|---|---|
| `Outcome` | outcome.dfy | `Result` and `Option` |
| `Text` | text.dfy | trimming, lower-casing, splitting on a separator |
| `Seqs` | seqs.dfy | filtering, counting, stable sorting |
| `Entities` | entities.dfy | the five schemas, their enums, defaults and validators, `getPublicProfile`, the store and its unique indexes |
| `Paging` | paging.dfy | `skip`/`limit` pagination and `Math.ceil(total / limit)` |
| `Orders` | orders.dfy | `orderController.js` |
| `Ratings` | ratings.dfy | `updateUserRating`/`updateGigRating` in `reviewController.js` |
| `Reviews` | reviews.dfy | the rest of `reviewController.js` |
| `Messages` | messages.dfy | `messageController.js` except the inbox |
| `Conversations` | conversations.dfy | `getMyConversations` |
| `Gigs` | gigs.dfy | `gigController.js` |
| `Users` | users.dfy | `userController.js` |
| `GigForm` | gigform.dfy | the image list, submit check and tag parsing of `CreateGig.jsx` |
| `Signup` | signup.dfy | `validate` of `Signup.jsx` |

Ratings are integers in tenths of a star. `Math.round(sum / n * 10)` is
`(20 * sum + n) / (2 * n)` in integer division when `sum` and `n` are positive.

Time is an abstract integer passed in as `now`. Query results that the
database orders come from a parameter:
- `natural` is the store's natural order;
- `ranking` is the order that the requested sort field gives.

Sorting is modelled by a stable insertion sort, `Seqs.SortDesc`. Only the
inbox's `Array.prototype.sort` (messageController.js:334-336) is stable in
the program. The database sorts on `createdAt` and `rating` return documents
with equal keys in no fixed order. The model fixes one tie order for them:
the stable order over `natural`, or the given `ranking`. Every page query of
a listing is assumed to use that same order.

`Orders.CompletedOrderCanBeSettledTwice` shows a behaviour of the code that
the model keeps as written. The freelancer's status update does not look at
the current status, so a completed order can be set back to delivered. A
second completion then credits the wallet again.

## Model

| member | source | states |
|---|---|---|
| Entities.ParseRole | Backend/models/User.js:50-56 | a user type passes the enum exactly when it is "client" or "freelancer", and it parses to the role of that name |
| Entities.ParseCategory | Backend/models/Gig.js:34-39 | a category parses exactly to the enum value of that name; a name no value has is refused |
| Entities.ParseGigStatus | Backend/models/Gig.js:85-90 | a gig status parses to active or inactive by name; any other name is refused |
| Entities.ParseStatus | Backend/models/Order.js:45-56 | an order status parses to one of the six values by name; any other name is refused |
| Entities.NamesRoundTrip | Backend/models/Order.js:45-56 | every enum value's name parses back to that value, for all four enums |
| Entities.NewUser | Backend/models/User.js:11-123 | a user is built exactly when the trimmed name is non-empty, the email is non-empty, the password is at least 6 UTF-16 code units long and the type is a role; it is valid, with the email lower-cased, the name trimmed, rating, review count and wallet 0, and no picture, description or category |
| Entities.NewGig | Backend/models/Gig.js:4-128 | a gig is built exactly when the five required fields are present and within bounds: title up to 120 UTF-16 code units after trimming, description up to 5000, a category of the enum, price 100..500000, 1..30 days, 0..10 revisions (default 1), rating 0..5, and a status of the enum if given; it belongs to the given owner, and the trimmed title, description, category, price and delivery days are those of the body; defaults are active status, no images or tags, zero counters, and `now` for a creation or update time the body does not give; a time the body gives is kept; any refusal is a 500 |
| Entities.NewOrder | Backend/models/Order.js:4-76 | an order is built exactly when the requirements are present and at most 2000 UTF-16 code units long; it is valid, pending, not completed and not reviewed, and it keeps the given parties, gig, price and requirements, created at `now` |
| Entities.NewReview | Backend/models/Review.js:3-55 | a review is built exactly when the rating is 1..5 and the message is present with at most 1000 UTF-16 code units; it keeps order, parties, rating and message, created at `now`; anonymous only when it is given as true |
| Entities.NewMessage | Backend/models/Message.js:3-54 | a message is built exactly when it has text; it is unread and has no attachments unless some are given |
| Entities.PublicProfileHidesSecrets | Backend/models/User.js:147-161 | the public profile is the same whatever the password and the wallet balance |
| Entities.PublicProfileShowsTheRest | Backend/models/User.js:147-161 | two users with the same public profile differ at most in password, wallet and update time |
| Entities.InsertUser | Backend/models/User.js:22-26 | a user is stored exactly when no stored user has the same email, and a refusal is a 500; storing a valid user keeps the store valid |
| Orders.CreateOrder | Backend/controller/orderController.js:9-54 | 403 unless the caller is an existing client, checked first; then 404 for a missing gig, then 400 for an inactive gig or the caller's own gig; success is exactly the remaining case with valid requirements; the appended order has the caller as client, the gig's owner, the gig and its price, and is pending; nothing else changes |
| Orders.NoSelfOrder | Backend/controller/orderController.js:39-45 | ordering one's own gig always fails, with 403 or 400 |
| Orders.GetOrderById | Backend/controller/orderController.js:120-143 | 404 for a missing order; success exactly for the client or the freelancer of the order, else 403 |
| Orders.UpdateOrderStatus | Backend/controller/orderController.js:159-189 | 404, then 403 unless the caller is the freelancer, then 400 for a name outside accepted/in_progress/delivered; success is exactly the remaining case, whatever the current status; only that order's status changes, to the named one |
| Orders.CompleteOrder | Backend/controller/orderController.js:206-246 | 404, then 403 unless the caller is the client, then 400 unless the order is delivered; on success the order is completed at `now`, the gig's order counter rises by exactly 1 and the freelancer's wallet by exactly the order price, and no other order, gig or user changes |
| Orders.CancelOrder | Backend/controller/orderController.js:263-294 | 404, then 403 unless the caller is a party, then 400 unless the order is pending; success makes it cancelled and changes nothing else |
| Orders.StepsFollowTable | Backend/controller/orderController.js:159-294 | every successful status update, completion or cancellation makes a move allowed by the lifecycle table for the caller's role, and keeps the order's parties, gig, price and review flag |
| Orders.TableMovesAreReachable | Backend/controller/orderController.js:159-294 | every move allowed by the lifecycle table is made by some request |
| Orders.OnlyCompletionSettles | Backend/controller/orderController.js:238-246 | status updates and cancellations never change users or gigs |
| Orders.CompletedOrderCanBeSettledTwice | Backend/controller/orderController.js:179-189 | complete, set back to delivered, and complete again: the wallet is credited twice the price |
| Orders.LifecyclePreservesValidity | Backend/controller/orderController.js:159-294 | the three lifecycle requests keep every schema and index invariant of the store |
| Orders.SettlementKeepsValidity | Backend/controller/orderController.js:233-246 | changing only order statuses and completion times, gig order counters and wallet balances keeps a valid store valid |
| Orders.CreatePreservesValidity | Backend/controller/orderController.js:47-54 | placing an order keeps every schema and index invariant |
| Ratings.RoundedMeanTenths | Backend/controller/reviewController.js:159-164 | the result t is the mean rounded to the nearest tenth, half up: 2n·t − n ≤ 20·sum < 2n·t + n |
| Ratings.RoundedMeanIsUnique | Backend/controller/reviewController.js:163 | only one value satisfies that rounding bracket, so the rounding is determined |
| Ratings.RoundedMeanBounds | Backend/controller/reviewController.js:159-163 | when the stars average between 1 and 5, the rounded mean is between 1.0 and 5.0 |
| Ratings.ExactMeanIsKept | Backend/controller/reviewController.js:159-163 | a mean that is a whole number of tenths is reported exactly, for every sum and count |
| Ratings.SumOfValid | Backend/models/Review.js:29-34 | n valid reviews have between n and 5n stars in total |
| Ratings.UpdateUserRating | Backend/controller/reviewController.js:154-166 | with reviews about the user, the user's rating is the rounded mean of those reviews and the count is their number, and nothing else changes; without such a review, or without the user, the store is unchanged |
| Ratings.UpdateGigRating | Backend/controller/reviewController.js:169-184 | the same for a gig, over exactly the reviews whose order belongs to the gig |
| Ratings.UserRatingInBounds | Backend/controller/reviewController.js:159-163 | with valid reviews, a recomputed user rating is within 1.0..5.0, so within the schema's 0..5 |
| Ratings.GigRatingInBounds | Backend/controller/reviewController.js:177-182 | the same for a gig |
| Reviews.CreateReview | Backend/controller/reviewController.js:10-66 | 404, then 403 unless the caller is the order's client, then 400 unless the order is completed, then 400 if the order already has a review; success is exactly the remaining case with a rating 1..5 and a message of at most 1000 UTF-16 code units; the new review is appended with the caller as reviewer, the order's freelancer as reviewee, the body's rating and message, created at `now`, and anonymous only if asked; the order is marked reviewed, and both ratings are recomputed over all reviews (`Rerated`) |
| Reviews.Rerate | Backend/controller/reviewController.js:58-62 | the user update followed by the gig update recomputes both ratings as means over the current reviews, and changes no other user, gig or field |
| Reviews.CreatedReviewCounts | Backend/controller/reviewController.js:58-62 | the new review is among both the freelancer's and the gig's reviews, so neither recomputation is the empty no-op |
| Reviews.ReviewedFlagKeepsGigReviews | Backend/controller/reviewController.js:64-66 | marking the order reviewed does not change which reviews belong to a gig |
| Reviews.ReviewOncePerOrder | Backend/controller/reviewController.js:39-46 | a second review of the same order always fails, with 400 for the client |
| Reviews.CreateReviewPreservesValidity | Backend/controller/reviewController.js:10-66 | review creation keeps every schema and index invariant, including one review per order |
| Reviews.NewReviewKeepsReviewInvariants | Backend/models/Review.js:5-11 | appending a review for an order that has none keeps the one-review-per-order index and the review-to-order links |
| Reviews.ReratedUsersValid | Backend/models/User.js:91-99 | recomputing a freelancer's rating over valid reviews keeps every user valid and the email index unique |
| Reviews.ReratedGigsValid | Backend/models/Gig.js:105-111 | recomputing a gig's rating over valid reviews keeps every gig valid |
| Reviews.ListReviews | Backend/controller/reviewController.js:99-113 | one entry per review, in order; anonymous reviews show the fixed anonymous reviewer; every other field is carried over; the count is the number of reviews |
| Reviews.AnonymousHidesReviewer | Backend/controller/reviewController.js:100-104 | an anonymous entry is the same whoever wrote the review |
| Reviews.GetGigReviews | Backend/controller/reviewController.js:87-113 | the listing of exactly the reviews of the gig's orders, taken newest first and masked (`ListsNewestFirst`); the count is their number and the number of entries |
| Reviews.EveryGigReviewListed | Backend/controller/reviewController.js:87-113 | every review of an order of the gig has an entry in the gig's listing, and that entry is the review masked |
| Reviews.GetUserReviews | Backend/controller/reviewController.js:124-146 | the listing of exactly the reviews about the user, taken newest first and masked (`ListsNewestFirst`); the count is their number and the number of entries |
| Reviews.EveryUserReviewListed | Backend/controller/reviewController.js:124-146 | every review about the user has an entry in the user's listing, and that entry is the review masked |
| Messages.SendMessage | Backend/controller/messageController.js:9-75 | an order id takes precedence: 404 for a missing order, 403 for a non-party, and the receiver is the other party; otherwise a gig id is needed (400 without one): 404 for a missing gig, 400 for the owner, and the receiver is the owner; success is exactly the remaining case with text; the message is appended with both ids as given, the caller as sender, unread, and no attachments unless some are given |
| Messages.NoMessageToSelf | Backend/controller/messageController.js:36-59 | when no order has the same user on both sides, a sent message never goes to its sender |
| Messages.SendPreservesValidity | Backend/controller/messageController.js:67-75 | sending keeps every schema and index invariant |
| Messages.OldestFirst | Backend/controller/messageController.js:118-120 | the result is ordered oldest first and is a permutation of its input |
| Messages.GetOrderMessages | Backend/controller/messageController.js:96-131 | 404, then 403 for a non-party; the thread is every message of the order, oldest first; afterwards exactly the order's messages addressed to the caller are read, and nothing else changes |
| Messages.GetGigMessages | Backend/controller/messageController.js:143-193 | 404 for a missing gig; 400 when the owner names no client; the thread is the messages of that one pair about the gig outside any order, oldest first; only that pair's messages to the caller become read |
| Messages.ReadingLeavesSentMessages | Backend/controller/messageController.js:122-126 | reading a thread leaves every message the caller did not receive, and every message outside the order, as it was |
| Messages.MarkAsRead | Backend/controller/messageController.js:205-225 | 404, then 403 unless the caller is the receiver; success marks that message read and nothing else |
| Messages.MarkAsReadIdempotent | Backend/controller/messageController.js:224-225 | marking read twice is the same as marking once |
| Messages.UnreadCount | Backend/controller/messageController.js:241-251 | the count is the number of stored messages that are addressed to the caller and unread |
| Messages.MarkAsReadLowersUnread | Backend/controller/messageController.js:205-251 | marking read lowers the receiver's unread count by one if the message was unread, and otherwise leaves it |
| Messages.ReadingClearsThread | Backend/controller/messageController.js:122-126 | after reading an order's thread none of its messages is unread for the caller, the caller's count does not rise, and other users' counts are unchanged |
| Conversations.NewestFirst | Backend/controller/messageController.js:302 | the result is a permutation of its input, newest first |
| Conversations.Newest | Backend/controller/messageController.js:275 | the chosen message is one of the list and none is newer |
| Conversations.UnreadInOrder | Backend/controller/messageController.js:278-280 | the number of the order's messages addressed to the caller and unread |
| Conversations.ChatOf | Backend/controller/messageController.js:274-289 | an order has no entry exactly when it has no message; otherwise the entry names the order's gig, the other party, the newest message and the unread count |
| Conversations.ChatOrders | Backend/controller/messageController.js:265-276 | exactly the orders of which the caller is a party and that have messages |
| Conversations.OrderChats | Backend/controller/messageController.js:273-291 | every order chat listed is the chat entry of an order with a chat, and every such order is listed |
| Conversations.FirstPositions | Backend/controller/messageController.js:304-310 | exactly the positions whose key did not occur before, in increasing order |
| Conversations.FirstsFrom | Backend/controller/messageController.js:304-328 | the reference grouping: the first message of each key, in order, with no key twice |
| Conversations.GroupFrom | Backend/controller/messageController.js:305-328 | the loop with its map of seen keys computes the reference grouping |
| Conversations.SeenMeansNotFirst | Backend/controller/messageController.js:310 | a key is in the map exactly when its message is not the first of the key |
| Conversations.FirstsFromStep | Backend/controller/messageController.js:306-328 | one step of the loop: the grouping from i is that from i+1, preceded by message i exactly when it is first of its key |
| Conversations.FirstOccurrence | Backend/controller/messageController.js:304-310 | every message's key first occurs at some position no later than the message |
| Conversations.InquiryPosition | Backend/controller/messageController.js:295-302 | every inquiry message of the caller is in the sorted inquiry list |
| Conversations.UnreadInquiries | Backend/controller/messageController.js:312-318 | the number of unread messages from that user to the caller about that gig outside any order |
| Conversations.InquiryHeads | Backend/controller/messageController.js:304-330 | the representatives are the reference grouping of the caller's inquiries sorted newest first |
| Conversations.Inquiries | Backend/controller/messageController.js:320-330 | one entry per group, with that group's key, newest message and unread count |
| Conversations.InquiryKeysDistinct | Backend/controller/messageController.js:304-310 | no two inquiry entries share a key |
| Conversations.EveryInquiryListed | Backend/controller/messageController.js:293-330 | every inquiry message of the caller has the entry of its key |
| Conversations.InquiryShowsNewest | Backend/controller/messageController.js:302-323 | an inquiry entry shows a message at least as new as every message of its key |
| Conversations.FirstIsNewest | Backend/controller/messageController.js:302-310 | in a list sorted newest first, the first message of a key is the newest of that key |
| Conversations.MyConversations | Backend/controller/messageController.js:330-336 | the inbox is a permutation of the order chats followed by the inquiries, sorted by last-message time, newest first; conversations with the same last-message time keep their order in that list, as the stable `Array.prototype.sort` does |
| Seqs.SortIsStable | Backend/controller/messageController.js:334-336 | the sort used for the inbox is stable: for every key value, the elements with that key appear in the same order before and after sorting |
| Conversations.OrderChatListed | Backend/controller/messageController.js:273-336 | an order is in the inbox exactly when the caller is a party and it has messages, and its entry names the other party |
| Paging.TotalPages | Backend/controller/gigController.js:102 | `Math.ceil(total / limit)`: the least integer n with total ≤ n·limit for a positive limit; the matching bracket for a negative one; Infinity or NaN when dividing by zero |
| Paging.TotalPagesPositive | Backend/controller/gigController.js:81-102 | with a positive limit, the page count is 0 exactly when nothing matches, and the last page starts before the end |
| Paging.Page | Backend/controller/gigController.js:88-92 | a negative offset is refused with a 500; otherwise the contiguous run from the offset, of at most `limit` items (all the rest for 0; the absolute value for a negative limit) |
| Paging.PagesCoverAll | Backend/controller/gigController.js:81-102 | with a positive limit, item i is on page i/limit + 1 at position i mod limit, and that page is within the page count |
| Paging.Paginate | Backend/controller/gigController.js:80-104 | success exactly when `(page - 1) * limit` is non-negative; the total counts every match, and the items are the run of the matches that starts at the offset |
| Paging.PaginateBounds | Backend/controller/gigController.js:80-92 | for page ≥ 1 and a positive limit, a page has at most `limit` items, exactly those at positions (page−1)·limit onwards |
| Gigs.CreateGig | Backend/controller/gigController.js:8-26 | 403 unless the caller is an existing freelancer; otherwise success exactly when the schema accepts the body, else a 500; the gig stored under the new id is the one the schema builds from the body for the caller, so it is valid and its fields are those of `Entities.NewGig`; nothing else changes |
| Gigs.CreateGigIgnoresBodyOwner | Backend/controller/gigController.js:20-24 | whatever owner the body names, the result is the same |
| Gigs.MatchingGigs | Backend/controller/gigController.js:56-69 | exactly the ranked ids of stored gigs that are active, of the category, and within the inclusive price bounds |
| Gigs.GetAllGigs | Backend/controller/gigController.js:43-104 | success exactly when the offset is non-negative; the total is the number of matches, the page as requested, `Math.ceil(total / limit)` pages with default page 1 and limit 10; the items are exactly the run of the matching gigs, in ranking order, that the store returns from offset (page−1)·limit |
| Gigs.MatchingIgnoresPaging | Backend/controller/gigController.js:56-69 | the matching gigs do not depend on the page and limit |
| Gigs.EveryGigListed | Backend/controller/gigController.js:80-104 | with a positive limit, every ranked gig that matches appears on some page within the page count |
| Gigs.TotalCountsMatchingGigs | Backend/controller/gigController.js:95 | when the ranking lists each stored gig once, the total is the number of stored gigs matching the query |
| Gigs.GetGigById | Backend/controller/gigController.js:115-134 | 404 for a missing gig; otherwise the view counter rises by exactly 1, and the counted gig is returned and stored |
| Gigs.FetchTimes | Backend/controller/gigController.js:127-129 | n fetches add exactly n views and change nothing else |
| Gigs.Patch | Backend/controller/gigController.js:164-191 | success exactly when the supplied fields pass the update validators (title and description bounds in UTF-16 code units), else a 500; the nine allow-listed fields are taken from the body when given (title trimmed); owner, counters, rating and creation time are kept; the update time is set |
| Gigs.PatchKeepsValid | Backend/models/Gig.js:19-116 | a successful patch of a valid gig is valid |
| Gigs.UpdateGig | Backend/controller/gigController.js:145-191 | 404, then 403 for anyone but the owner; success exactly when the patch succeeds; only that gig changes, to its patch |
| Gigs.UpdateIgnoresProtectedFields | Backend/controller/gigController.js:164-183 | the result is the same whatever the body says about owner, views, orders, rating and review count |
| Gigs.UpdatePreservesValidity | Backend/controller/gigController.js:186-191 | updating keeps the store valid |
| Gigs.DeleteGig | Backend/controller/gigController.js:208-227 | 404, then 403 for anyone but the owner; success removes that gig and nothing else |
| Gigs.DeletedGigIsGone | Backend/controller/gigController.js:208-227 | after deletion fetching the gig is a 404, and so is a second deletion |
| Gigs.GetGigsByFreelancer | Backend/controller/gigController.js:263-268 | every listed gig is an active gig of that freelancer, as stored, newest first |
| Gigs.EveryOwnGigListed | Backend/controller/gigController.js:263-268 | every active gig of the freelancer is listed |
| Users.GetUserProfile | Backend/controller/userController.js:7-22 | 404 exactly for an unknown id; otherwise that user's public profile |
| Users.ApplyProfile | Backend/controller/userController.js:35-53 | only name (trimmed), description, picture, skills and category come from the body; email, password, type, rating, review count, wallet and creation time are kept; the update time is set |
| Users.UpdateProfile | Backend/controller/userController.js:33-76 | the validators run first (500; the description bound is 500 UTF-16 code units), then 404 for an unknown caller; on success only the caller's document changes, to its patch, and its public profile is returned |
| Users.UpdateIgnoresProtectedFields | Backend/controller/userController.js:36-50 | the result is the same whatever the body says about email, password, type, rating, review count and wallet |
| Users.UpdateThenGet | Backend/controller/userController.js:72-76 | the profile the update returns is what a later profile fetch shows |
| Users.UpdatePreservesValidity | Backend/controller/userController.js:56-63 | a successful update keeps the store valid, and the email index unique |
| Users.PatchedUserIsValid | Backend/models/User.js:11-74 | a valid user patched by a body that passes the validators is valid |
| Users.MatchingUsers | Backend/controller/userController.js:93-106 | exactly the users in natural order that are freelancers, of the category, listing the skill, rated at least the minimum |
| Users.Ranked | Backend/controller/userController.js:112-116 | one entry per matching freelancer, highest rating first, each the user without the password |
| Users.GetAllFreelancers | Backend/controller/userController.js:87-128 | success exactly when the offset is non-negative, else a 500; the total counts all matches, the page count is `Math.ceil(total / limit)` with defaults 1 and 10, and the items are exactly the run of the ranked entries that the store returns from offset (page−1)·limit, highest rating first |
| Users.PageOfRanked | Backend/controller/userController.js:109-116 | a page of the ranked entries is still sorted, and holds only matching entries |
| Users.RankedIgnoresPaging | Backend/controller/userController.js:112-119 | the ranking does not depend on the page and limit |
| Users.MatchingIsRanked | Backend/controller/userController.js:112-116 | every matching freelancer has a place in the ranking |
| Users.EveryFreelancerListed | Backend/controller/userController.js:109-126 | with a positive limit, every matching freelancer appears on some page within the page count |
| Users.DirectoryHidesPasswords | Backend/controller/userController.js:112-113 | the listing is the same whatever a user's password is |
| Users.DeleteAccount | Backend/controller/userController.js:139-147 | 404 exactly for an unknown caller; otherwise only the caller's document is removed |
| Users.DeletedAccountIsGone | Backend/controller/userController.js:139-147 | after deletion the profile is a 404, and so is a second deletion |
| Users.DeletePreservesValidity | Backend/controller/userController.js:139-147 | deletion keeps the store valid |
| Text.Trim | Backend/models/User.js:18 | the result has no white space at either end and is the run of the input that starts after its leading white space |
| Text.TrimRemovesOnlySpace | Backend/models/User.js:18 | everything trimmed away is white space |
| Text.TrimOfTrimmed | Backend/models/Gig.js:22 | trimming a trimmed string changes nothing |
| Text.TrimIdempotent | Backend/models/Gig.js:22 | trimming twice is trimming once |
| Text.Lower | Backend/models/User.js:28 | the result has the length of the input and holds the lower-case of each character |
| Text.LowerIsLower | Backend/models/User.js:28 | a lower-cased string is in lower case |
| Text.Split | Frontend/src/pages/CreateGig.jsx:119 | the pieces between separators, none holding the separator |
| Text.JoinSplit | Frontend/src/pages/CreateGig.jsx:119 | joining the pieces with the separator gives back the input |
| Text.SplitJoin | Frontend/src/pages/CreateGig.jsx:119 | splitting a join of separator-free pieces gives back the pieces |
| Text.SplitAppend | Frontend/src/pages/CreateGig.jsx:119 | splitting two strings joined by a separator gives the pieces of the first then the second |
| Text.JsLength | Backend/models/User.js:41 | `length` in UTF-16 code units: between the number of characters and twice it, and equal to it exactly when no character lies outside the Basic Multilingual Plane |
| Text.JsLengthAppend | Backend/models/Gig.js:23 | the length of a concatenation is the sum of the lengths |
| Text.SurrogatePairsCountTwice | Frontend/src/pages/Signup.jsx:37 | three emoji are three characters but length 6 |
| GigForm.AddImage | Frontend/src/pages/CreateGig.jsx:42-57 | an empty field does nothing; the URL is added exactly when it matches `^https?://.+` and fewer than 5 images are listed, and the field is then cleared; a refusal keeps both |
| GigForm.AddFile | Frontend/src/pages/CreateGig.jsx:59-85 | the file passes exactly when there is one, its type starts with `image/`, it is at most 5 MB and fewer than 5 images are listed; its data URL is then what the finished read appends |
| GigForm.StartRead | Frontend/src/pages/CreateGig.jsx:59-89 | choosing a file leaves the list as it is, and starts a read exactly when the file passes the checks |
| GigForm.FinishReadAsWritten | Frontend/src/pages/CreateGig.jsx:79-84 | a finished read appends the oldest pending data URL with no check |
| GigForm.FinishRead | Frontend/src/pages/CreateGig.jsx:79-84 | a finished read appends the oldest pending data URL only while fewer than 5 images are listed, and drops it otherwise |
| GigForm.KeepOthers | Frontend/src/pages/CreateGig.jsx:91-95 | the filter from a position on keeps every image except the one at the index, in order |
| GigForm.RemoveImage | Frontend/src/pages/CreateGig.jsx:91-96 | exactly the image at the index is removed, the rest keep their order; an index outside the list changes nothing |
| GigForm.ImageCapHolds | Frontend/src/pages/CreateGig.jsx:48-85 | whatever additions, file reads and removals happen, starting from at most 5 images, the list never holds more than 5 once a finished read checks the cap |
| GigForm.ReadsCanOverfillTheList | Frontend/src/pages/CreateGig.jsx:73-85 | as written, 4 images, a file read still running and a URL added meanwhile end with 6 images |
| GigForm.TrimAll | Frontend/src/pages/CreateGig.jsx:119 | each piece trimmed, in place |
| GigForm.ParseTags | Frontend/src/pages/CreateGig.jsx:119 | every tag is non-empty, has no edge white space and no comma, and every non-blank piece gives its trimmed self |
| GigForm.TrimmedHasNoComma | Frontend/src/pages/CreateGig.jsx:119 | trimming a piece without a comma leaves no comma |
| GigForm.ParseTagsAppend | Frontend/src/pages/CreateGig.jsx:119 | tags keep the input order: the tags of two fields joined by a comma are the first field's tags then the second's |
| GigForm.ParseTagsOfJoin | Frontend/src/pages/CreateGig.jsx:119 | clean tags joined by commas parse back to themselves |
| GigForm.FilterKeepsAll | Frontend/src/pages/CreateGig.jsx:119 | removing empty strings from a list without any keeps the list |
| GigForm.Submit | Frontend/src/pages/CreateGig.jsx:98-120 | refused exactly when a required field is empty, then exactly when no image is listed; otherwise the fields are sent with the tags parsed |
| GigForm.SentRequestIsWellFormed | Frontend/src/pages/CreateGig.jsx:48-119 | a request sent from a list built by the form's events, with the cap checked when reads finish, has 1 to 5 images and only non-empty tags |
| Signup.Validate | Frontend/src/pages/Signup.jsx:32-43 | each field is flagged exactly on its rule (empty name, empty email, password under 6 UTF-16 code units, differing confirmation) with its message; the form passes exactly when nothing is flagged |
| Signup.ValidateAccepts | Frontend/src/pages/Signup.jsx:32-43 | the form passes exactly when name and email are filled, the password is at least 6 UTF-16 code units long and the confirmation repeats it |
| Signup.AstralPasswordPasses | Frontend/src/pages/Signup.jsx:37 | a password of three emoji is 3 characters but passes the length rule |
| Signup.PasswordRequiredNeverShown | Frontend/src/pages/Signup.jsx:36-37 | the "required" message for the password is always replaced by the length message |
| Signup.PassedFormIsAccepted | Frontend/src/pages/Signup.jsx:32-43 | a form that passes, with a known role and a name that is not blank, gives a user the schema accepts |
| Signup.BlankNamePassesOnlyTheForm | Frontend/src/pages/Signup.jsx:34 | a name of one space passes the form but the schema refuses it after trimming |

## Left out

- HTTP wiring, routing and the error middleware: outcomes are `Result` values. A schema or index failure is `ServerError`, the 500 the middleware answers for it.
- `populate`: identifiers stay raw. A reference to a deleted user or gig is not resolved, except in review listings, where a deleted reviewer shows as null. The type errors that `order.clientId._id` raises on a missing populated document are not modelled.
- Regular-expression search in `getAllGigs` (gigController.js:72-78): the query has no search term.
- The email format regex of the User schema (User.js:31-35): an email only needs to be non-empty.
- Entities.NewUser: the email format rule is not checked, so an email that fails it is accepted here and refused with a 500 by the schema.
- Signup.PassedFormIsAccepted: holds only because the email format rule is left out. An email such as "x" passes the form but the schema refuses it.
- Parsing query strings with `Number()`: page, limit, minPrice, maxPrice and rating arrive as integers. The minimum rating is in tenths.
- Sorting by an arbitrary field: `ranking` and `natural` are parameters. Any order the store produces is allowed, provided it lists each document once where a lemma needs that.
- Sorting of the caller's orders by `updatedAt` in `getMyConversations`: order chats are taken in store order before the final stable sort. The Order schema has no such field.
- Non-atomic multi-write sequences: completion's three writes and the rating read-then-write are one step each.
- Concurrency: the `Promise.all` fan-out in `getMyConversations`.
- Password hashing, `comparePassword`, and JWT signing and verification: the caller is an input, and the stored password is taken as given.
- The socket relay in `server.js`: a transport with no stored state.
- Timestamps: `now` is an abstract integer. Dates are not parsed or compared as text.
- Fractional review ratings: the schema does not require whole stars, but ratings here are integers.
- Setting `profilePicture` or `category` to null through an update: a supplied value is always a string.
- Fresh identifiers: creation takes the new gig or user id as a parameter, and orders, reviews and messages take the next position.
- `getMyOrders`, `getReceivedOrders` and `getMyGigs`: listings outside the modelled core.
- Rendering, navigation and toasts on the client pages: only the outcomes and messages are modelled.
- Conversations.UnreadInquiries: the source's count passes `gigId: undefined` for a message without a gig, which the query drops. The model counts such messages as having no gig.
- Text.Lower: lower-casing is ASCII only. The JavaScript `toLowerCase` also maps non-ASCII letters.
- GigForm.Submit: price, delivery days and revisions are sent as typed text. The `Number()` conversion at CreateGig.jsx:115-117 is not modelled, and it can yield a fraction.
- Entities.NewGig: price, delivery days and revisions are whole numbers here. The Gig schema's Number fields accept fractions such as a price of 150.5, so a fractional price is not modelled. Order prices copied from it are integers here, and so are the wallet credits that completion adds, where the program adds doubles.
- GigForm.AddFile: a pending read is a data URL given in advance. The reading itself is not modelled.
- Malformed identifiers: every identifier is a well-formed ObjectId. In the program, a malformed id in a path or body makes `findById` throw a cast error, and the error middleware (server.js:141-147) answers 500. This applies to every endpoint that takes an id, e.g. `GET /api/users/abc` (userController.js:9), a bad `gigId` in createOrder (orderController.js:23) and a bad `orderId` in createReview (reviewController.js:15). The model's 404 rows cover only well-formed ids that are absent.
- Users.EveryFreelancerListed: assumes every page query breaks rating ties in the same order. MongoDB does not promise this, so a freelancer tied at a page boundary can appear on two pages or on none. Ties are common because new freelancers all have rating 0.
- Gigs.EveryGigListed: assumes every page query returns the same `ranking`, ties included. MongoDB does not promise a fixed order among equal sort keys across skip/limit queries.

## Findings

| source | as written | input that shows it | evidently intended | confidence | as-written member | corrected member |
|---|---|---|---|---|---|---|
| Frontend/src/pages/CreateGig.jsx:73-85 | the 5-image cap is checked when a file is chosen, but the data URL is appended when the asynchronous read finishes, with no check then | 4 images listed; choose an image file; before its read finishes, add the URL "http://f"; the read then finishes, leaving 6 images | at most 5 images, checked when the image is actually appended | not executed; medium (depends on the read finishing after the second addition) | GigForm.ReadsCanOverfillTheList | GigForm.ImageCapHolds |

=== FILE: conversations.dfy ===
/** The inbox (`getMyConversations`): one entry per order chat that has
    messages and one per gig inquiry, merged and sorted newest first.

    Order chats: every order the caller is a party to, in store order, that
    has at least one message; the entry shows the newest message, the other
    party, and the number of the order's messages still unread by the
    caller.

    Inquiries: the caller's messages outside any order, newest first,
    grouped by (other user, gig or none); the first message of each group,
    which is therefore its newest, represents it, and the entry counts the
    unread messages from that user to the caller about that gig. */
module Conversations {
  import opened Outcome
  import opened Entities
  import Seqs
  import Orders
  import Messages

  /** What an entry shows of its newest message. */
  datatype LastMessage = LastMessage(text: string, createdAt: Time, isRead: bool)

  datatype Conversation =
    | OrderChat(orderId: OrderId, gigId: GigId, otherUser: UserId, last: LastMessage, unreadCount: nat)
    | Inquiry(gig: Option<GigId>, otherUser: UserId, last: LastMessage, unreadCount: nat)

  function Summary(m: Message): LastMessage
  {
    LastMessage(m.text, m.createdAt, m.isRead)
  }

  /** The store's `.sort({ createdAt: -1 })`, newest first. The store puts
      messages with equal times in no fixed order; the model takes the
      stable order, one of those the store may return. */
  function NewestFirst(ms: seq<Message>): (r: seq<Message>)
    ensures multiset(r) == multiset(ms) && |r| == |ms|
    ensures forall i, j :: 0 <= i < j < |r| ==> r[i].createdAt >= r[j].createdAt
  {
    var r := Seqs.SortDesc(ms, (m: Message) => m.createdAt);
    assert Seqs.SortedDesc(r, (m: Message) => m.createdAt);
    r
  }

  /** Whether `last` shows one of `ms` and none of `ms` is newer. */
  predicate LatestOf(ms: seq<Message>, last: LastMessage)
  {
    && (exists k :: 0 <= k < |ms| && last == Summary(ms[k]))
    && (forall k :: 0 <= k < |ms| ==> ms[k].createdAt <= last.createdAt)
  }

  /** The store's `findOne(...).sort({ createdAt: -1 })`: the first message
      of the newest-first order. */
  function Newest(ms: seq<Message>): (m: Message)
    requires |ms| > 0
    ensures LatestOf(ms, Summary(m))
  {
    var sorted := NewestFirst(ms);
    var m := sorted[0];
    assert m in multiset(ms);
    forall k | 0 <= k < |ms|
      ensures ms[k].createdAt <= m.createdAt
    {
      assert ms[k] in multiset(sorted);
    }
    m
  }

  // ------------------------------------------------------------ order chats

  /** The messages of order `orderId`, in store order. */
  function OrderThread(s: Store, orderId: OrderId): seq<Message>
  {
    Seqs.Filter(s.messages, (m: Message) => Messages.InOrder(m, orderId))
  }

  /** The number of the order's messages still unread by `caller`: the
      number of positions holding one. */
  function UnreadInOrder(s: Store, caller: UserId, orderId: OrderId): (n: nat)
    ensures n == |set k: nat | k < |s.messages| && Messages.InOrder(s.messages[k], orderId)
                                 && Messages.UnreadFor(s.messages[k], caller)|
  {
    var p := (m: Message) => Messages.InOrder(m, orderId) && Messages.UnreadFor(m, caller);
    Seqs.CountIsPositions(s.messages, p);
    assert Seqs.Positions(s.messages, p) == set k: nat | k < |s.messages| && Messages.InOrder(s.messages[k], orderId)
                                                        && Messages.UnreadFor(s.messages[k], caller);
    Seqs.Count(s.messages, p)
  }

  /** The chat entry of order `i` for `caller`, or none when the order has
      no message: the newest message of the order, the other party, and
      the order's messages unread by the caller. */
  function ChatOf(s: Store, caller: UserId, i: OrderId): (c: Option<Conversation>)
    requires i < |s.orders|
    ensures c.None? <==> |OrderThread(s, i)| == 0
    ensures c.Some? ==>
      && c.value.OrderChat? && c.value.orderId == i && c.value.gigId == s.orders[i].gigId
      && c.value.otherUser == Messages.Counterpart(s.orders[i], caller)
      && LatestOf(OrderThread(s, i), c.value.last)
      && c.value.unreadCount == UnreadInOrder(s, caller, i)
  {
    var thread := OrderThread(s, i);
    if |thread| == 0 then None
    else
      Some(OrderChat(i, s.orders[i].gigId, Messages.Counterpart(s.orders[i], caller), Summary(Newest(thread)),
                     UnreadInOrder(s, caller, i)))
  }

  /** Whether `cs` holds an order-chat entry for order `i`. */
  predicate ListsOrder(cs: seq<Conversation>, i: OrderId)
  {
    exists k :: 0 <= k < |cs| && cs[k].OrderChat? && cs[k].orderId == i
  }

  /** Whether order `i` gets a chat entry: the caller is one of its parties
      and it has at least one message. */
  predicate HasChat(s: Store, caller: UserId, i: nat)
  {
    i < |s.orders| && Orders.IsParty(s.orders[i], caller) && |OrderThread(s, i)| > 0
  }

  /** The orders with a chat entry, in store order. */
  function ChatOrders(s: Store, caller: UserId): (ids: seq<nat>)
    ensures forall k :: 0 <= k < |ids| ==> HasChat(s, caller, ids[k])
    ensures forall i :: HasChat(s, caller, i) ==> i in ids
  {
    var all: seq<nat> := seq(|s.orders|, i requires 0 <= i < |s.orders| => i);
    var ids := Seqs.Filter(all, (i: nat) => HasChat(s, caller, i));
    assert forall i: nat :: HasChat(s, caller, i) ==> i < |all| && all[i] == i;
    ids
  }

  /** The order chat entries, in store order. */
  function OrderChats(s: Store, caller: UserId): (cs: seq<Conversation>)
    ensures forall k :: 0 <= k < |cs| ==>
      cs[k].OrderChat? && HasChat(s, caller, cs[k].orderId) && ChatOf(s, caller, cs[k].orderId) == Some(cs[k])
    ensures forall i :: HasChat(s, caller, i) ==> ListsOrder(cs, i)
  {
    var ids := ChatOrders(s, caller);
    var cs := seq(|ids|, k requires 0 <= k < |ids| => ChatOf(s, caller, ids[k]).value);
    forall i | HasChat(s, caller, i)
      ensures ListsOrder(cs, i)
    {
      var k :| 0 <= k < |ids| && ids[k] == i;
      assert cs[k].orderId == i;
    }
    cs
  }

  // -------------------------------------------------------------- inquiries

  /** How inquiries are grouped: the other user and the gig, if any. */
  datatype Key = Key(otherUser: UserId, gig: Option<GigId>)

  /** The receiver when the caller sent `m`, the sender otherwise. */
  function OtherUser(m: Message, caller: UserId): UserId
  {
    if m.senderId == caller then m.receiverId else m.senderId
  }

  function KeyOf(m: Message, caller: UserId): Key
  {
    Key(OtherUser(m, caller), m.gigId)
  }

  /** Whether `m` is one of the caller's messages outside any order. */
  predicate IsInquiryOf(m: Message, caller: UserId)
  {
    m.orderId.None? && (m.senderId == caller || m.receiverId == caller)
  }

  /** Whether no message before position `j` shares the key of `ms[j]`. */
  predicate FirstOfKey(ms: seq<Message>, caller: UserId, j: nat)
    requires j < |ms|
  {
    forall k :: 0 <= k < j ==> KeyOf(ms[k], caller) != KeyOf(ms[j], caller)
  }

  /** The keys of the first `i` messages. */
  function KeysBefore(ms: seq<Message>, caller: UserId, i: nat): set<Key>
    requires i <= |ms|
  {
    set k | 0 <= k < i :: KeyOf(ms[k], caller)
  }

  /** The positions from `i` on that come first among those with their
      key, in increasing order. */
  function FirstPositions(ms: seq<Message>, caller: UserId, i: nat): (ps: seq<nat>)
    requires i <= |ms|
    ensures forall x :: 0 <= x < |ps| ==> i <= ps[x] < |ms| && FirstOfKey(ms, caller, ps[x])
    ensures forall x, y :: 0 <= x < y < |ps| ==> ps[x] < ps[y]
    ensures forall j :: i <= j < |ms| && FirstOfKey(ms, caller, j) ==> j in ps
    decreases |ms| - i
  {
    if i == |ms| then []
    else
      var rest := FirstPositions(ms, caller, i + 1);
      if FirstOfKey(ms, caller, i) then [i] + rest else rest
  }

  /** Reference grouping: the messages from position `i` on that come first
      among those with their key, in list order. Their keys are distinct. */
  function FirstsFrom(ms: seq<Message>, caller: UserId, i: nat): (r: seq<Message>)
    requires i <= |ms|
    ensures |r| == |FirstPositions(ms, caller, i)|
    ensures forall x :: 0 <= x < |r| ==> r[x] == ms[FirstPositions(ms, caller, i)[x]]
    ensures forall x, y :: 0 <= x < y < |r| ==> KeyOf(r[x], caller) != KeyOf(r[y], caller)
  {
    var ps := FirstPositions(ms, caller, i);
    seq(|ps|, x requires 0 <= x < |ps| => ms[ps[x]])
  }

  /** The grouping loop: walk the list keeping a map from key to entry, and
      add an entry only for a key the map does not hold yet. `seen` is the
      set of keys the map holds after the first `i` messages. It keeps
      exactly the reference grouping. */
  function GroupFrom(ms: seq<Message>, caller: UserId, i: nat, seen: set<Key>): (r: seq<Message>)
    requires i <= |ms|
    requires seen == KeysBefore(ms, caller, i)
    ensures r == FirstsFrom(ms, caller, i)
    decreases |ms| - i
  {
    if i == |ms| then []
    else
      var k := KeyOf(ms[i], caller);
      SeenMeansNotFirst(ms, caller, i, seen);
      FirstsFromStep(ms, caller, i);
      if k in seen then GroupFrom(ms, caller, i + 1, seen)
      else [ms[i]] + GroupFrom(ms, caller, i + 1, seen + {k})
  }

  /** A key is among those of the first `i` messages exactly when message
      `i` is not the first of its key. */
  lemma SeenMeansNotFirst(ms: seq<Message>, caller: UserId, i: nat, seen: set<Key>)
    requires i < |ms|
    requires seen == KeysBefore(ms, caller, i)
    ensures KeyOf(ms[i], caller) in seen <==> !FirstOfKey(ms, caller, i)
    ensures KeysBefore(ms, caller, i + 1) == seen + {KeyOf(ms[i], caller)}
  {
    if KeyOf(ms[i], caller) in seen {
      var l :| 0 <= l < i && KeyOf(ms[l], caller) == KeyOf(ms[i], caller);
    }
  }

  /** The reference grouping from `i` is that from `i + 1`, preceded by
      message `i` when it is the first of its key. */
  lemma FirstsFromStep(ms: seq<Message>, caller: UserId, i: nat)
    requires i < |ms|
    ensures FirstsFrom(ms, caller, i)
         == (if FirstOfKey(ms, caller, i) then [ms[i]] else []) + FirstsFrom(ms, caller, i + 1)
  {
    var ps := FirstPositions(ms, caller, i);
    var rest := FirstPositions(ms, caller, i + 1);
    var r := FirstsFrom(ms, caller, i);
    var r1 := FirstsFrom(ms, caller, i + 1);
    if FirstOfKey(ms, caller, i) {
      assert ps == [i] + rest;
      var e := [ms[i]] + r1;
      assert |r| == |e|;
      forall x | 0 <= x < |r|
        ensures r[x] == e[x]
      {
        if x > 0 {
          assert ps[x] == rest[x - 1];
        }
      }
    } else {
      assert ps == rest;
    }
  }

  /** Every message's key first occurs at a position that is first of its
      key. */
  lemma {:induction false} FirstOccurrence(ms: seq<Message>, caller: UserId, j: nat) returns (f: nat)
    requires j < |ms|
    ensures f <= j && FirstOfKey(ms, caller, f) && KeyOf(ms[f], caller) == KeyOf(ms[j], caller)
    decreases j
  {
    if FirstOfKey(ms, caller, j) {
      f := j;
    } else {
      var k :| 0 <= k < j && KeyOf(ms[k], caller) == KeyOf(ms[j], caller);
      f := FirstOccurrence(ms, caller, k);
    }
  }

  /** The caller's inquiry messages, newest first. */
  function InquiryMessages(s: Store, caller: UserId): seq<Message>
  {
    NewestFirst(Seqs.Filter(s.messages, (m: Message) => IsInquiryOf(m, caller)))
  }

  /** Each of the caller's inquiry messages has a place in the list. */
  lemma InquiryPosition(s: Store, caller: UserId, k: nat) returns (l: nat)
    requires k < |s.messages| && IsInquiryOf(s.messages[k], caller)
    ensures l < |InquiryMessages(s, caller)| && InquiryMessages(s, caller)[l] == s.messages[k]
  {
    var all := Seqs.Filter(s.messages, (x: Message) => IsInquiryOf(x, caller));
    var ms := InquiryMessages(s, caller);
    assert s.messages[k] in all;
    assert s.messages[k] in multiset(ms);
    l :| 0 <= l < |ms| && ms[l] == s.messages[k];
  }

  /** The unread messages from `other` to the caller about `gig`, outside
      any order. */
  predicate UnreadInquiry(m: Message, caller: UserId, other: UserId, gig: Option<GigId>)
  {
    m.gigId == gig && m.orderId.None? && m.senderId == other && Messages.UnreadFor(m, caller)
  }

  /** The number of unread messages from `other` to the caller about `gig`
      outside any order: the number of positions holding one. */
  function UnreadInquiries(s: Store, caller: UserId, other: UserId, gig: Option<GigId>): (n: nat)
    ensures n == |set k: nat | k < |s.messages| && UnreadInquiry(s.messages[k], caller, other, gig)|
  {
    var p := (x: Message) => UnreadInquiry(x, caller, other, gig);
    Seqs.CountIsPositions(s.messages, p);
    assert Seqs.Positions(s.messages, p) == set k: nat | k < |s.messages| && UnreadInquiry(s.messages[k], caller, other, gig);
    Seqs.Count(s.messages, p)
  }

  /** The inquiry entry represented by message `m`. */
  function InquiryOf(s: Store, caller: UserId, m: Message): Conversation
  {
    var other := OtherUser(m, caller);
    Inquiry(m.gigId, other, Summary(m), UnreadInquiries(s, caller, other, m.gigId))
  }

  function EntryKey(c: Conversation): Key
  {
    if c.Inquiry? then Key(c.otherUser, c.gig) else Key(c.otherUser, Some(c.gigId))
  }

  /** The representatives of the inquiry groups, newest first. */
  function InquiryHeads(s: Store, caller: UserId): (reps: seq<Message>)
    ensures reps == FirstsFrom(InquiryMessages(s, caller), caller, 0)
  {
    var ms := InquiryMessages(s, caller);
    assert KeysBefore(ms, caller, 0) == {};
    GroupFrom(ms, caller, 0, {})
  }

  /** One inquiry entry per group, in the order of the groups' heads. */
  function Inquiries(s: Store, caller: UserId): (cs: seq<Conversation>)
    ensures |cs| == |InquiryHeads(s, caller)|
    ensures forall i :: 0 <= i < |cs| ==>
      cs[i].Inquiry? && EntryKey(cs[i]) == KeyOf(InquiryHeads(s, caller)[i], caller)
      && cs[i].last == Summary(InquiryHeads(s, caller)[i])
      && cs[i].unreadCount == UnreadInquiries(s, caller, cs[i].otherUser, cs[i].gig)
  {
    var reps := InquiryHeads(s, caller);
    seq(|reps|, i requires 0 <= i < |reps| => InquiryOf(s, caller, reps[i]))
  }

  /** No two inquiry entries share a key. */
  lemma InquiryKeysDistinct(s: Store, caller: UserId)
    ensures var cs := Inquiries(s, caller);
      forall i, j :: 0 <= i < j < |cs| ==> EntryKey(cs[i]) != EntryKey(cs[j])
  {
  }

  /** Every inquiry message of the caller is represented by the entry of its
      key. */
  lemma EveryInquiryListed(s: Store, caller: UserId, k: nat)
    requires k < |s.messages| && IsInquiryOf(s.messages[k], caller)
    ensures var cs := Inquiries(s, caller);
      exists i :: 0 <= i < |cs| && EntryKey(cs[i]) == KeyOf(s.messages[k], caller)
  {
    var ms := InquiryMessages(s, caller);
    var reps := InquiryHeads(s, caller);
    var m := s.messages[k];
    var l := InquiryPosition(s, caller, k);
    var f := FirstOccurrence(ms, caller, l);
    var ps := FirstPositions(ms, caller, 0);
    var i :| 0 <= i < |ps| && ps[i] == f;
    assert reps[i] == ms[f];
    assert EntryKey(Inquiries(s, caller)[i]) == KeyOf(m, caller);
  }

  /** An inquiry entry shows the newest message of its key. */
  lemma InquiryShowsNewest(s: Store, caller: UserId, i: nat, k: nat)
    requires i < |Inquiries(s, caller)|
    requires k < |s.messages| && IsInquiryOf(s.messages[k], caller)
    requires KeyOf(s.messages[k], caller) == EntryKey(Inquiries(s, caller)[i])
    ensures s.messages[k].createdAt <= Inquiries(s, caller)[i].last.createdAt
  {
    var ms := InquiryMessages(s, caller);
    var reps := InquiryHeads(s, caller);
    var cs := Inquiries(s, caller);
    var j := FirstPositions(ms, caller, 0)[i];
    assert reps[i] == ms[j] && FirstOfKey(ms, caller, j);
    assert EntryKey(cs[i]) == KeyOf(ms[j], caller) && cs[i].last == Summary(ms[j]);
    var l := InquiryPosition(s, caller, k);
    FirstIsNewest(ms, caller, j, l);
  }

  /** In a list sorted newest first, the first message of a key is at least
      as new as any other message of that key. */
  lemma FirstIsNewest(ms: seq<Message>, caller: UserId, j: nat, l: nat)
    requires j < |ms| && l < |ms| && FirstOfKey(ms, caller, j)
    requires KeyOf(ms[l], caller) == KeyOf(ms[j], caller)
    requires forall x, y :: 0 <= x < y < |ms| ==> ms[x].createdAt >= ms[y].createdAt
    ensures ms[l].createdAt <= ms[j].createdAt
  {
    assert !(l < j);
  }

  // ------------------------------------------------------------------ inbox

  /** The time of a conversation's last message, the inbox's sort key. */
  function LastTime(c: Conversation): int
  {
    c.last.createdAt
  }

  /** `getMyConversations`: the order chats followed by the inquiries,
      stably sorted by last-message time, newest first. Conversations whose
      last messages have the same time keep their order in that list. */
  function MyConversations(s: Store, caller: UserId): (cs: seq<Conversation>)
    ensures multiset(cs) == multiset(OrderChats(s, caller) + Inquiries(s, caller))
    ensures forall i, j :: 0 <= i < j < |cs| ==> cs[i].last.createdAt >= cs[j].last.createdAt
    ensures forall t :: Seqs.Filter(cs, Seqs.KeyIs(LastTime, t))
                        == Seqs.Filter(OrderChats(s, caller) + Inquiries(s, caller), Seqs.KeyIs(LastTime, t))
  {
    var all := OrderChats(s, caller) + Inquiries(s, caller);
    var r := Seqs.SortDesc(all, LastTime);
    assert Seqs.SortedDesc(r, LastTime);
    forall t ensures Seqs.Filter(r, Seqs.KeyIs(LastTime, t)) == Seqs.Filter(all, Seqs.KeyIs(LastTime, t)) {
      Seqs.SortIsStable(all, LastTime, t);
    }
    r
  }

  /** An order appears in the inbox exactly when the caller is one of its
      parties and it has at least one message; its entry is the order's
      chat entry, naming the other party. */
  lemma OrderChatListed(s: Store, caller: UserId, i: OrderId)
    requires i < |s.orders|
    ensures var cs := MyConversations(s, caller);
      && (ListsOrder(cs, i) <==> HasChat(s, caller, i))
      && (forall k :: 0 <= k < |cs| && cs[k].OrderChat? && cs[k].orderId == i
            ==> ChatOf(s, caller, i) == Some(cs[k]) && cs[k].otherUser == Messages.Counterpart(s.orders[i], caller))
  {
    var chats := OrderChats(s, caller);
    var all := chats + Inquiries(s, caller);
    var key := LastTime;
    var cs := Seqs.SortDesc(all, key);
    assert cs == MyConversations(s, caller);
    forall k | 0 <= k < |cs| && cs[k].OrderChat?
      ensures HasChat(s, caller, cs[k].orderId) && ChatOf(s, caller, cs[k].orderId) == Some(cs[k])
    {
      var l := Seqs.SortedPosition(all, key, k);
      assert l < |chats|;
      assert all[l] == chats[l];
    }
    if HasChat(s, caller, i) {
      var l :| 0 <= l < |chats| && chats[l].OrderChat? && chats[l].orderId == i;
      assert all[l] == chats[l];
      var k := Seqs.InputPosition(all, key, l);
      assert cs[k].OrderChat? && cs[k].orderId == i;
    }
  }
}

=== FILE: entities.dfy ===
/** The marketplace's documents (User, Gig, Order, Review, Message), the
    enumerations their schemas declare, the schema validators as predicates,
    the schema defaults as constructor functions, and the entity store.

    Ratings are kept in tenths of a star (4.3 stars is 43) so that the
    one-decimal averages need no floating point. Times are an abstract
    clock value. */
module Entities {
  import opened Outcome
  import Text

  type UserId = nat
  type GigId = nat
  type OrderId = nat
  type MessageId = nat
  type Time = int
  /** A rating in tenths of a star. */
  type Tenths = int

  const MaxRatingTenths: Tenths := 50

  // ---------------------------------------------------------------- enums

  datatype Role = Client | Freelancer

  datatype Category = Programming | Design | Writing | Marketing | Business | Other

  datatype GigStatus = Active | Inactive

  datatype OrderStatus = Pending | Accepted | InProgress | Delivered | Completed | Cancelled

  function RoleName(r: Role): string
  {
    match r
    case Client => "client"
    case Freelancer => "freelancer"
  }

  function CategoryName(c: Category): string
  {
    match c
    case Programming => "programming"
    case Design => "design"
    case Writing => "writing"
    case Marketing => "marketing"
    case Business => "business"
    case Other => "other"
  }

  function GigStatusName(st: GigStatus): string
  {
    match st
    case Active => "active"
    case Inactive => "inactive"
  }

  function StatusName(st: OrderStatus): string
  {
    match st
    case Pending => "pending"
    case Accepted => "accepted"
    case InProgress => "in_progress"
    case Delivered => "delivered"
    case Completed => "completed"
    case Cancelled => "cancelled"
  }

  /** The schema's `enum` check on a user type: only the two names pass. */
  function ParseRole(name: string): (r: Option<Role>)
    ensures r.Some? <==> name == "client" || name == "freelancer"
    ensures r.Some? ==> RoleName(r.value) == name
  {
    if name == "client" then Some(Client)
    else if name == "freelancer" then Some(Freelancer)
    else None
  }

  /** The schema's `enum` check on a gig category. */
  function ParseCategory(name: string): (r: Option<Category>)
    ensures r.Some? ==> CategoryName(r.value) == name
    ensures r.None? ==> forall c: Category :: CategoryName(c) != name
  {
    if name == "programming" then Some(Programming)
    else if name == "design" then Some(Design)
    else if name == "writing" then Some(Writing)
    else if name == "marketing" then Some(Marketing)
    else if name == "business" then Some(Business)
    else if name == "other" then Some(Other)
    else None
  }

  /** The schema's `enum` check on a gig status. */
  function ParseGigStatus(name: string): (r: Option<GigStatus>)
    ensures r.Some? ==> GigStatusName(r.value) == name
    ensures r.None? ==> forall st: GigStatus :: GigStatusName(st) != name
  {
    if name == "active" then Some(Active)
    else if name == "inactive" then Some(Inactive)
    else None
  }

  /** The schema's `enum` check on an order status. */
  function ParseStatus(name: string): (r: Option<OrderStatus>)
    ensures r.Some? ==> StatusName(r.value) == name
    ensures r.None? ==> forall st: OrderStatus :: StatusName(st) != name
  {
    if name == "pending" then Some(Pending)
    else if name == "accepted" then Some(Accepted)
    else if name == "in_progress" then Some(InProgress)
    else if name == "delivered" then Some(Delivered)
    else if name == "completed" then Some(Completed)
    else if name == "cancelled" then Some(Cancelled)
    else None
  }

  /** Every enum value's name parses back to that value. */
  lemma NamesRoundTrip(st: OrderStatus, c: Category, g: GigStatus, r: Role)
    ensures ParseStatus(StatusName(st)) == Some(st)
    ensures ParseCategory(CategoryName(c)) == Some(c)
    ensures ParseGigStatus(GigStatusName(g)) == Some(g)
    ensures ParseRole(RoleName(r)) == Some(r)
  {
  }

  // ------------------------------------------------------------ documents

  /** A user account. `password` is the stored (hashed) secret. */
  datatype User = User(
    name: string,
    email: string,
    password: string,
    userType: Role,
    profilePicture: Option<string>,
    description: string,
    skills: seq<string>,
    category: Option<string>,
    rating: Tenths,
    totalReviews: int,
    walletBalance: int,
    createdAt: Time,
    updatedAt: Time)

  /** A freelancer's service offering. */
  datatype Gig = Gig(
    freelancerId: UserId,
    title: string,
    description: string,
    category: Category,
    price: int,
    deliveryDays: int,
    revisions: int,
    images: seq<string>,
    tags: seq<string>,
    status: GigStatus,
    views: int,
    orders: int,
    rating: Tenths,
    totalReviews: int,
    createdAt: Time,
    updatedAt: Time)

  /** A client's purchase of one gig. `completedAt` is null until completion. */
  datatype Order = Order(
    clientId: UserId,
    freelancerId: UserId,
    gigId: GigId,
    requirements: string,
    price: int,
    status: OrderStatus,
    createdAt: Time,
    completedAt: Option<Time>,
    isReviewed: bool)

  /** A client's review of a completed order. `rating` is in whole stars. */
  datatype Review = Review(
    orderId: OrderId,
    reviewerId: UserId,
    revieweeId: UserId,
    rating: int,
    message: string,
    anonymous: bool,
    createdAt: Time)

  /** A chat message: order chat when `orderId` is set, gig inquiry otherwise. */
  datatype Message = Message(
    orderId: Option<OrderId>,
    gigId: Option<GigId>,
    senderId: UserId,
    receiverId: UserId,
    text: string,
    attachments: seq<string>,
    isRead: bool,
    createdAt: Time)

  // ------------------------------------------------------ schema validators

  /** User schema: name required and trimmed, email required and stored in
      lower case, description at most 500 characters, rating within 0..5. */
  predicate ValidUser(u: User)
  {
    && |u.name| > 0 && Text.IsTrimmed(u.name)
    && |u.email| > 0 && Text.IsLower(u.email)
    && Text.JsLength(u.description) <= 500
    && 0 <= u.rating <= MaxRatingTenths
  }

  /** Gig schema: title required, trimmed, at most 120 characters;
      description required, at most 5000; price 100..500000; delivery
      1..30 days; revisions 0..10; rating within 0..5. */
  predicate ValidGig(g: Gig)
  {
    && 0 < |g.title| && Text.JsLength(g.title) <= 120 && Text.IsTrimmed(g.title)
    && 0 < |g.description| && Text.JsLength(g.description) <= 5000
    && 100 <= g.price <= 500000
    && 1 <= g.deliveryDays <= 30
    && 0 <= g.revisions <= 10
    && 0 <= g.rating <= MaxRatingTenths
  }

  /** Order schema: requirements required, at most 2000 characters. */
  predicate ValidOrder(o: Order)
  {
    0 < |o.requirements| && Text.JsLength(o.requirements) <= 2000
  }

  /** Review schema: rating 1..5, message required, at most 1000 characters. */
  predicate ValidReview(r: Review)
  {
    && 1 <= r.rating <= 5
    && 0 < |r.message| && Text.JsLength(r.message) <= 1000
  }

  /** Message schema: the text is required. */
  predicate ValidMessage(m: Message)
  {
    |m.text| > 0
  }

  // --------------------------------------------- creation with the defaults

  /** A user document as the User schema builds it at signup: name trimmed,
      email lower-cased, password of at least 6 characters, user type one of
      the two roles; everything else takes its default. */
  function NewUser(name: string, email: string, password: string, userType: string, now: Time): (r: Result<User>)
    ensures r.Ok? <==>
      |Text.Trim(name)| > 0 && |email| > 0 && Text.JsLength(password) >= 6 && ParseRole(userType).Some?
    ensures r.Ok? ==> ValidUser(r.value)
    ensures r.Ok? ==> r.value.email == Text.Lower(email) && r.value.name == Text.Trim(name)
    ensures r.Ok? ==> RoleName(r.value.userType) == userType
    ensures r.Ok? ==>
      && r.value.rating == 0 && r.value.totalReviews == 0 && r.value.walletBalance == 0
      && r.value.profilePicture == None && r.value.description == "" && r.value.category == None
  {
    var role := ParseRole(userType);
    if |Text.Trim(name)| == 0 || |email| == 0 || Text.JsLength(password) < 6 || role.None? then Err(ServerError)
    else
      Text.LowerIsLower(email);
      Ok(User(Text.Trim(name), Text.Lower(email), password, role.value, None, "", [], None, 0, 0, 0, now, now))
  }

  /** The body of a gig-creation request: every schema field may be supplied. */
  datatype GigDraft = GigDraft(
    freelancerId: Option<UserId>,
    title: Option<string>,
    description: Option<string>,
    category: Option<string>,
    price: Option<int>,
    deliveryDays: Option<int>,
    revisions: Option<int>,
    images: Option<seq<string>>,
    tags: Option<seq<string>>,
    status: Option<string>,
    views: Option<int>,
    orders: Option<int>,
    rating: Option<Tenths>,
    totalReviews: Option<int>,
    createdAt: Option<Time>,
    updatedAt: Option<Time>)

  function OrElse<T>(o: Option<T>, default: T): T
  {
    if o.Some? then o.value else default
  }

  /** A gig document as the Gig schema builds it from `d` for `owner`: the
      owner always comes from the caller, never from the draft; missing
      counters default to 0, revisions to 1, status to active, and missing
      timestamps to `now`. The draft's counters, rating and timestamps,
      when present, are kept. */
  function NewGig(owner: UserId, d: GigDraft, now: Time): (r: Result<Gig>)
    ensures r.Ok? ==> ValidGig(r.value)
    ensures r.Ok? ==> r.value.freelancerId == owner
    ensures r.Ok? ==>
      && d.title.Some? && d.description.Some? && d.category.Some? && d.price.Some? && d.deliveryDays.Some?
      && r.value.title == Text.Trim(d.title.value) && r.value.description == d.description.value
      && CategoryName(r.value.category) == d.category.value && r.value.price == d.price.value
      && r.value.deliveryDays == d.deliveryDays.value
      && r.value.createdAt == OrElse(d.createdAt, now) && r.value.updatedAt == OrElse(d.updatedAt, now)
    ensures r.Ok? ==> (if d.status.None? then r.value.status == Active
                       else GigStatusName(r.value.status) == d.status.value)
    ensures r.Ok? ==> r.value.revisions == OrElse(d.revisions, 1)
    ensures r.Ok? ==>
      && r.value.views == OrElse(d.views, 0) && r.value.orders == OrElse(d.orders, 0)
      && r.value.rating == OrElse(d.rating, 0) && r.value.totalReviews == OrElse(d.totalReviews, 0)
    ensures r.Ok? ==> r.value.images == OrElse(d.images, []) && r.value.tags == OrElse(d.tags, [])
    ensures d.title.None? || d.description.None? || d.category.None? || d.price.None? || d.deliveryDays.None?
      ==> r == Err(ServerError)
    ensures r.Err? ==> r.error == ServerError
    ensures r.Ok? <==>
      && d.title.Some? && d.description.Some? && d.category.Some? && d.price.Some? && d.deliveryDays.Some?
      && 0 < |Text.Trim(d.title.value)| && Text.JsLength(Text.Trim(d.title.value)) <= 120
      && 0 < |d.description.value| && Text.JsLength(d.description.value) <= 5000
      && ParseCategory(d.category.value).Some? && (d.status.Some? ==> ParseGigStatus(d.status.value).Some?)
      && 100 <= d.price.value <= 500000 && 1 <= d.deliveryDays.value <= 30
      && 0 <= OrElse(d.revisions, 1) <= 10 && 0 <= OrElse(d.rating, 0) <= MaxRatingTenths
  {
    if d.title.None? || d.description.None? || d.category.None? || d.price.None? || d.deliveryDays.None? then
      Err(ServerError)
    else
      var title := Text.Trim(d.title.value);
      var category := ParseCategory(d.category.value);
      var status := if d.status.None? then Some(Active) else ParseGigStatus(d.status.value);
      if category.None? || status.None? then Err(ServerError)
      else
        var g := Gig(owner, title, d.description.value, category.value, d.price.value,
                     d.deliveryDays.value, OrElse(d.revisions, 1), OrElse(d.images, []),
                     OrElse(d.tags, []), status.value, OrElse(d.views, 0), OrElse(d.orders, 0),
                     OrElse(d.rating, 0), OrElse(d.totalReviews, 0),
                     OrElse(d.createdAt, now), OrElse(d.updatedAt, now));
        if ValidGig(g) then Ok(g) else Err(ServerError)
  }

  /** An order document as the Order schema builds it: status pending, no
      completion time, not reviewed; the requirements must be present. */
  function NewOrder(clientId: UserId, freelancerId: UserId, gigId: GigId, requirements: Option<string>,
                    price: int, now: Time): (r: Result<Order>)
    ensures r.Ok? <==> requirements.Some? && 0 < |requirements.value| && Text.JsLength(requirements.value) <= 2000
    ensures r.Err? ==> r.error == ServerError
    ensures r.Ok? ==> ValidOrder(r.value)
    ensures r.Ok? ==>
      && r.value.clientId == clientId && r.value.freelancerId == freelancerId
      && r.value.gigId == gigId && r.value.price == price
      && r.value.requirements == requirements.value && r.value.createdAt == now
    ensures r.Ok? ==> r.value.status == Pending && r.value.completedAt == None && !r.value.isReviewed
  {
    if requirements.None? || !(0 < |requirements.value| && Text.JsLength(requirements.value) <= 2000) then Err(ServerError)
    else Ok(Order(clientId, freelancerId, gigId, requirements.value, price, Pending, now, None, false))
  }

  /** A review document as the Review schema builds it: rating 1..5 and a
      message are required; `anonymous` defaults to false. */
  function NewReview(orderId: OrderId, reviewerId: UserId, revieweeId: UserId, rating: Option<int>,
                     message: Option<string>, anonymous: Option<bool>, now: Time): (r: Result<Review>)
    ensures r.Ok? <==>
      && rating.Some? && 1 <= rating.value <= 5
      && message.Some? && 0 < |message.value| && Text.JsLength(message.value) <= 1000
    ensures r.Err? ==> r.error == ServerError
    ensures r.Ok? ==> ValidReview(r.value)
    ensures r.Ok? ==>
      && r.value.orderId == orderId && r.value.reviewerId == reviewerId
      && r.value.revieweeId == revieweeId && r.value.rating == rating.value
      && r.value.message == message.value && r.value.createdAt == now
    ensures r.Ok? ==> (r.value.anonymous <==> anonymous == Some(true))
  {
    if || rating.None? || !(1 <= rating.value <= 5)
       || message.None? || !(0 < |message.value| && Text.JsLength(message.value) <= 1000)
    then
      Err(ServerError)
    else Ok(Review(orderId, reviewerId, revieweeId, rating.value, message.value, OrElse(anonymous, false), now))
  }

  /** A message document as the Message schema builds it: text required,
      no attachments by default, unread. */
  function NewMessage(orderId: Option<OrderId>, gigId: Option<GigId>, senderId: UserId, receiverId: UserId,
                      text: Option<string>, attachments: Option<seq<string>>, now: Time): (r: Result<Message>)
    ensures r.Ok? <==> text.Some? && |text.value| > 0
    ensures r.Err? ==> r.error == ServerError
    ensures r.Ok? ==> ValidMessage(r.value)
    ensures r.Ok? ==>
      && r.value.orderId == orderId && r.value.gigId == gigId
      && r.value.senderId == senderId && r.value.receiverId == receiverId
      && r.value.text == text.value && r.value.createdAt == now
    ensures r.Ok? ==> !r.value.isRead && r.value.attachments == OrElse(attachments, [])
  {
    if text.None? || |text.value| == 0 then Err(ServerError)
    else Ok(Message(orderId, gigId, senderId, receiverId, text.value, OrElse(attachments, []), false, now))
  }

  // ----------------------------------------------------------- public view

  /** What `getPublicProfile` exposes: every field except the password and
      the wallet balance. */
  datatype PublicProfile = PublicProfile(
    id: UserId,
    name: string,
    email: string,
    userType: Role,
    profilePicture: Option<string>,
    description: string,
    skills: seq<string>,
    category: Option<string>,
    rating: Tenths,
    totalReviews: int,
    createdAt: Time)

  function PublicProfileOf(id: UserId, u: User): PublicProfile
  {
    PublicProfile(id, u.name, u.email, u.userType, u.profilePicture, u.description, u.skills,
                  u.category, u.rating, u.totalReviews, u.createdAt)
  }

  /** The public profile does not depend on the password or the wallet:
      two users that differ only there look the same. */
  lemma PublicProfileHidesSecrets(id: UserId, u: User, password: string, wallet: int)
    ensures PublicProfileOf(id, u) == PublicProfileOf(id, u.(password := password, walletBalance := wallet))
  {
  }

  /** The public profile shows everything else: two users with the same
      public profile differ at most in password, wallet and update time. */
  lemma PublicProfileShowsTheRest(id: UserId, u: User, v: User)
    requires PublicProfileOf(id, u) == PublicProfileOf(id, v)
    ensures u.(password := v.password, walletBalance := v.walletBalance, updatedAt := v.updatedAt) == v
  {
  }

  // ----------------------------------------------------------------- store

  /** The entity store. Users and gigs can be deleted and are maps; orders,
      reviews and messages are never deleted and are kept in creation order,
      the position being the identifier. */
  datatype Store = Store(
    users: map<UserId, User>,
    gigs: map<GigId, Gig>,
    orders: seq<Order>,
    reviews: seq<Review>,
    messages: seq<Message>)

  /** The unique index on Review.orderId: at most one review per order. */
  predicate OneReviewPerOrder(reviews: seq<Review>)
  {
    forall i, j :: 0 <= i < j < |reviews| ==> reviews[i].orderId != reviews[j].orderId
  }

  /** The unique index on User.email. */
  predicate EmailsUnique(users: map<UserId, User>)
  {
    forall a, b :: a in users && b in users && a != b ==> users[a].email != users[b].email
  }

  /** Changing users but none of their emails keeps the index unique. */
  lemma EmailsKeptUnique(users: map<UserId, User>, users': map<UserId, User>)
    requires EmailsUnique(users)
    requires users'.Keys == users.Keys
    requires forall v :: v in users ==> users'[v].email == users[v].email
    ensures EmailsUnique(users')
  {
  }

  /** Every review belongs to an existing order, was written by that order's
      client about its freelancer, and the order is marked reviewed. */
  predicate ReviewsMatchOrders(s: Store)
  {
    forall i :: 0 <= i < |s.reviews| ==>
      && s.reviews[i].orderId < |s.orders|
      && s.orders[s.reviews[i].orderId].isReviewed
      && s.reviews[i].reviewerId == s.orders[s.reviews[i].orderId].clientId
      && s.reviews[i].revieweeId == s.orders[s.reviews[i].orderId].freelancerId
  }

  /** Every document satisfies its schema and both unique indexes hold. */
  predicate ValidStore(s: Store)
  {
    && (forall id :: id in s.users ==> ValidUser(s.users[id]))
    && (forall id :: id in s.gigs ==> ValidGig(s.gigs[id]))
    && (forall i :: 0 <= i < |s.orders| ==> ValidOrder(s.orders[i]))
    && (forall i :: 0 <= i < |s.reviews| ==> ValidReview(s.reviews[i]))
    && (forall i :: 0 <= i < |s.messages| ==> ValidMessage(s.messages[i]))
    && OneReviewPerOrder(s.reviews)
    && EmailsUnique(s.users)
    && ReviewsMatchOrders(s)
  }

  /** Stores a new user under a fresh identifier, refusing (as the unique
      index does) an email that another user already has. */
  function InsertUser(s: Store, id: UserId, u: User): (r: Result<Store>)
    requires id !in s.users
    ensures r.Ok? <==> forall other :: other in s.users ==> s.users[other].email != u.email
    ensures r.Err? ==> r.error == ServerError
    ensures r.Ok? ==> r.value == s.(users := s.users[id := u])
    ensures r.Ok? && ValidStore(s) && ValidUser(u) ==> ValidStore(r.value)
  {
    if exists other :: other in s.users && s.users[other].email == u.email then Err(ServerError)
    else Ok(s.(users := s.users[id := u]))
  }
}

=== FILE: gigform.dfy ===
/** The gig creation form's client-side rules: the image list (added by URL
    or by file, capped at five, removable by position), the submit check,
    and the splitting of the comma-separated tag field.

    Reading a file into a data URL is asynchronous: the form checks the
    cap when the file is chosen and appends the data URL when the read
    finishes, with no check then. `EditAllAsWritten` models that, and
    `ReadsCanOverfillTheList` shows it can list six images; `EditAll`
    checks the cap again when the read finishes, and `ImageCapHolds`
    proves five is then never exceeded. The data URL is an input. */
module GigForm {
  import opened Outcome
  import Text
  import Seqs

  /** The most images a gig may show. */
  const MaxImages: nat := 5

  /** The largest file the form accepts: 5 MB. */
  const MaxFileBytes: nat := 5 * 1024 * 1024

  /** What an attempt to add an image did: nothing at all (an empty URL
      field), a refusal with its message, or the addition. */
  datatype AddOutcome = Ignored | Refused(message: string) | Added

  /** The image list and the URL field after an attempt. */
  datatype AddResult = AddResult(images: seq<string>, input: string, outcome: AddOutcome)

  /** The regular expression `^https?://.+`: the scheme `http` or `https`,
      then `://`, then at least one character that `.` matches (anything
      but a line terminator). Nothing is required after that character. */
  predicate IsImageUrl(s: string)
  {
    || (Text.StartsWith(s, "http://") && |s| > 7 && !Text.IsLineTerminator(s[7]))
    || (Text.StartsWith(s, "https://") && |s| > 8 && !Text.IsLineTerminator(s[8]))
  }

  /** `handleAddImage`: an empty field does nothing; a URL that does not
      match is refused, and so is any URL once five images are listed;
      otherwise the URL is appended and the field cleared. A refusal keeps
      both the list and the field. */
  function AddImage(images: seq<string>, input: string): (r: AddResult)
    ensures r.outcome == Added <==> input != "" && IsImageUrl(input) && |images| < MaxImages
    ensures r.outcome == Added ==> r.images == images + [input] && r.input == ""
    ensures r.outcome != Added ==> r.images == images && r.input == input
    ensures r.outcome == Ignored <==> input == ""
  {
    if input == "" then AddResult(images, input, Ignored)
    else if !IsImageUrl(input) then AddResult(images, input, Refused("Please enter a valid image URL"))
    else if |images| >= MaxImages then AddResult(images, input, Refused("Maximum 5 images allowed"))
    else AddResult(images + [input], "", Added)
  }

  /** A chosen file: its MIME type and its size in bytes. */
  datatype FileInfo = FileInfo(mimeType: string, size: int)

  /** `handleFileChange`: no file does nothing; a file that is not an
      image, that is over 5 MB, or that would make a sixth image is
      refused. A file that passes is read, and the list shown is the one
      its data URL makes when nothing happens before the read finishes. */
  function AddFile(images: seq<string>, file: Option<FileInfo>, dataUrl: string): (r: (seq<string>, AddOutcome))
    ensures r.1 == Added <==>
      file.Some? && Text.StartsWith(file.value.mimeType, "image/") && file.value.size <= MaxFileBytes
      && |images| < MaxImages
    ensures r.1 == Added ==> r.0 == images + [dataUrl]
    ensures r.1 != Added ==> r.0 == images
  {
    if file.None? then (images, Ignored)
    else if !Text.StartsWith(file.value.mimeType, "image/") then (images, Refused("Please select an image file"))
    else if file.value.size > MaxFileBytes then (images, Refused("File size should be less than 5MB"))
    else if |images| >= MaxImages then (images, Refused("Maximum 5 images allowed"))
    else (images + [dataUrl], Added)
  }

  /** The images at positions `from` onwards except the one at `index`, in
      order: `filter((_, i) => i !== index)` from position `from`. */
  function KeepOthers(images: seq<string>, index: int, from: nat): (r: seq<string>)
    requires from <= |images|
    ensures from <= index < |images| ==> |r| == |images| - from - 1
    ensures !(from <= index < |images|) ==> |r| == |images| - from
    ensures forall k :: 0 <= k < |r| ==>
              r[k] == (if from <= index < |images| && from + k >= index then images[from + k + 1] else images[from + k])
    decreases |images| - from
  {
    if from == |images| then []
    else if from == index then KeepOthers(images, index, from + 1)
    else [images[from]] + KeepOthers(images, index, from + 1)
  }

  /** `removeImage`: drops exactly the image at `index` and keeps the rest
      in order; an index outside the list changes nothing. */
  function RemoveImage(images: seq<string>, index: int): (r: seq<string>)
    ensures 0 <= index < |images| ==> r == images[..index] + images[index + 1..]
    ensures !(0 <= index < |images|) ==> r == images
  {
    KeepOthers(images, index, 0)
  }

  /** The image list together with the reads still running: choosing a
      file starts reading it, and its data URL (here an input) arrives
      later. `reading` holds the pending data URLs, oldest first. */
  datatype Draft = Draft(images: seq<string>, reading: seq<string>)

  /** One event of the image section: a URL added, a file chosen, the
      oldest pending read finishing, or an image removed. */
  datatype ImageEdit = ByUrl(input: string) | ByFile(file: Option<FileInfo>, dataUrl: string) | ReadDone | Remove(index: int)

  /** Choosing a file: the checks of `handleFileChange`, made against the
      list as it is now; a file that passes starts a read. */
  function StartRead(d: Draft, file: Option<FileInfo>, dataUrl: string): (d': Draft)
    ensures d'.images == d.images
    ensures AddFile(d.images, file, dataUrl).1 == Added ==> d'.reading == d.reading + [dataUrl]
    ensures AddFile(d.images, file, dataUrl).1 != Added ==> d'.reading == d.reading
  {
    if AddFile(d.images, file, dataUrl).1 == Added then d.(reading := d.reading + [dataUrl]) else d
  }

  /** `reader.onloadend` as written: the oldest pending data URL is
      appended with no further check. */
  function FinishReadAsWritten(d: Draft): (d': Draft)
    ensures |d.reading| > 0 ==> d' == Draft(d.images + [d.reading[0]], d.reading[1..])
    ensures |d.reading| == 0 ==> d' == d
  {
    if |d.reading| == 0 then d else Draft(d.images + [d.reading[0]], d.reading[1..])
  }

  /** The finished read with the cap checked again when the data URL
      arrives: it is appended only while fewer than five images are
      listed, and dropped otherwise. */
  function FinishRead(d: Draft): (d': Draft)
    ensures |d.reading| > 0 && |d.images| < MaxImages ==> d' == Draft(d.images + [d.reading[0]], d.reading[1..])
    ensures |d.reading| > 0 && |d.images| >= MaxImages ==> d' == Draft(d.images, d.reading[1..])
    ensures |d.reading| == 0 ==> d' == d
  {
    if |d.reading| == 0 then d
    else if |d.images| < MaxImages then Draft(d.images + [d.reading[0]], d.reading[1..])
    else d.(reading := d.reading[1..])
  }

  /** One event, with reads finishing as `FinishRead` does. */
  function Edit(d: Draft, e: ImageEdit): Draft
  {
    match e
    case ByUrl(input) => d.(images := AddImage(d.images, input).images)
    case ByFile(file, dataUrl) => StartRead(d, file, dataUrl)
    case ReadDone => FinishRead(d)
    case Remove(index) => d.(images := RemoveImage(d.images, index))
  }

  function EditAll(d: Draft, es: seq<ImageEdit>): Draft
    decreases |es|
  {
    if |es| == 0 then d else EditAll(Edit(d, es[0]), es[1..])
  }

  /** One event, with reads finishing as the form does. */
  function EditAsWritten(d: Draft, e: ImageEdit): Draft
  {
    match e
    case ReadDone => FinishReadAsWritten(d)
    case _ => Edit(d, e)
  }

  function EditAllAsWritten(d: Draft, es: seq<ImageEdit>): Draft
    decreases |es|
  {
    if |es| == 0 then d else EditAllAsWritten(EditAsWritten(d, es[0]), es[1..])
  }

  /** Whatever events happen, starting from at most five images, the list
      never holds more than five once the cap is checked when a read
      finishes. */
  lemma {:induction false} ImageCapHolds(d: Draft, es: seq<ImageEdit>)
    requires |d.images| <= MaxImages
    ensures |EditAll(d, es).images| <= MaxImages
    decreases |es|
  {
    if |es| > 0 {
      var next := Edit(d, es[0]);
      assert |next.images| <= MaxImages;
      ImageCapHolds(next, es[1..]);
    }
  }

  /** As written, the cap can be broken: with four images listed, a file
      whose read is still running passes the check, a URL added meanwhile
      makes five, and the finished read appends a sixth. */
  lemma ReadsCanOverfillTheList()
    ensures var four := ["http://a", "http://b", "http://c", "http://d"];
      var es := [ByFile(Some(FileInfo("image/png", 1)), "data:e"), ByUrl("http://f"), ReadDone];
      |EditAllAsWritten(Draft(four, []), es).images| == MaxImages + 1
  {
    var four := ["http://a", "http://b", "http://c", "http://d"];
    var es := [ByFile(Some(FileInfo("image/png", 1)), "data:e"), ByUrl("http://f"), ReadDone];
    assert Text.StartsWith("image/png", "image/");
    var d1 := EditAsWritten(Draft(four, []), es[0]);
    assert d1 == Draft(four, ["data:e"]);
    assert Text.StartsWith("http://f", "http://");
    assert IsImageUrl("http://f");
    var d2 := EditAsWritten(d1, es[1]);
    assert d2 == Draft(four + ["http://f"], ["data:e"]);
    var d3 := EditAsWritten(d2, es[2]);
    assert |d3.images| == 6;
    assert es[1..][1..][1..] == [];
    assert EditAllAsWritten(Draft(four, []), es) == EditAllAsWritten(d1, es[1..]);
    assert EditAllAsWritten(d1, es[1..]) == EditAllAsWritten(d2, es[1..][1..]);
    assert EditAllAsWritten(d2, es[1..][1..]) == EditAllAsWritten(d3, es[1..][1..][1..]);
  }

  // ---------------------------------------------------------------- tags

  /** The trimmed pieces. */
  function TrimAll(parts: seq<string>): (r: seq<string>)
    ensures |r| == |parts|
    ensures forall k :: 0 <= k < |parts| ==> r[k] == Text.Trim(parts[k])
  {
    seq(|parts|, k requires 0 <= k < |parts| => Text.Trim(parts[k]))
  }

  predicate NonEmpty(t: string)
  {
    t != ""
  }

  /** `tags.split(',').map(t => t.trim()).filter(t => t !== '')`: every
      tag is non-empty, has no edge white space and no comma, and every
      piece between commas that is not blank gives its trimmed self. */
  function ParseTags(input: string): (tags: seq<string>)
    ensures forall k :: 0 <= k < |tags| ==> |tags[k]| > 0 && Text.IsTrimmed(tags[k]) && ',' !in tags[k]
    ensures var parts := Text.Split(input, ',');
      forall k :: 0 <= k < |parts| && Text.Trim(parts[k]) != "" ==> Text.Trim(parts[k]) in tags
  {
    var parts := Text.Split(input, ',');
    var tags := Seqs.Filter(TrimAll(parts), NonEmpty);
    forall k | 0 <= k < |tags|
      ensures ',' !in tags[k]
    {
      var j :| 0 <= j < |parts| && TrimAll(parts)[j] == tags[k];
      TrimmedHasNoComma(parts[j]);
    }
    tags
  }

  /** Trimming removes characters and adds none. */
  lemma TrimmedHasNoComma(s: string)
    requires ',' !in s
    ensures ',' !in Text.Trim(s)
  {
    Text.TrimKeepsCharacters(s);
  }

  /** Tags keep their order: the tags of two fields joined by a comma are
      the tags of the first followed by those of the second. */
  lemma ParseTagsAppend(a: string, b: string)
    ensures ParseTags(a + [','] + b) == ParseTags(a) + ParseTags(b)
  {
    Text.SplitAppend(a, b, ',');
    var pa := Text.Split(a, ',');
    var pb := Text.Split(b, ',');
    assert TrimAll(pa + pb) == TrimAll(pa) + TrimAll(pb);
    Seqs.FilterAppend(TrimAll(pa), TrimAll(pb), NonEmpty);
  }

  /** Tags that are already clean come back unchanged from the field that
      lists them separated by commas. */
  lemma ParseTagsOfJoin(tags: seq<string>)
    requires |tags| > 0
    requires forall k :: 0 <= k < |tags| ==> |tags[k]| > 0 && Text.IsTrimmed(tags[k]) && ',' !in tags[k]
    ensures ParseTags(Text.Join(tags, ',')) == tags
  {
    Text.SplitJoin(tags, ',');
    forall k | 0 <= k < |tags|
      ensures Text.Trim(tags[k]) == tags[k]
    {
      Text.TrimOfTrimmed(tags[k]);
    }
    assert TrimAll(tags) == tags;
    FilterKeepsAll(tags);
  }

  /** A filter that no element fails keeps the whole sequence. */
  lemma {:induction false} FilterKeepsAll(xs: seq<string>)
    requires forall k :: 0 <= k < |xs| ==> NonEmpty(xs[k])
    ensures Seqs.Filter(xs, NonEmpty) == xs
    decreases |xs|
  {
    if |xs| > 0 {
      FilterKeepsAll(xs[1..]);
      assert xs == [xs[0]] + xs[1..];
      Seqs.FilterAppend([xs[0]], xs[1..], NonEmpty);
    }
  }

  // -------------------------------------------------------------- submit

  /** The form's fields as typed: the numbers are still text. */
  datatype Form = Form(
    title: string,
    description: string,
    category: string,
    price: string,
    deliveryDays: string,
    revisions: string,
    tags: string,
    images: seq<string>)

  /** The request the form sends: the tag field parsed into tags. */
  datatype Submission = Submission(
    title: string,
    description: string,
    category: string,
    price: string,
    deliveryDays: string,
    revisions: string,
    tags: seq<string>,
    images: seq<string>)

  datatype SubmitOutcome = MissingFields | NoImages | Send(request: Submission)

  /** `handleSubmit`: refused when a required field (title, description,
      category, price, delivery days) is empty, then when no image is
      listed; otherwise the fields are sent with the tags parsed. */
  function Submit(f: Form): (r: SubmitOutcome)
    ensures r == MissingFields <==>
      f.title == "" || f.description == "" || f.category == "" || f.price == "" || f.deliveryDays == ""
    ensures r == NoImages <==>
      f.title != "" && f.description != "" && f.category != "" && f.price != "" && f.deliveryDays != ""
      && |f.images| == 0
    ensures r.Send? ==>
      && r.request.title == f.title && r.request.description == f.description
      && r.request.category == f.category && r.request.price == f.price
      && r.request.deliveryDays == f.deliveryDays && r.request.revisions == f.revisions
      && r.request.images == f.images && r.request.tags == ParseTags(f.tags)
  {
    if f.title == "" || f.description == "" || f.category == "" || f.price == "" || f.deliveryDays == "" then
      MissingFields
    else if |f.images| == 0 then NoImages
    else Send(Submission(f.title, f.description, f.category, f.price, f.deliveryDays, f.revisions,
                         ParseTags(f.tags), f.images))
  }

  /** A sent request always lists between one and five images when the
      list was built by the form's edits, and its tags are clean. */
  lemma SentRequestIsWellFormed(f: Form, es: seq<ImageEdit>)
    requires f.images == EditAll(Draft([], []), es).images
    requires Submit(f).Send?
    ensures 1 <= |Submit(f).request.images| <= MaxImages
    ensures forall k :: 0 <= k < |Submit(f).request.tags| ==> |Submit(f).request.tags[k]| > 0
  {
    ImageCapHolds(Draft([], []), es);
  }
}

=== FILE: gigs.dfy ===
/** Gig catalogue operations: creation by freelancers, the filtered and
    paginated browse listing, fetching one gig (which counts a view),
    owner-only update through an allow-list, owner-only deletion, and a
    freelancer's active gigs.

    The store's ordering of query results is a parameter: `ranking` is the
    order the requested sort field puts the gigs in, `natural` the store's
    natural order; both are sequences of gig identifiers. */
module Gigs {
  import opened Outcome
  import opened Entities
  import Text
  import Seqs
  import Paging

  /** `createGig`: only an existing freelancer may create a gig (403
      otherwise). The gig is built from the whole request body, but its
      owner is always the caller. A body the schema rejects is a 500. The
      new gig is stored under the fresh identifier `id`, which stands for
      the store's identifier allocation. */
  function CreateGig(s: Store, caller: UserId, id: GigId, body: GigDraft, now: Time): (r: Result<Store>)
    requires id !in s.gigs
    ensures caller !in s.users || s.users[caller].userType != Freelancer ==> r == Err(Forbidden)
    ensures r.Ok? <==> caller in s.users && s.users[caller].userType == Freelancer && NewGig(caller, body, now).Ok?
    ensures r.Err? && caller in s.users && s.users[caller].userType == Freelancer ==> r.error == ServerError
    ensures r.Ok? ==>
      && r.value.gigs.Keys == s.gigs.Keys + {id}
      && (forall g :: g in s.gigs ==> r.value.gigs[g] == s.gigs[g])
      && r.value.gigs[id] == NewGig(caller, body, now).value
      && r.value.gigs[id].freelancerId == caller && ValidGig(r.value.gigs[id])
      && r.value.users == s.users && r.value.orders == s.orders
      && r.value.reviews == s.reviews && r.value.messages == s.messages
  {
    if caller !in s.users || s.users[caller].userType != Freelancer then Err(Forbidden)
    else
      var g :- NewGig(caller, body, now);
      Ok(s.(gigs := s.gigs[id := g]))
  }

  /** Whatever owner the body names, the created gig belongs to the caller. */
  lemma CreateGigIgnoresBodyOwner(s: Store, caller: UserId, id: GigId, body: GigDraft, now: Time, other: UserId)
    requires id !in s.gigs
    ensures CreateGig(s, caller, id, body, now) == CreateGig(s, caller, id, body.(freelancerId := Some(other)), now)
  {
  }

  // ---------------------------------------------------------------- browse

  /** The browse filters as the query string supplies them (already parsed
      to numbers). An empty category counts as absent. */
  datatype GigQuery = GigQuery(
    category: Option<string>,
    minPrice: Option<int>,
    maxPrice: Option<int>,
    page: Option<int>,
    limit: Option<int>)

  /** The browse query: active gigs only, of the given category, with the
      price within the inclusive bounds given. */
  predicate MatchesQuery(g: Gig, q: GigQuery)
  {
    && g.status == Active
    && (q.category.Some? && |q.category.value| > 0 ==> CategoryName(g.category) == q.category.value)
    && (q.minPrice.Some? ==> g.price >= q.minPrice.value)
    && (q.maxPrice.Some? ==> g.price <= q.maxPrice.value)
  }

  /** The identifiers in `ranking` of stored gigs that match `q`, in
      ranking order. */
  function MatchingGigs(s: Store, q: GigQuery, ranking: seq<GigId>): (ids: seq<GigId>)
    ensures forall k :: 0 <= k < |ids| ==> ids[k] in s.gigs && MatchesQuery(s.gigs[ids[k]], q)
    ensures forall k :: 0 <= k < |ranking| && ranking[k] in s.gigs && MatchesQuery(s.gigs[ranking[k]], q)
                        ==> ranking[k] in ids
  {
    Seqs.Filter(ranking, (id: GigId) => id in s.gigs && MatchesQuery(s.gigs[id], q))
  }

  /** The gigs themselves, paired with their identifiers. */
  function Entries(s: Store, ids: seq<GigId>): (es: seq<(GigId, Gig)>)
    requires forall k :: 0 <= k < |ids| ==> ids[k] in s.gigs
    ensures |es| == |ids|
    ensures forall k :: 0 <= k < |ids| ==> es[k] == (ids[k], s.gigs[ids[k]])
  {
    seq(|ids|, k requires 0 <= k < |ids| => (ids[k], s.gigs[ids[k]]))
  }

  /** `getAllGigs`: page `page` (default 1) of `limit` (default 10) gigs
      among the matching ones, in ranking order, with the total number of
      matching gigs and the page count. */
  function GetAllGigs(s: Store, q: GigQuery, ranking: seq<GigId>): (r: Result<Paging.Listing<(GigId, Gig)>>)
    ensures var page := OrElse(q.page, 1);
      var limit := OrElse(q.limit, 10);
      && (r.Ok? <==> Paging.Skip(page, limit) >= 0)
      && (r.Err? ==> r.error == ServerError)
      && (r.Ok? ==>
            && r.value.total == |MatchingGigs(s, q, ranking)|
            && r.value.page == page
            && r.value.totalPages == Paging.TotalPages(r.value.total, limit)
            && r.value.count == |r.value.items|
            && (forall k :: 0 <= k < |r.value.items| ==>
                  r.value.items[k].0 in s.gigs && r.value.items[k].1 == s.gigs[r.value.items[k].0]
                  && MatchesQuery(r.value.items[k].1, q)))
    ensures r.Ok? ==>
      var limit := OrElse(q.limit, 10);
      Paging.Page(Entries(s, MatchingGigs(s, q, ranking)), Paging.Skip(OrElse(q.page, 1), limit), limit)
        == Ok(r.value.items)
  {
    var ids := MatchingGigs(s, q, ranking);
    var es := Entries(s, ids);
    var listing :- Paging.Paginate(es, OrElse(q.page, 1), OrElse(q.limit, 10));
    assert forall k :: 0 <= k < |listing.items| ==> listing.items[k] in es;
    Ok(listing)
  }

  /** The matching gigs do not depend on the paging fields of the query. */
  lemma MatchingIgnoresPaging(s: Store, q: GigQuery, ranking: seq<GigId>, page: Option<int>, limit: Option<int>)
    ensures MatchingGigs(s, q.(page := page, limit := limit), ranking) == MatchingGigs(s, q, ranking)
  {
    var q' := q.(page := page, limit := limit);
    var p := (id: GigId) => id in s.gigs && MatchesQuery(s.gigs[id], q);
    var p' := (id: GigId) => id in s.gigs && MatchesQuery(s.gigs[id], q');
    Seqs.FilterCongruent(ranking, p, p');
  }

  /** With a positive limit, every ranked gig that matches the query is
      listed on one of the reported pages, when every page query returns
      the same `ranking`, ties included. */
  lemma EveryGigListed(s: Store, q: GigQuery, ranking: seq<GigId>, i: nat, limit: int) returns (page: int)
    requires limit > 0
    requires i < |ranking| && ranking[i] in s.gigs && MatchesQuery(s.gigs[ranking[i]], q)
    ensures 1 <= page
    ensures var r := GetAllGigs(s, q.(page := Some(page), limit := Some(limit)), ranking);
      && r.Ok? && r.value.totalPages.Finite? && page <= r.value.totalPages.n
      && (ranking[i], s.gigs[ranking[i]]) in r.value.items
  {
    var id := ranking[i];
    var ids := MatchingGigs(s, q, ranking);
    var m :| 0 <= m < |ids| && ids[m] == id;
    var es := Entries(s, ids);
    Paging.PagesCoverAll(es, limit, m);
    page := m / limit + 1;
    var q' := q.(page := Some(page), limit := Some(limit));
    MatchingIgnoresPaging(s, q, ranking, Some(page), Some(limit));
    var r := GetAllGigs(s, q', ranking);
    assert r.value.items == Paging.Page(es, Paging.Skip(page, limit), limit).value;
    assert r.value.items[m % limit] == (id, s.gigs[id]);
  }

  /** When the ranking lists every stored gig once, the reported total is
      the number of stored gigs that match the query. */
  lemma TotalCountsMatchingGigs(s: Store, q: GigQuery, ranking: seq<GigId>)
    requires forall i, j :: 0 <= i < j < |ranking| ==> ranking[i] != ranking[j]
    requires forall id :: id in s.gigs <==> id in ranking
    ensures |MatchingGigs(s, q, ranking)| == |set id | id in s.gigs && MatchesQuery(s.gigs[id], q)|
  {
    var p := (id: GigId) => id in s.gigs && MatchesQuery(s.gigs[id], q);
    Seqs.CountIsPositions(ranking, p);
    var positions := Seqs.Positions(ranking, p);
    var matching := set id | id in s.gigs && MatchesQuery(s.gigs[id], q);
    assert matching == set k | k in positions :: ranking[k] by {
      forall id | id in matching
        ensures id in set k | k in positions :: ranking[k]
      {
        var k :| 0 <= k < |ranking| && ranking[k] == id;
        assert k in positions;
      }
    }
    InjectiveImage(ranking, positions);
  }

  /** Distinct positions of a sequence without repetitions hold distinct
      values, so the image of a set of positions has the same size. */
  lemma {:induction false} InjectiveImage(xs: seq<GigId>, ps: set<nat>)
    requires forall i, j :: 0 <= i < j < |xs| ==> xs[i] != xs[j]
    requires forall k :: k in ps ==> k < |xs|
    ensures |set k | k in ps :: xs[k]| == |ps|
    decreases |ps|
  {
    if ps != {} {
      var k :| k in ps;
      var rest := ps - {k};
      InjectiveImage(xs, rest);
      var image := set j | j in ps :: xs[j];
      var restImage := set j | j in rest :: xs[j];
      assert image == restImage + {xs[k]};
      assert xs[k] !in restImage;
    }
  }

  // ------------------------------------------------------------- one gig

  /** `getGigById`: 404 for a missing gig; otherwise the gig's view counter
      goes up by exactly one and the counted gig is returned. */
  function GetGigById(s: Store, id: GigId): (r: Result<(Store, Gig)>)
    ensures id !in s.gigs ==> r == Err(NotFound)
    ensures r.Ok? <==> id in s.gigs
    ensures r.Ok? ==>
      var (s', g) := r.value;
      && g == s.gigs[id].(views := s.gigs[id].views + 1)
      && s'.gigs == s.gigs[id := g]
      && s'.users == s.users && s'.orders == s.orders && s'.reviews == s.reviews && s'.messages == s.messages
  {
    if id !in s.gigs then Err(NotFound)
    else
      var g := s.gigs[id].(views := s.gigs[id].views + 1);
      Ok((s.(gigs := s.gigs[id := g]), g))
  }

  /** Every successful fetch counts one view: `n` fetches add `n` views and
      change nothing else. */
  function FetchTimes(s: Store, id: GigId, n: nat): (s': Store)
    requires id in s.gigs
    ensures id in s'.gigs && s'.gigs.Keys == s.gigs.Keys
    ensures s'.gigs[id] == s.gigs[id].(views := s.gigs[id].views + n)
    ensures forall h :: h in s.gigs && h != id ==> s'.gigs[h] == s.gigs[h]
    ensures s'.users == s.users && s'.orders == s.orders && s'.reviews == s.reviews && s'.messages == s.messages
    decreases n
  {
    if n == 0 then s else FetchTimes(GetGigById(s, id).value.0, id, n - 1)
  }

  // -------------------------------------------------------------- update

  /** The update validators on the supplied fields: title present after
      trimming and at most 120 characters, description present and at most
      5000, category and status among their enums, price, delivery days
      and revisions within their ranges. Images and tags are free. */
  predicate PassesUpdateValidators(body: GigDraft)
  {
    && (body.title.Some? ==> 0 < |Text.Trim(body.title.value)| && Text.JsLength(Text.Trim(body.title.value)) <= 120)
    && (body.description.Some? ==> 0 < |body.description.value| && Text.JsLength(body.description.value) <= 5000)
    && (body.category.Some? ==> ParseCategory(body.category.value).Some?)
    && (body.price.Some? ==> 100 <= body.price.value <= 500000)
    && (body.deliveryDays.Some? ==> 1 <= body.deliveryDays.value <= 30)
    && (body.revisions.Some? ==> 0 <= body.revisions.value <= 10)
    && (body.status.Some? ==> ParseGigStatus(body.status.value).Some?)
  }

  /** The fields of the body an update copies; every other field of the
      body (owner, counters, rating, creation time) is dropped. Supplied
      values must pass the update validators or the update is a 500. */
  function Patch(g: Gig, body: GigDraft, now: Time): (r: Result<Gig>)
    ensures r.Ok? <==> PassesUpdateValidators(body)
    ensures r.Err? ==> r.error == ServerError
    ensures r.Ok? ==>
      && r.value.freelancerId == g.freelancerId && r.value.views == g.views && r.value.orders == g.orders
      && r.value.rating == g.rating && r.value.totalReviews == g.totalReviews && r.value.createdAt == g.createdAt
      && r.value.updatedAt == now
    ensures r.Ok? ==>
      && r.value.title == (if body.title.Some? then Text.Trim(body.title.value) else g.title)
      && r.value.description == OrElse(body.description, g.description)
      && (if body.category.Some? then CategoryName(r.value.category) == body.category.value
          else r.value.category == g.category)
      && r.value.price == OrElse(body.price, g.price)
      && r.value.deliveryDays == OrElse(body.deliveryDays, g.deliveryDays)
      && r.value.revisions == OrElse(body.revisions, g.revisions)
      && r.value.images == OrElse(body.images, g.images)
      && r.value.tags == OrElse(body.tags, g.tags)
      && (if body.status.Some? then GigStatusName(r.value.status) == body.status.value
          else r.value.status == g.status)
  {
    if !PassesUpdateValidators(body) then Err(ServerError)
    else
      var title := if body.title.Some? then Text.Trim(body.title.value) else g.title;
      var category := if body.category.Some? then ParseCategory(body.category.value).value else g.category;
      var status := if body.status.Some? then ParseGigStatus(body.status.value).value else g.status;
      Ok(g.(title := title, description := OrElse(body.description, g.description), category := category,
            price := OrElse(body.price, g.price), deliveryDays := OrElse(body.deliveryDays, g.deliveryDays),
            revisions := OrElse(body.revisions, g.revisions), images := OrElse(body.images, g.images),
            tags := OrElse(body.tags, g.tags), status := status, updatedAt := now))
  }

  /** A valid gig stays valid under a successful patch. */
  lemma PatchKeepsValid(g: Gig, body: GigDraft, now: Time)
    requires ValidGig(g) && Patch(g, body, now).Ok?
    ensures ValidGig(Patch(g, body, now).value)
  {
    if body.title.Some? {
      Text.TrimIdempotent(body.title.value);
    }
  }

  /** `updateGig`: 404 for a missing gig, 403 for anyone but its owner;
      otherwise the allow-listed fields of the body are applied and the
      update time set, and no other gig or document changes. */
  function UpdateGig(s: Store, caller: UserId, id: GigId, body: GigDraft, now: Time): (r: Result<Store>)
    ensures id !in s.gigs ==> r == Err(NotFound)
    ensures id in s.gigs && s.gigs[id].freelancerId != caller ==> r == Err(Forbidden)
    ensures r.Ok? <==> id in s.gigs && s.gigs[id].freelancerId == caller && Patch(s.gigs[id], body, now).Ok?
    ensures r.Ok? ==>
      && r.value.gigs == s.gigs[id := Patch(s.gigs[id], body, now).value]
      && r.value.users == s.users && r.value.orders == s.orders
      && r.value.reviews == s.reviews && r.value.messages == s.messages
  {
    if id !in s.gigs then Err(NotFound)
    else if s.gigs[id].freelancerId != caller then Err(Forbidden)
    else
      var g :- Patch(s.gigs[id], body, now);
      Ok(s.(gigs := s.gigs[id := g]))
  }

  /** The allow-list: an update gives the same result whatever the body says
      about the owner, the counters and the rating. */
  lemma UpdateIgnoresProtectedFields(s: Store, caller: UserId, id: GigId, body: GigDraft, now: Time,
                                     owner: Option<UserId>, views: Option<int>, orders: Option<int>,
                                     rating: Option<Tenths>, totalReviews: Option<int>)
    ensures UpdateGig(s, caller, id, body, now)
         == UpdateGig(s, caller, id, body.(freelancerId := owner, views := views, orders := orders,
                                           rating := rating, totalReviews := totalReviews), now)
  {
  }

  /** Updating keeps the store valid. */
  lemma UpdatePreservesValidity(s: Store, caller: UserId, id: GigId, body: GigDraft, now: Time)
    requires ValidStore(s)
    requires UpdateGig(s, caller, id, body, now).Ok?
    ensures ValidStore(UpdateGig(s, caller, id, body, now).value)
  {
    PatchKeepsValid(s.gigs[id], body, now);
  }

  // -------------------------------------------------------------- delete

  /** `deleteGig`: 404 for a missing gig, 403 for anyone but its owner;
      otherwise the gig, and nothing else, is removed. */
  function DeleteGig(s: Store, caller: UserId, id: GigId): (r: Result<Store>)
    ensures id !in s.gigs ==> r == Err(NotFound)
    ensures id in s.gigs && s.gigs[id].freelancerId != caller ==> r == Err(Forbidden)
    ensures r.Ok? <==> id in s.gigs && s.gigs[id].freelancerId == caller
    ensures r.Ok? ==>
      && r.value.gigs.Keys == s.gigs.Keys - {id}
      && (forall h :: h in r.value.gigs ==> r.value.gigs[h] == s.gigs[h])
      && r.value.users == s.users && r.value.orders == s.orders
      && r.value.reviews == s.reviews && r.value.messages == s.messages
  {
    if id !in s.gigs then Err(NotFound)
    else if s.gigs[id].freelancerId != caller then Err(Forbidden)
    else Ok(s.(gigs := s.gigs - {id}))
  }

  /** After a deletion the gig is gone: fetching it is a 404, and so is
      deleting it again. */
  lemma DeletedGigIsGone(s: Store, caller: UserId, id: GigId)
    requires DeleteGig(s, caller, id).Ok?
    ensures GetGigById(DeleteGig(s, caller, id).value, id) == Err(NotFound)
    ensures DeleteGig(DeleteGig(s, caller, id).value, caller, id) == Err(NotFound)
  {
  }

  // ------------------------------------------------------ by freelancer

  /** Gig `id` is an active gig of `freelancer`. */
  predicate OwnActive(s: Store, freelancer: UserId, id: GigId)
  {
    id in s.gigs && s.gigs[id].freelancerId == freelancer && s.gigs[id].status == Active
  }

  /** Entry `e` is an active gig of `freelancer` as stored. */
  predicate ListedGig(s: Store, freelancer: UserId, e: (GigId, Gig))
  {
    OwnActive(s, freelancer, e.0) && e.1 == s.gigs[e.0]
  }

  /** The sort key of the freelancer's gig list. */
  function CreatedAt(e: (GigId, Gig)): int
  {
    e.1.createdAt
  }

  /** The freelancer's active gigs, in natural order. */
  function OwnGigs(s: Store, freelancer: UserId, natural: seq<GigId>): seq<(GigId, Gig)>
  {
    var ids := Seqs.Filter(natural, (id: GigId) => OwnActive(s, freelancer, id));
    Entries(s, ids)
  }

  /** `getGigsByFreelancer`: that freelancer's active gigs, newest first
      (ties in natural order). */
  function GetGigsByFreelancer(s: Store, freelancer: UserId, natural: seq<GigId>): (es: seq<(GigId, Gig)>)
    ensures forall k :: 0 <= k < |es| ==> ListedGig(s, freelancer, es[k])
    ensures Seqs.SortedDesc(es, CreatedAt)
  {
    var listed := OwnGigs(s, freelancer, natural);
    var es := Seqs.SortDesc(listed, CreatedAt);
    forall k | 0 <= k < |es|
      ensures ListedGig(s, freelancer, es[k])
    {
      Seqs.SortKeepsElements(listed, CreatedAt, es[k]);
      var j :| 0 <= j < |listed| && listed[j] == es[k];
    }
    es
  }

  /** Every active gig of the freelancer is in the list. */
  lemma EveryOwnGigListed(s: Store, freelancer: UserId, natural: seq<GigId>, id: GigId)
    requires id in natural && OwnActive(s, freelancer, id)
    ensures (id, s.gigs[id]) in GetGigsByFreelancer(s, freelancer, natural)
  {
    var ids := Seqs.Filter(natural, (id: GigId) => OwnActive(s, freelancer, id));
    var listed := OwnGigs(s, freelancer, natural);
    var k :| 0 <= k < |natural| && natural[k] == id;
    var j :| 0 <= j < |ids| && ids[j] == id;
    assert listed[j] == (id, s.gigs[id]);
    Seqs.SortKeepsElements(listed, CreatedAt, listed[j]);
  }
}

=== FILE: messages.dfy ===
/** Chat messages: sending in an order chat or a gig inquiry, reading a
    thread (which marks the reader's incoming messages read), marking one
    message read, and the unread counter. */
module Messages {
  import opened Outcome
  import opened Entities
  import Seqs
  import Orders

  /** The other party of order `o` as the chat resolves it: the freelancer
      when the caller is the client, the client otherwise. */
  function Counterpart(o: Order, caller: UserId): UserId
  {
    if o.clientId == caller then o.freelancerId else o.clientId
  }

  /** `sendMessage`. An order identifier takes precedence: the order must
      exist (404) and the caller must be one of its parties (403), and the
      receiver is the other party. Without one, a gig identifier is needed
      (400 with neither): the gig must exist (404) and must not be the
      caller's own (400), and the receiver is its owner. The message is
      stored with both identifiers as given, the caller as sender, no
      attachments by default, unread; a missing text fails the schema. */
  function SendMessage(s: Store, caller: UserId, orderId: Option<OrderId>, gigId: Option<GigId>,
                       text: Option<string>, attachments: Option<seq<string>>, now: Time)
    : (r: Result<(Store, MessageId)>)
    ensures orderId.Some? && orderId.value >= |s.orders| ==> r == Err(NotFound)
    ensures orderId.Some? && orderId.value < |s.orders| && !Orders.IsParty(s.orders[orderId.value], caller)
      ==> r == Err(Forbidden)
    ensures orderId.None? && gigId.None? ==> r == Err(BadRequest)
    ensures orderId.None? && gigId.Some? && gigId.value !in s.gigs ==> r == Err(NotFound)
    ensures orderId.None? && gigId.Some? && gigId.value in s.gigs && s.gigs[gigId.value].freelancerId == caller
      ==> r == Err(BadRequest)
    ensures r.Ok? <==>
      && (orderId.Some? ==> orderId.value < |s.orders| && Orders.IsParty(s.orders[orderId.value], caller))
      && (orderId.None? ==> gigId.Some? && gigId.value in s.gigs && s.gigs[gigId.value].freelancerId != caller)
      && text.Some? && |text.value| > 0
    ensures r.Ok? ==>
      var (s', id) := r.value;
      && id == |s.messages| && |s'.messages| == id + 1 && s'.messages[..id] == s.messages
      && s'.users == s.users && s'.gigs == s.gigs && s'.orders == s.orders && s'.reviews == s.reviews
      && var m := s'.messages[id];
      && m.orderId == orderId && m.gigId == gigId && m.senderId == caller
      && m.text == text.value && m.attachments == OrElse(attachments, []) && !m.isRead && m.createdAt == now
      && m.receiverId == (if orderId.Some? then Counterpart(s.orders[orderId.value], caller)
                          else s.gigs[gigId.value].freelancerId)
  {
    var receiver :-
      if orderId.Some? then
        if orderId.value >= |s.orders| then Err(NotFound)
        else if !Orders.IsParty(s.orders[orderId.value], caller) then Err(Forbidden)
        else Ok(Counterpart(s.orders[orderId.value], caller))
      else if gigId.Some? then
        if gigId.value !in s.gigs then Err(NotFound)
        else if s.gigs[gigId.value].freelancerId == caller then Err(BadRequest)
        else Ok(s.gigs[gigId.value].freelancerId)
      else Err(BadRequest);
    var m :- NewMessage(orderId, gigId, caller, receiver, text, attachments, now);
    assert (s.messages + [m])[..|s.messages|] == s.messages;
    Ok((s.(messages := s.messages + [m]), |s.messages|))
  }

  /** In an order between two different users, and in any gig inquiry, a
      sent message goes to someone other than its sender. */
  lemma NoMessageToSelf(s: Store, caller: UserId, orderId: Option<OrderId>, gigId: Option<GigId>,
                        text: Option<string>, attachments: Option<seq<string>>, now: Time)
    requires forall i :: 0 <= i < |s.orders| ==> s.orders[i].clientId != s.orders[i].freelancerId
    requires SendMessage(s, caller, orderId, gigId, text, attachments, now).Ok?
    ensures var (s', id) := SendMessage(s, caller, orderId, gigId, text, attachments, now).value;
      s'.messages[id].receiverId != s'.messages[id].senderId
  {
  }

  /** Sending keeps the store valid: the new message satisfies its schema
      and nothing else changes. */
  lemma SendPreservesValidity(s: Store, caller: UserId, orderId: Option<OrderId>, gigId: Option<GigId>,
                              text: Option<string>, attachments: Option<seq<string>>, now: Time)
    requires ValidStore(s)
    requires SendMessage(s, caller, orderId, gigId, text, attachments, now).Ok?
    ensures ValidStore(SendMessage(s, caller, orderId, gigId, text, attachments, now).value.0)
  {
    var (s', id) := SendMessage(s, caller, orderId, gigId, text, attachments, now).value;
    forall i | 0 <= i < |s'.messages|
      ensures ValidMessage(s'.messages[i])
    {
      if i < id {
        assert s'.messages[..id][i] == s'.messages[i];
      }
    }
  }

  // --------------------------------------------------------- read receipts

  /** The messages with every one satisfying `p` marked read, the rest as
      they were. */
  function MarkWhere(ms: seq<Message>, p: Message -> bool): (r: seq<Message>)
    ensures |r| == |ms|
    ensures forall i :: 0 <= i < |ms| ==> r[i] == (if p(ms[i]) then ms[i].(isRead := true) else ms[i])
  {
    seq(|ms|, i requires 0 <= i < |ms| => if p(ms[i]) then ms[i].(isRead := true) else ms[i])
  }

  /** Messages ordered by non-decreasing creation time. */
  predicate Ascending(ms: seq<Message>)
  {
    forall i, j :: 0 <= i < j < |ms| ==> ms[i].createdAt <= ms[j].createdAt
  }

  /** The store's `.sort({ createdAt: 1 })`, oldest first. The store puts
      messages with equal times in no fixed order; the model takes the
      stable order, one of those the store may return. */
  function OldestFirst(ms: seq<Message>): (r: seq<Message>)
    ensures Ascending(r)
    ensures multiset(r) == multiset(ms) && |r| == |ms|
  {
    var r := Seqs.SortDesc(ms, (m: Message) => -m.createdAt);
    assert forall i, j :: 0 <= i < j < |r| ==> -r[i].createdAt >= -r[j].createdAt;
    r
  }

  predicate InOrder(m: Message, orderId: OrderId)
  {
    m.orderId == Some(orderId)
  }

  /** `getOrderMessages`: 404 for a missing order, 403 for anyone but its
      parties. The thread is every message of the order, oldest first, as
      it was before the read receipts; afterwards exactly the order's
      messages addressed to the caller are read, and every other message
      is as it was. */
  function GetOrderMessages(s: Store, caller: UserId, orderId: OrderId): (r: Result<(Store, seq<Message>)>)
    ensures orderId >= |s.orders| ==> r == Err(NotFound)
    ensures orderId < |s.orders| && !Orders.IsParty(s.orders[orderId], caller) ==> r == Err(Forbidden)
    ensures r.Ok? <==> orderId < |s.orders| && Orders.IsParty(s.orders[orderId], caller)
    ensures r.Ok? ==>
      var (s', thread) := r.value;
      && Ascending(thread)
      && multiset(thread) == multiset(Seqs.Filter(s.messages, (m: Message) => InOrder(m, orderId)))
      && s'.users == s.users && s'.gigs == s.gigs && s'.orders == s.orders && s'.reviews == s.reviews
      && |s'.messages| == |s.messages|
      && (forall i :: 0 <= i < |s.messages| ==>
            s'.messages[i] == (if InOrder(s.messages[i], orderId) && s.messages[i].receiverId == caller
                               then s.messages[i].(isRead := true) else s.messages[i]))
  {
    if orderId >= |s.orders| then Err(NotFound)
    else if !Orders.IsParty(s.orders[orderId], caller) then Err(Forbidden)
    else
      var thread := OldestFirst(Seqs.Filter(s.messages, (m: Message) => InOrder(m, orderId)));
      var marked := MarkWhere(s.messages, (m: Message) => InOrder(m, orderId) && m.receiverId == caller && !m.isRead);
      Ok((s.(messages := marked), thread))
  }

  /** Whether `m` belongs to the inquiry about gig `g` between `a` and `b`
      (no order, one sends and the other receives). */
  predicate InPair(m: Message, g: GigId, a: UserId, b: UserId)
  {
    && m.gigId == Some(g) && m.orderId.None?
    && ((m.senderId == a && m.receiverId == b) || (m.senderId == b && m.receiverId == a))
  }

  /** `getGigMessages`: 404 for a missing gig. The owner must name the
      client whose inquiry to read (400 otherwise); anyone else reads their
      inquiry with the owner. The thread is that pair's messages about the
      gig, oldest first; afterwards exactly those addressed to the caller
      are read. */
  function GetGigMessages(s: Store, caller: UserId, gigId: GigId, clientId: Option<UserId>)
    : (r: Result<(Store, seq<Message>)>)
    ensures gigId !in s.gigs ==> r == Err(NotFound)
    ensures gigId in s.gigs && s.gigs[gigId].freelancerId == caller && clientId.None? ==> r == Err(BadRequest)
    ensures r.Ok? <==> gigId in s.gigs && (s.gigs[gigId].freelancerId == caller ==> clientId.Some?)
    ensures r.Ok? ==>
      var other := if s.gigs[gigId].freelancerId == caller then clientId.value else s.gigs[gigId].freelancerId;
      var (s', thread) := r.value;
      && Ascending(thread)
      && multiset(thread) == multiset(Seqs.Filter(s.messages, (m: Message) => InPair(m, gigId, caller, other)))
      && s'.users == s.users && s'.gigs == s.gigs && s'.orders == s.orders && s'.reviews == s.reviews
      && |s'.messages| == |s.messages|
      && (forall i :: 0 <= i < |s.messages| ==>
            s'.messages[i] == (if InPair(s.messages[i], gigId, caller, other) && s.messages[i].receiverId == caller
                               then s.messages[i].(isRead := true) else s.messages[i]))
  {
    if gigId !in s.gigs then Err(NotFound)
    else
      var owner := s.gigs[gigId].freelancerId;
      if owner == caller && clientId.None? then Err(BadRequest)
      else
        var other := if owner == caller then clientId.value else owner;
        var thread := OldestFirst(Seqs.Filter(s.messages, (m: Message) => InPair(m, gigId, caller, other)));
        var marked := MarkWhere(s.messages,
                                (m: Message) => InPair(m, gigId, caller, other) && m.receiverId == caller && !m.isRead);
        Ok((s.(messages := marked), thread))
  }

  /** Reading a thread never touches a message the caller sent to someone
      else, nor any message outside the thread. */
  lemma ReadingLeavesSentMessages(s: Store, caller: UserId, orderId: OrderId, i: nat)
    requires GetOrderMessages(s, caller, orderId).Ok?
    requires i < |s.messages|
    requires s.messages[i].receiverId != caller || !InOrder(s.messages[i], orderId)
    ensures GetOrderMessages(s, caller, orderId).value.0.messages[i] == s.messages[i]
  {
  }

  /** `markAsRead`: 404 for a missing message, 403 for anyone but its
      receiver; otherwise that message, and only it, is read. */
  function MarkAsRead(s: Store, caller: UserId, id: MessageId): (r: Result<Store>)
    ensures id >= |s.messages| ==> r == Err(NotFound)
    ensures id < |s.messages| && s.messages[id].receiverId != caller ==> r == Err(Forbidden)
    ensures r.Ok? <==> id < |s.messages| && s.messages[id].receiverId == caller
    ensures r.Ok? ==>
      && r.value.users == s.users && r.value.gigs == s.gigs && r.value.orders == s.orders
      && r.value.reviews == s.reviews
      && |r.value.messages| == |s.messages| && r.value.messages[id].isRead
      && r.value.messages[id] == s.messages[id].(isRead := r.value.messages[id].isRead)
      && (forall j :: 0 <= j < |s.messages| && j != id ==> r.value.messages[j] == s.messages[j])
  {
    if id >= |s.messages| then Err(NotFound)
    else if s.messages[id].receiverId != caller then Err(Forbidden)
    else Ok(s.(messages := s.messages[id := s.messages[id].(isRead := true)]))
  }

  /** Marking a message read twice is the same as marking it once. */
  lemma MarkAsReadIdempotent(s: Store, caller: UserId, id: MessageId)
    requires MarkAsRead(s, caller, id).Ok?
    ensures MarkAsRead(MarkAsRead(s, caller, id).value, caller, id) == MarkAsRead(s, caller, id)
  {
    var s' := MarkAsRead(s, caller, id).value;
    assert s'.messages[id := s'.messages[id].(isRead := true)] == s'.messages;
  }

  /** Whether `m` is an unread message for `u`. */
  predicate UnreadFor(m: Message, u: UserId)
  {
    m.receiverId == u && !m.isRead
  }

  /** `getUnreadCount`: the number of unread messages addressed to the
      caller, that is the number of positions holding one. */
  function UnreadCount(s: Store, caller: UserId): (n: nat)
    ensures n == |set i: nat | i < |s.messages| && UnreadFor(s.messages[i], caller)|
  {
    var unread := (m: Message) => UnreadFor(m, caller);
    Seqs.CountIsPositions(s.messages, unread);
    assert Seqs.Positions(s.messages, unread) == set i: nat | i < |s.messages| && UnreadFor(s.messages[i], caller);
    Seqs.Count(s.messages, unread)
  }

  /** Marking a message read lowers its receiver's unread count by one when
      it was unread and leaves the count as it was otherwise. */
  lemma MarkAsReadLowersUnread(s: Store, caller: UserId, id: MessageId)
    requires MarkAsRead(s, caller, id).Ok?
    ensures UnreadCount(MarkAsRead(s, caller, id).value, caller)
      == UnreadCount(s, caller) - (if s.messages[id].isRead then 0 else 1)
  {
    var s' := MarkAsRead(s, caller, id).value;
    var before := set i: nat | i < |s.messages| && UnreadFor(s.messages[i], caller);
    var after := set i: nat | i < |s'.messages| && UnreadFor(s'.messages[i], caller);
    assert after == before - {id};
  }

  /** Reading an order's thread leaves no unread message of that order for
      the caller, never raises the caller's unread count, and leaves every
      other user's unread count as it was. */
  lemma ReadingClearsThread(s: Store, caller: UserId, orderId: OrderId, other: UserId)
    requires GetOrderMessages(s, caller, orderId).Ok?
    requires other != caller
    ensures var s' := GetOrderMessages(s, caller, orderId).value.0;
      && (forall i :: 0 <= i < |s'.messages| && InOrder(s'.messages[i], orderId) ==> !UnreadFor(s'.messages[i], caller))
      && UnreadCount(s', caller) <= UnreadCount(s, caller)
      && UnreadCount(s', other) == UnreadCount(s, other)
  {
    var s' := GetOrderMessages(s, caller, orderId).value.0;
    Seqs.CountMonotone(s.messages, (m: Message) => UnreadFor(m, caller), s'.messages, (m: Message) => UnreadFor(m, caller));
    Seqs.CountPointwise(s.messages, (m: Message) => UnreadFor(m, other), s'.messages, (m: Message) => UnreadFor(m, other));
  }
}

=== FILE: orders.dfy ===
/** The order lifecycle: placing an order, reading it, the freelancer's
    status updates, the client's completion with its settlement, and
    cancellation. Every operation checks in a fixed order (not found, then
    forbidden, then invalid state) and changes nothing when a check fails:
    a failure carries no store.

    Completion writes three documents one after the other (the order, the
    gig's counter, the freelancer's wallet) without a transaction; the model
    takes it as one step. */
module Orders {
  import opened Outcome
  import opened Entities
  import Text

  predicate IsParty(o: Order, u: UserId)
  {
    o.clientId == u || o.freelancerId == u
  }

  predicate IsClientUser(s: Store, u: UserId)
  {
    u in s.users && s.users[u].userType == Client
  }

  /** Everything but the orders is as it was. */
  predicate OnlyOrdersChange(s: Store, s': Store)
  {
    s'.users == s.users && s'.gigs == s.gigs && s'.reviews == s.reviews && s'.messages == s.messages
  }

  /** Order `id` is the only order that differs between `s` and `s'`. */
  predicate OtherOrdersUnchanged(s: Store, s': Store, id: OrderId)
  {
    |s'.orders| == |s.orders| && forall j :: 0 <= j < |s.orders| && j != id ==> s'.orders[j] == s.orders[j]
  }

  // ------------------------------------------------------------ createOrder

  /** A client orders gig `gigId`. Refused with 403 unless the caller is an
      existing client (checked before the gig is looked up), 404 for a
      missing gig, 400 for an inactive gig or one the caller owns, and 500
      when the requirements do not pass the schema. The new order is
      appended, copies the gig's owner and price, and starts pending. */
  function CreateOrder(s: Store, caller: UserId, gigId: GigId, requirements: Option<string>, now: Time)
    : (r: Result<(Store, OrderId)>)
    ensures !IsClientUser(s, caller) ==> r == Err(Forbidden)
    ensures IsClientUser(s, caller) && gigId !in s.gigs ==> r == Err(NotFound)
    ensures IsClientUser(s, caller) && gigId in s.gigs && s.gigs[gigId].status != Active ==> r == Err(BadRequest)
    ensures IsClientUser(s, caller) && gigId in s.gigs && s.gigs[gigId].freelancerId == caller ==> r == Err(BadRequest)
    ensures r.Ok? <==>
      && IsClientUser(s, caller) && gigId in s.gigs
      && s.gigs[gigId].status == Active && s.gigs[gigId].freelancerId != caller
      && requirements.Some? && 0 < |requirements.value| && Text.JsLength(requirements.value) <= 2000
    ensures r.Ok? ==>
      var (s', id) := r.value;
      && id == |s.orders| && |s'.orders| == |s.orders| + 1 && s'.orders[..id] == s.orders
      && OnlyOrdersChange(s, s')
      && s'.orders[id].clientId == caller
      && s'.orders[id].freelancerId == s.gigs[gigId].freelancerId
      && s'.orders[id].gigId == gigId
      && s'.orders[id].price == s.gigs[gigId].price
      && s'.orders[id].requirements == requirements.value
      && s'.orders[id].status == Pending && s'.orders[id].completedAt == None && !s'.orders[id].isReviewed
  {
    if !IsClientUser(s, caller) then Err(Forbidden)
    else if gigId !in s.gigs then Err(NotFound)
    else
      var gig := s.gigs[gigId];
      if gig.status != Active then Err(BadRequest)
      else if gig.freelancerId == caller then Err(BadRequest)
      else
        var o :- NewOrder(caller, gig.freelancerId, gigId, requirements, gig.price, now);
        var s' := s.(orders := s.orders + [o]);
        assert s'.orders[..|s.orders|] == s.orders;
        Ok((s', |s.orders|))
  }

  /** A freelancer can never order their own gig, whatever else holds. */
  lemma NoSelfOrder(s: Store, caller: UserId, gigId: GigId, requirements: Option<string>, now: Time)
    requires gigId in s.gigs && s.gigs[gigId].freelancerId == caller
    ensures CreateOrder(s, caller, gigId, requirements, now).Err?
    ensures var e := CreateOrder(s, caller, gigId, requirements, now).error; e == Forbidden || e == BadRequest
  {
  }

  // ----------------------------------------------------------- getOrderById

  /** Reading an order: 404 when it does not exist, 403 unless the caller
      is its client or its freelancer. */
  function GetOrderById(s: Store, caller: UserId, id: OrderId): (r: Result<Order>)
    ensures id >= |s.orders| ==> r == Err(NotFound)
    ensures id < |s.orders| ==> (r.Ok? <==> IsParty(s.orders[id], caller))
    ensures id < |s.orders| && r.Err? ==> r.error == Forbidden
    ensures r.Ok? ==> id < |s.orders| && r.value == s.orders[id]
  {
    if id >= |s.orders| then Err(NotFound)
    else if !IsParty(s.orders[id], caller) then Err(Forbidden)
    else Ok(s.orders[id])
  }

  // ------------------------------------------------------ updateOrderStatus

  /** The status names a freelancer may set. */
  const FreelancerStatuses: seq<string> := ["accepted", "in_progress", "delivered"]

  /** The freelancer of order `id` sets its status to `status`. 404 for a
      missing order, 403 for anyone but the order's freelancer, 400 for a
      status name outside accepted, in_progress, delivered. There is no
      check on the current status: a completed or cancelled order can be
      set back to any of the three. Only the status field changes. */
  function UpdateOrderStatus(s: Store, caller: UserId, id: OrderId, status: string): (r: Result<Store>)
    ensures id >= |s.orders| ==> r == Err(NotFound)
    ensures id < |s.orders| && s.orders[id].freelancerId != caller ==> r == Err(Forbidden)
    ensures id < |s.orders| && s.orders[id].freelancerId == caller && status !in FreelancerStatuses
      ==> r == Err(BadRequest)
    ensures r.Ok? <==> id < |s.orders| && s.orders[id].freelancerId == caller && status in FreelancerStatuses
    ensures r.Ok? ==>
      var s' := r.value;
      && OnlyOrdersChange(s, s') && OtherOrdersUnchanged(s, s', id)
      && StatusName(s'.orders[id].status) == status
      && s'.orders[id] == s.orders[id].(status := s'.orders[id].status)
  {
    if id >= |s.orders| then Err(NotFound)
    else if s.orders[id].freelancerId != caller then Err(Forbidden)
    else if status !in FreelancerStatuses then Err(BadRequest)
    else
      var st := ParseStatus(status);
      assert st.Some?;
      Ok(s.(orders := s.orders[id := s.orders[id].(status := st.value)]))
  }

  // ---------------------------------------------------------- completeOrder

  /** The client confirms delivery of order `id`. 404 for a missing order,
      403 for anyone but its client, 400 unless it is delivered. On success
      the order is completed at `now`, its gig's completed-order counter
      rises by one and its freelancer's wallet by the order's price; a gig
      or user that no longer exists is left alone (the store's
      update-by-id does nothing then). Nothing else changes. */
  function CompleteOrder(s: Store, caller: UserId, id: OrderId, now: Time): (r: Result<Store>)
    ensures id >= |s.orders| ==> r == Err(NotFound)
    ensures id < |s.orders| && s.orders[id].clientId != caller ==> r == Err(Forbidden)
    ensures id < |s.orders| && s.orders[id].clientId == caller && s.orders[id].status != Delivered
      ==> r == Err(BadRequest)
    ensures r.Ok? <==> id < |s.orders| && s.orders[id].clientId == caller && s.orders[id].status == Delivered
    ensures r.Ok? ==>
      var s' := r.value;
      var o := s.orders[id];
      && OtherOrdersUnchanged(s, s', id)
      && s'.orders[id] == o.(status := Completed, completedAt := Some(now))
      && s'.reviews == s.reviews && s'.messages == s.messages
      && s'.gigs.Keys == s.gigs.Keys && s'.users.Keys == s.users.Keys
      && (o.gigId in s.gigs ==> s'.gigs[o.gigId] == s.gigs[o.gigId].(orders := s.gigs[o.gigId].orders + 1))
      && (forall g :: g in s.gigs && g != o.gigId ==> s'.gigs[g] == s.gigs[g])
      && (o.freelancerId in s.users ==>
            s'.users[o.freelancerId]
              == s.users[o.freelancerId].(walletBalance := s.users[o.freelancerId].walletBalance + o.price))
      && (forall u :: u in s.users && u != o.freelancerId ==> s'.users[u] == s.users[u])
  {
    if id >= |s.orders| then Err(NotFound)
    else
      var o := s.orders[id];
      if o.clientId != caller then Err(Forbidden)
      else if o.status != Delivered then Err(BadRequest)
      else
        var orders' := s.orders[id := o.(status := Completed, completedAt := Some(now))];
        var gigs' := if o.gigId in s.gigs
          then s.gigs[o.gigId := s.gigs[o.gigId].(orders := s.gigs[o.gigId].orders + 1)]
          else s.gigs;
        var users' := if o.freelancerId in s.users
          then s.users[o.freelancerId := s.users[o.freelancerId].(
                 walletBalance := s.users[o.freelancerId].walletBalance + o.price)]
          else s.users;
        Ok(s.(orders := orders', gigs := gigs', users := users'))
  }

  // ------------------------------------------------------------ cancelOrder

  /** The client or the freelancer of order `id` cancels it. 404 for a
      missing order, 403 for anyone else, 400 unless it is pending. Only the
      status changes, to cancelled. */
  function CancelOrder(s: Store, caller: UserId, id: OrderId): (r: Result<Store>)
    ensures id >= |s.orders| ==> r == Err(NotFound)
    ensures id < |s.orders| && !IsParty(s.orders[id], caller) ==> r == Err(Forbidden)
    ensures id < |s.orders| && IsParty(s.orders[id], caller) && s.orders[id].status != Pending
      ==> r == Err(BadRequest)
    ensures r.Ok? <==> id < |s.orders| && IsParty(s.orders[id], caller) && s.orders[id].status == Pending
    ensures r.Ok? ==>
      var s' := r.value;
      && OnlyOrdersChange(s, s') && OtherOrdersUnchanged(s, s', id)
      && s'.orders[id] == s.orders[id].(status := Cancelled)
  {
    if id >= |s.orders| then Err(NotFound)
    else if !IsParty(s.orders[id], caller) then Err(Forbidden)
    else if s.orders[id].status != Pending then Err(BadRequest)
    else Ok(s.(orders := s.orders[id := s.orders[id].(status := Cancelled)]))
  }

  // ------------------------------------------------------- the state machine

  /** The requests that move an existing order. */
  datatype Action = SetStatus(name: string) | Complete | Cancel

  function Apply(s: Store, caller: UserId, id: OrderId, a: Action, now: Time): Result<Store>
  {
    match a
    case SetStatus(name) => UpdateOrderStatus(s, caller, id, name)
    case Complete => CompleteOrder(s, caller, id, now)
    case Cancel => CancelOrder(s, caller, id)
  }

  /** The lifecycle table, independent of the code: the order's freelancer
      may set accepted, in progress or delivered from any status; its client
      may complete a delivered order; either party may cancel a pending one. */
  predicate Allowed(o: Order, caller: UserId, from: OrderStatus, to: OrderStatus)
  {
    || (caller == o.freelancerId && to in {Accepted, InProgress, Delivered})
    || (caller == o.clientId && from == Delivered && to == Completed)
    || (IsParty(o, caller) && from == Pending && to == Cancelled)
  }

  /** Every successful request makes a move of the table, and only the
      status-related fields of that order change. */
  lemma {:induction false} StepsFollowTable(s: Store, caller: UserId, id: OrderId, a: Action, now: Time)
    requires Apply(s, caller, id, a, now).Ok?
    ensures id < |s.orders| && id < |Apply(s, caller, id, a, now).value.orders|
    ensures var o' := Apply(s, caller, id, a, now).value.orders[id];
      && Allowed(s.orders[id], caller, s.orders[id].status, o'.status)
      && o'.clientId == s.orders[id].clientId && o'.freelancerId == s.orders[id].freelancerId
      && o'.gigId == s.orders[id].gigId && o'.price == s.orders[id].price
      && o'.isReviewed == s.orders[id].isReviewed
  {
    match a
    case SetStatus(name) =>
      var st := Apply(s, caller, id, a, now).value.orders[id].status;
      assert StatusName(st) == name && name in FreelancerStatuses;
      assert st in {Accepted, InProgress, Delivered};
    case Complete =>
    case Cancel =>
  }

  /** Every move of the table is made by some request. */
  lemma TableMovesAreReachable(s: Store, caller: UserId, id: OrderId, to: OrderStatus, now: Time)
    requires id < |s.orders|
    requires Allowed(s.orders[id], caller, s.orders[id].status, to)
    ensures exists a: Action ::
      Apply(s, caller, id, a, now).Ok? && Apply(s, caller, id, a, now).value.orders[id].status == to
  {
    var o := s.orders[id];
    if caller == o.freelancerId && to in {Accepted, InProgress, Delivered} {
      var a := SetStatus(StatusName(to));
      assert StatusName(to) in FreelancerStatuses;
      NamesRoundTrip(to, Other, Active, Client);
      assert Apply(s, caller, id, a, now).value.orders[id].status == to;
    } else if caller == o.clientId && o.status == Delivered && to == Completed {
      assert Apply(s, caller, id, Complete, now).Ok?;
    } else {
      assert Apply(s, caller, id, Cancel, now).Ok?;
    }
  }

  /** Settlement needs the client: a status update or a cancellation never
      touches a wallet or a gig. */
  lemma OnlyCompletionSettles(s: Store, caller: UserId, id: OrderId, a: Action, now: Time)
    requires a != Complete
    requires Apply(s, caller, id, a, now).Ok?
    ensures Apply(s, caller, id, a, now).value.users == s.users
    ensures Apply(s, caller, id, a, now).value.gigs == s.gigs
  {
  }

  /** Because status updates do not look at the current status, the
      freelancer can take a completed order back to delivered, and the
      client's second completion credits the freelancer's wallet again. */
  lemma {:induction false} CompletedOrderCanBeSettledTwice(s: Store, id: OrderId, now: Time)
    requires id < |s.orders| && s.orders[id].status == Delivered
    requires s.orders[id].freelancerId in s.users
    ensures var o := s.orders[id];
      var s1 := CompleteOrder(s, o.clientId, id, now);
      && s1.Ok?
      && var s2 := UpdateOrderStatus(s1.value, o.freelancerId, id, "delivered");
      && s2.Ok?
      && var s3 := CompleteOrder(s2.value, o.clientId, id, now);
      && s3.Ok?
      && s3.value.users[o.freelancerId].walletBalance
         == s.users[o.freelancerId].walletBalance + 2 * o.price
  {
    var o := s.orders[id];
    var s1 := CompleteOrder(s, o.clientId, id, now).value;
    assert s1.orders[id].freelancerId == o.freelancerId;
    assert "delivered" in FreelancerStatuses;
    var s2 := UpdateOrderStatus(s1, o.freelancerId, id, "delivered").value;
    assert StatusName(s2.orders[id].status) == "delivered";
    assert s2.orders[id].status == Delivered;
    assert s2.orders[id].clientId == o.clientId && s2.orders[id].price == o.price;
    assert s2.users == s1.users;
  }

  // ------------------------------------------------------ store invariants

  /** The lifecycle operations keep every schema and index invariant. */
  lemma LifecyclePreservesValidity(s: Store, caller: UserId, id: OrderId, a: Action, now: Time)
    requires ValidStore(s)
    requires Apply(s, caller, id, a, now).Ok?
    ensures ValidStore(Apply(s, caller, id, a, now).value)
  {
    var s' := Apply(s, caller, id, a, now).value;
    if a.Complete? {
      assert forall j :: 0 <= j < |s.orders| ==>
        s'.orders[j] == s.orders[j].(status := s'.orders[j].status, completedAt := s'.orders[j].completedAt);
    } else {
      assert s'.users == s.users && s'.gigs == s.gigs;
      assert forall j :: 0 <= j < |s.orders| ==>
        s'.orders[j] == s.orders[j].(status := s'.orders[j].status, completedAt := s'.orders[j].completedAt);
    }
    SettlementKeepsValidity(s, s');
  }

  /** A store that differs from a valid one only in order statuses and
      completion times, gig order counters and wallet balances is valid. */
  lemma SettlementKeepsValidity(s: Store, s': Store)
    requires ValidStore(s)
    requires s'.reviews == s.reviews && s'.messages == s.messages && |s'.orders| == |s.orders|
    requires forall j :: 0 <= j < |s.orders| ==>
      s'.orders[j] == s.orders[j].(status := s'.orders[j].status, completedAt := s'.orders[j].completedAt)
    requires s'.users.Keys == s.users.Keys
    requires forall u :: u in s.users ==> s'.users[u] == s.users[u].(walletBalance := s'.users[u].walletBalance)
    requires s'.gigs.Keys == s.gigs.Keys
    requires forall g :: g in s.gigs ==> s'.gigs[g] == s.gigs[g].(orders := s'.gigs[g].orders)
    ensures ValidStore(s')
  {
    assert forall u :: u in s'.users ==> ValidUser(s'.users[u]) && s'.users[u].email == s.users[u].email;
    assert forall g :: g in s'.gigs ==> ValidGig(s'.gigs[g]);
    assert forall j :: 0 <= j < |s'.orders| ==> ValidOrder(s'.orders[j]);
    assert ReviewsMatchOrders(s') by {
      forall i | 0 <= i < |s'.reviews|
        ensures s'.reviews[i].orderId < |s'.orders|
        ensures var o := s'.orders[s'.reviews[i].orderId];
          o.isReviewed && s'.reviews[i].reviewerId == o.clientId && s'.reviews[i].revieweeId == o.freelancerId
      {
        var j := s.reviews[i].orderId;
        assert s'.orders[j].isReviewed == s.orders[j].isReviewed;
      }
    }
  }

  /** Placing an order keeps every schema and index invariant. */
  lemma CreatePreservesValidity(s: Store, caller: UserId, gigId: GigId, requirements: Option<string>, now: Time)
    requires ValidStore(s)
    requires CreateOrder(s, caller, gigId, requirements, now).Ok?
    ensures ValidStore(CreateOrder(s, caller, gigId, requirements, now).value.0)
  {
    var s' := CreateOrder(s, caller, gigId, requirements, now).value.0;
    assert forall j :: 0 <= j < |s.orders| ==> s'.orders[j] == s.orders[j];
  }
}

=== FILE: outcome.dfy ===
/** Outcomes of the marketplace's controller operations.

    Every controller either answers with a payload or with one failure
    category. The categories correspond to the HTTP statuses the controllers
    send: NotFound 404, Forbidden 403, BadRequest 400. ServerError is 500:
    what the generic error handler answers for an error that carries no
    status of its own, such as a model validator refusing a document, a
    unique index refusing a duplicate, or the store refusing a query. */
module Outcome {

  datatype Error = NotFound | Forbidden | BadRequest | ServerError

  /** An optional value: a missing request field, a null reference. */
  datatype Option<+T> = None | Some(value: T)

  /** The outcome of one operation; usable with `:-`. */
  datatype Result<+T> = Ok(value: T) | Err(error: Error) {

    predicate IsFailure() {
      Err?
    }

    function PropagateFailure<U>(): Result<U>
      requires Err?
    {
      Err(error)
    }

    function Extract(): T
      requires Ok?
    {
      value
    }
  }
}

=== FILE: paging.dfy ===
/** Skip/limit pagination as the listing endpoints compute it: the page's
    offset is `(page - 1) * limit`, the store skips that many documents and
    returns at most `limit` of the rest, and the reported page count is
    `Math.ceil(total / limit)` with JavaScript number semantics. */
module Paging {
  import opened Outcome

  /** A JavaScript number as `Math.ceil(total / limit)` can produce it for
      integer operands. */
  datatype JsNumber = Finite(n: int) | PositiveInfinity | NaN

  function Abs(x: int): nat
  {
    if x < 0 then -x else x
  }

  function Min(a: int, b: int): int
  {
    if a <= b then a else b
  }

  /** The number of documents the store skips for page `page`. */
  function Skip(page: int, limit: int): int
  {
    (page - 1) * limit
  }

  /** `Math.ceil(total / limit)`: the least integer not below the quotient;
      dividing by zero gives Infinity, or NaN when `total` is zero too. */
  function TotalPages(total: nat, limit: int): (r: JsNumber)
    ensures limit > 0 ==> r.Finite? && (r.n - 1) * limit < total <= r.n * limit
    ensures limit < 0 ==> r.Finite? && r.n * limit <= total < (r.n - 1) * limit
    ensures limit == 0 ==> r == (if total > 0 then PositiveInfinity else NaN)
  {
    if limit > 0 then Finite((total + limit - 1) / limit)
    else if limit < 0 then Finite(-(total / -limit))
    else if total > 0 then PositiveInfinity
    else NaN
  }

  /** With a positive limit there are no pages exactly when there is nothing
      to list, and the last page is never empty. */
  lemma TotalPagesPositive(total: nat, limit: int)
    requires limit > 0
    ensures TotalPages(total, limit).Finite?
    ensures TotalPages(total, limit).n == 0 <==> total == 0
    ensures TotalPages(total, limit).n >= 0
    ensures total > 0 ==> Skip(TotalPages(total, limit).n, limit) < total
  {
    var n := TotalPages(total, limit).n;
    if n == 0 {
      assert total <= 0;
    }
    assert Skip(n, limit) == (n - 1) * limit;
  }

  /** The store's `skip(offset).limit(limit)`: a negative offset is refused;
      a limit of 0 means no limit and a negative limit counts by its
      absolute value. The page is the contiguous run of `xs` that starts at
      the offset. */
  function Page<T>(xs: seq<T>, offset: int, limit: int): (r: Result<seq<T>>)
    ensures r.Ok? <==> offset >= 0
    ensures r.Err? ==> r.error == ServerError
    ensures r.Ok? ==>
      var start := Min(offset, |xs|);
      && start + |r.value| <= |xs|
      && r.value == xs[start..start + |r.value|]
      && |r.value| == (if limit == 0 then |xs| - start else Min(Abs(limit), |xs| - start))
  {
    if offset < 0 then Err(ServerError)
    else
      var start := Min(offset, |xs|);
      var n := if limit == 0 then |xs| - start else Min(Abs(limit), |xs| - start);
      Ok(xs[start..start + n])
  }

  /** With a positive limit every listed document appears on exactly the
      page its position says, and that page is among the reported ones. */
  lemma PagesCoverAll<T>(xs: seq<T>, limit: int, i: nat)
    requires limit > 0
    requires i < |xs|
    ensures var p := i / limit + 1;
      && 1 <= p
      && TotalPages(|xs|, limit).Finite? && p <= TotalPages(|xs|, limit).n
      && Page(xs, Skip(p, limit), limit).Ok?
      && i % limit < |Page(xs, Skip(p, limit), limit).value|
      && Page(xs, Skip(p, limit), limit).value[i % limit] == xs[i]
  {
    var p := i / limit + 1;
    var q := i / limit;
    assert i == q * limit + i % limit;
    assert Skip(p, limit) == q * limit;
    assert q >= 0;
    var n := TotalPages(|xs|, limit).n;
    assert (n - 1) * limit < |xs| <= n * limit;
    if p > n {
      assert q * limit >= n * limit by {
        assert q >= n;
        MulMono(n, q, limit);
      }
    }
  }

  /** A paginated listing response: the page's items and their number, the
      number of all matching documents, the requested page number and the
      page count. */
  datatype Listing<T> = Listing(count: nat, total: nat, page: int, totalPages: JsNumber, items: seq<T>)

  /** The listing of page `page` of `matching` with `limit` per page: the
      count of everything that matches, the page the store returns for
      offset `Skip(page, limit)`, and `Math.ceil(total / limit)` pages. A
      negative offset makes the store refuse the query. */
  function Paginate<T>(matching: seq<T>, page: int, limit: int): (r: Result<Listing<T>>)
    ensures r.Ok? <==> Skip(page, limit) >= 0
    ensures r.Err? ==> r.error == ServerError
    ensures r.Ok? ==>
      && r.value.total == |matching| && r.value.page == page && r.value.count == |r.value.items|
      && r.value.totalPages == TotalPages(|matching|, limit)
      && Page(matching, Skip(page, limit), limit) == Ok(r.value.items)
    ensures r.Ok? ==>
      var start := Min(Skip(page, limit), |matching|);
      && start + |r.value.items| <= |matching|
      && forall k :: 0 <= k < |r.value.items| ==> r.value.items[k] == matching[start + k]
  {
    var items :- Page(matching, Skip(page, limit), limit);
    Ok(Listing(|items|, |matching|, page, TotalPages(|matching|, limit), items))
  }

  /** With a positive limit, page `p` from 1 on lists at most `limit`
      documents, and exactly the ones at positions `(p-1)*limit` onwards. */
  lemma PaginateBounds<T>(matching: seq<T>, page: int, limit: int)
    requires limit > 0 && page >= 1
    ensures Paginate(matching, page, limit).Ok?
    ensures var l := Paginate(matching, page, limit).value;
      && l.count <= limit
      && forall k :: 0 <= k < l.count ==>
           Skip(page, limit) + k < |matching| && l.items[k] == matching[Skip(page, limit) + k]
  {
    MulMono(0, page - 1, limit);
  }

  lemma MulMono(a: int, b: int, c: nat)
    requires a <= b
    ensures a * c <= b * c
  {
  }
}

=== FILE: ratings.dfy ===
/** Rating aggregation. After every new review the freelancer's and the
    gig's rating are recomputed from scratch as the mean of the matching
    reviews' star ratings, rounded to one decimal (`Math.round(mean * 10) /
    10`), together with the number of reviews. With no matching review the
    subject is left as it was. In tenths of a star, the rounding is
    `(20 * sum + n) / (2 * n)` in integer division.

    The recomputation reads the reviews and then writes the subject with no
    lock; the model takes it as one step. */
module Ratings {
  import opened Entities
  import Seqs

  /** `Math.round(sum / n * 10)`: the mean in tenths, rounded half up. */
  function RoundedMeanTenths(sum: int, n: nat): (t: Tenths)
    requires n > 0
    ensures 2 * n * t - n <= 20 * sum < 2 * n * t + n
  {
    var t := (20 * sum + n) / (2 * n);
    assert 2 * n * t <= 20 * sum + n < 2 * n * t + 2 * n;
    t
  }

  /** The rounding bracket pins down one value: the nearest tenth, with a
      tie going up. */
  lemma RoundedMeanIsUnique(sum: int, n: nat, t: int)
    requires n > 0
    requires 2 * n * t - n <= 20 * sum < 2 * n * t + n
    ensures t == RoundedMeanTenths(sum, n)
  {
    var u := RoundedMeanTenths(sum, n);
    assert t * (2 * n) < (u + 1) * (2 * n);
    LtCancel(t, u + 1, 2 * n);
    assert u * (2 * n) < (t + 1) * (2 * n);
    LtCancel(u, t + 1, 2 * n);
  }

  /** Means of star ratings between 1 and 5 round to between 1.0 and 5.0. */
  lemma RoundedMeanBounds(sum: int, n: nat)
    requires n > 0
    requires n <= sum <= 5 * n
    ensures 10 <= RoundedMeanTenths(sum, n) <= 50
  {
    var t := RoundedMeanTenths(sum, n);
    assert 19 * n < (2 * t) * n;
    LtCancel(19, 2 * t, n);
    assert (2 * t) * n < 102 * n;
    LtCancel(2 * t, 102, n);
  }

  /** Division of both sides of a strict inequality by a positive factor. */
  lemma LtCancel(a: int, b: int, c: int)
    requires c > 0
    requires a * c < b * c
    ensures a < b
  {
    if b <= a {
      MulLe(b, a, c);
    }
  }

  lemma MulLe(a: int, b: int, c: int)
    requires a <= b && c >= 0
    ensures a * c <= b * c
  {
  }

  /** A mean that is already a whole number of tenths is reported exactly:
      rounding never moves it. */
  lemma ExactMeanIsKept(sum: int, n: nat)
    requires n > 0
    requires (10 * sum) % n == 0
    ensures RoundedMeanTenths(sum, n) == 10 * sum / n
  {
    var q := 10 * sum / n;
    assert 10 * sum == n * q;
    assert 20 * sum == 2 * n * q;
    RoundedMeanIsUnique(sum, n, q);
  }

  /** The sum of the star ratings of `rs`. */
  function Sum(rs: seq<Review>): int
  {
    Seqs.SumOf(rs, (r: Review) => r.rating)
  }

  /** Star ratings of valid reviews sum to between n and 5n. */
  lemma SumOfValid(rs: seq<Review>)
    requires forall i :: 0 <= i < |rs| ==> ValidReview(rs[i])
    ensures |rs| <= Sum(rs) <= 5 * |rs|
  {
    Seqs.SumBounds(rs, (r: Review) => r.rating, 1, 5);
  }

  /** The reviews about user `u`. */
  function UserReviews(reviews: seq<Review>, u: UserId): seq<Review>
  {
    Seqs.Filter(reviews, (r: Review) => r.revieweeId == u)
  }

  /** Whether review `r` belongs to an order of gig `g`. */
  predicate OfGig(orders: seq<Order>, g: GigId, r: Review)
  {
    r.orderId < |orders| && orders[r.orderId].gigId == g
  }

  /** The reviews whose order is an order of gig `g`. */
  function GigReviews(s: Store, g: GigId): seq<Review>
  {
    Seqs.Filter(s.reviews, (r: Review) => OfGig(s.orders, g, r))
  }

  /** `updateUserRating`: user `u` gets the rounded mean and the count of the
      reviews about them; with no such review, or no such user, the store
      is unchanged. Only the two aggregate fields of `u` change. */
  function UpdateUserRating(s: Store, u: UserId): (s': Store)
    ensures s'.gigs == s.gigs && s'.orders == s.orders && s'.reviews == s.reviews && s'.messages == s.messages
    ensures s'.users.Keys == s.users.Keys
    ensures forall v :: v in s.users && v != u ==> s'.users[v] == s.users[v]
    ensures |UserReviews(s.reviews, u)| == 0 || u !in s.users ==> s' == s
    ensures |UserReviews(s.reviews, u)| > 0 && u in s.users ==>
      var rs := UserReviews(s.reviews, u);
      && s'.users[u] == s.users[u].(rating := s'.users[u].rating, totalReviews := |rs|)
      && 2 * |rs| * s'.users[u].rating - |rs| <= 20 * Sum(rs) < 2 * |rs| * s'.users[u].rating + |rs|
  {
    var rs := UserReviews(s.reviews, u);
    if |rs| == 0 || u !in s.users then s
    else
      s.(users := s.users[u := s.users[u].(rating := RoundedMeanTenths(Sum(rs), |rs|), totalReviews := |rs|)])
  }

  /** `updateGigRating`: gig `g` gets the rounded mean and the count of the
      reviews of its orders; with no such review, or no such gig, the store
      is unchanged. Only the two aggregate fields of `g` change. */
  function UpdateGigRating(s: Store, g: GigId): (s': Store)
    ensures s'.users == s.users && s'.orders == s.orders && s'.reviews == s.reviews && s'.messages == s.messages
    ensures s'.gigs.Keys == s.gigs.Keys
    ensures forall h :: h in s.gigs && h != g ==> s'.gigs[h] == s.gigs[h]
    ensures |GigReviews(s, g)| == 0 || g !in s.gigs ==> s' == s
    ensures |GigReviews(s, g)| > 0 && g in s.gigs ==>
      var rs := GigReviews(s, g);
      && s'.gigs[g] == s.gigs[g].(rating := s'.gigs[g].rating, totalReviews := |rs|)
      && 2 * |rs| * s'.gigs[g].rating - |rs| <= 20 * Sum(rs) < 2 * |rs| * s'.gigs[g].rating + |rs|
  {
    var rs := GigReviews(s, g);
    if |rs| == 0 || g !in s.gigs then s
    else
      s.(gigs := s.gigs[g := s.gigs[g].(rating := RoundedMeanTenths(Sum(rs), |rs|), totalReviews := |rs|)])
  }

  /** With valid reviews, a recomputed user rating lies within 1.0..5.0 and
      so within the schema's 0..5. */
  lemma UserRatingInBounds(s: Store, u: UserId)
    requires forall i :: 0 <= i < |s.reviews| ==> ValidReview(s.reviews[i])
    requires |UserReviews(s.reviews, u)| > 0 && u in s.users
    ensures 10 <= UpdateUserRating(s, u).users[u].rating <= MaxRatingTenths
  {
    var rs := UserReviews(s.reviews, u);
    assert forall i :: 0 <= i < |rs| ==> ValidReview(rs[i]);
    SumOfValid(rs);
    RoundedMeanBounds(Sum(rs), |rs|);
  }

  /** With valid reviews, a recomputed gig rating lies within 1.0..5.0. */
  lemma GigRatingInBounds(s: Store, g: GigId)
    requires forall i :: 0 <= i < |s.reviews| ==> ValidReview(s.reviews[i])
    requires |GigReviews(s, g)| > 0 && g in s.gigs
    ensures 10 <= UpdateGigRating(s, g).gigs[g].rating <= MaxRatingTenths
  {
    var rs := GigReviews(s, g);
    assert forall i :: 0 <= i < |rs| ==> ValidReview(rs[i]);
    SumOfValid(rs);
    RoundedMeanBounds(Sum(rs), |rs|);
  }
}

=== FILE: reviews.dfy ===
/** Review creation and review listings. A review is written once per
    order, by the order's client, after completion; creating it recomputes
    the freelancer's and the gig's ratings and marks the order reviewed.
    Listings hide the identity of anonymous reviewers. */
module Reviews {
  import opened Outcome
  import opened Entities
  import Text
  import Seqs
  import Ratings

  /** Whether some stored review is about order `orderId`. */
  predicate HasReview(reviews: seq<Review>, orderId: OrderId)
  {
    exists i :: 0 <= i < |reviews| && reviews[i].orderId == orderId
  }

  /** The client of completed order `orderId` reviews it. 404 for a missing
      order, 403 for anyone but its client, 400 unless it is completed, 400
      when it already has a review, 500 when the rating or message fail the
      schema. On success the review is appended (reviewer the caller,
      reviewee the order's freelancer), the freelancer's and the gig's
      ratings are recomputed over all their reviews including the new one,
      and the order is marked reviewed. */
  function CreateReview(s: Store, caller: UserId, orderId: OrderId, rating: Option<int>, message: Option<string>,
                        anonymous: Option<bool>, now: Time): (r: Result<Store>)
    ensures orderId >= |s.orders| ==> r == Err(NotFound)
    ensures orderId < |s.orders| && s.orders[orderId].clientId != caller ==> r == Err(Forbidden)
    ensures orderId < |s.orders| && s.orders[orderId].clientId == caller && s.orders[orderId].status != Completed
      ==> r == Err(BadRequest)
    ensures orderId < |s.orders| && s.orders[orderId].clientId == caller && HasReview(s.reviews, orderId)
      ==> r == Err(BadRequest)
    ensures r.Ok? <==>
      && orderId < |s.orders| && s.orders[orderId].clientId == caller
      && s.orders[orderId].status == Completed && !HasReview(s.reviews, orderId)
      && rating.Some? && 1 <= rating.value <= 5 && message.Some? && 0 < |message.value|
      && Text.JsLength(message.value) <= 1000
    ensures r.Ok? ==>
      var s' := r.value;
      var o := s.orders[orderId];
      && |s'.reviews| == |s.reviews| + 1 && s'.reviews[..|s.reviews|] == s.reviews
      && var rev := s'.reviews[|s.reviews|];
      && rev.orderId == orderId && rev.reviewerId == caller && rev.revieweeId == o.freelancerId
      && rev.rating == rating.value && (rev.anonymous <==> anonymous == Some(true))
      && rev.message == message.value && rev.createdAt == now
      && |s'.orders| == |s.orders| && s'.orders[orderId] == o.(isReviewed := true)
      && (forall j :: 0 <= j < |s.orders| && j != orderId ==> s'.orders[j] == s.orders[j])
      && s'.messages == s.messages
      && ValidReview(rev)
      && Rerated(s, s', o.freelancerId, o.gigId)
  {
    if orderId >= |s.orders| then Err(NotFound)
    else
      var o := s.orders[orderId];
      if o.clientId != caller then Err(Forbidden)
      else if o.status != Completed then Err(BadRequest)
      else if HasReview(s.reviews, orderId) then Err(BadRequest)
      else
        var rev :- NewReview(orderId, caller, o.freelancerId, rating, message, anonymous, now);
        var s1 := s.(reviews := s.reviews + [rev]);
        assert s1.reviews[..|s.reviews|] == s.reviews;
        CreatedReviewCounts(s1, o.freelancerId, o.gigId, orderId);
        var s3 := Rerate(s1, o.freelancerId, o.gigId);
        var s4 := s3.(orders := s3.orders[orderId := o.(isReviewed := true)]);
        ReviewedFlagKeepsGigReviews(s3, orderId, o.(isReviewed := true), o.gigId);
        assert Rerated(s1, s4, o.freelancerId, o.gigId);
        Ok(s4)
  }

  /** `s'` is `s` with the rating and review count of freelancer `u` and of
      gig `g` recomputed over the reviews of `s'`: each becomes the rounded
      mean of its reviews and their number, and no other user or gig, and
      no other field, changes. */
  predicate Rerated(s: Store, s': Store, u: UserId, g: GigId)
  {
    && s'.users.Keys == s.users.Keys && s'.gigs.Keys == s.gigs.Keys
    && (forall v :: v in s.users && v != u ==> s'.users[v] == s.users[v])
    && (forall h :: h in s.gigs && h != g ==> s'.gigs[h] == s.gigs[h])
    && (u in s.users ==>
          var rs := Ratings.UserReviews(s'.reviews, u);
          && |rs| > 0
          && s'.users[u] == s.users[u].(rating := s'.users[u].rating, totalReviews := |rs|)
          && s'.users[u].rating == Ratings.RoundedMeanTenths(Ratings.Sum(rs), |rs|))
    && (g in s.gigs ==>
          var rs := Ratings.GigReviews(s', g);
          && |rs| > 0
          && s'.gigs[g] == s.gigs[g].(rating := s'.gigs[g].rating, totalReviews := |rs|)
          && s'.gigs[g].rating == Ratings.RoundedMeanTenths(Ratings.Sum(rs), |rs|))
  }

  /** `updateUserRating` then `updateGigRating`, when both have reviews to
      average. */
  function Rerate(s: Store, u: UserId, g: GigId): (s': Store)
    requires |Ratings.UserReviews(s.reviews, u)| > 0 && |Ratings.GigReviews(s, g)| > 0
    ensures s'.reviews == s.reviews && s'.orders == s.orders && s'.messages == s.messages
    ensures Rerated(s, s', u, g)
  {
    Ratings.UpdateGigRating(Ratings.UpdateUserRating(s, u), g)
  }

  /** The review just appended is one of the freelancer's reviews and one of
      the gig's, so neither recomputation is the empty no-op. */
  lemma CreatedReviewCounts(s: Store, u: UserId, g: GigId, orderId: OrderId)
    requires |s.reviews| > 0
    requires s.reviews[|s.reviews| - 1].revieweeId == u
    requires s.reviews[|s.reviews| - 1].orderId == orderId
    requires orderId < |s.orders| && s.orders[orderId].gigId == g
    ensures |Ratings.UserReviews(s.reviews, u)| > 0
    ensures |Ratings.GigReviews(s, g)| > 0
  {
    var last := s.reviews[|s.reviews| - 1];
    assert last in Ratings.UserReviews(s.reviews, u);
    assert Ratings.OfGig(s.orders, g, last);
    assert last in Ratings.GigReviews(s, g);
  }

  /** Replacing an order by one of the same gig leaves every gig's review
      set as it was. */
  lemma ReviewedFlagKeepsGigReviews(s: Store, orderId: OrderId, o: Order, g: GigId)
    requires orderId < |s.orders| && o.gigId == s.orders[orderId].gigId
    ensures Ratings.GigReviews(s.(orders := s.orders[orderId := o]), g) == Ratings.GigReviews(s, g)
  {
    var s' := s.(orders := s.orders[orderId := o]);
    Seqs.FilterCongruent(s.reviews, (r: Review) => Ratings.OfGig(s'.orders, g, r),
                         (r: Review) => Ratings.OfGig(s.orders, g, r));
  }

  /** A second review of the same order is always refused; when its client
      tries, the refusal is the 400 for an already reviewed order. */
  lemma ReviewOncePerOrder(s: Store, caller: UserId, orderId: OrderId, rating: Option<int>,
                           message: Option<string>, anonymous: Option<bool>, now: Time,
                           caller2: UserId, rating2: Option<int>, message2: Option<string>,
                           anonymous2: Option<bool>, now2: Time)
    requires CreateReview(s, caller, orderId, rating, message, anonymous, now).Ok?
    ensures var s' := CreateReview(s, caller, orderId, rating, message, anonymous, now).value;
      var again := CreateReview(s', caller2, orderId, rating2, message2, anonymous2, now2);
      && again.Err?
      && (caller2 == caller ==> again == Err(BadRequest))
  {
    var s' := CreateReview(s, caller, orderId, rating, message, anonymous, now).value;
    assert s'.reviews[|s.reviews|].orderId == orderId;
    assert HasReview(s'.reviews, orderId);
  }

  /** Review creation keeps every schema and index invariant: one review per
      order, reviews matching their orders, and ratings within the schema's
      bounds. */
  lemma CreateReviewPreservesValidity(s: Store, caller: UserId, orderId: OrderId, rating: Option<int>,
                                      message: Option<string>, anonymous: Option<bool>, now: Time)
    requires ValidStore(s)
    requires CreateReview(s, caller, orderId, rating, message, anonymous, now).Ok?
    ensures ValidStore(CreateReview(s, caller, orderId, rating, message, anonymous, now).value)
  {
    var s' := CreateReview(s, caller, orderId, rating, message, anonymous, now).value;
    var o := s.orders[orderId];
    NewReviewKeepsReviewInvariants(s, s', orderId);
    ReratedUsersValid(s, s', o.freelancerId, o.gigId);
    ReratedGigsValid(s, s', o.freelancerId, o.gigId);
    assert s'.messages == s.messages;
  }

  /** The review-level invariants after appending a review for an order that
      had none and marking that order reviewed. */
  lemma NewReviewKeepsReviewInvariants(s: Store, s': Store, orderId: OrderId)
    requires ValidStore(s)
    requires orderId < |s.orders| && !HasReview(s.reviews, orderId)
    requires |s'.reviews| == |s.reviews| + 1 && s'.reviews[..|s.reviews|] == s.reviews
    requires ValidReview(s'.reviews[|s.reviews|])
    requires s'.reviews[|s.reviews|].orderId == orderId
    requires s'.reviews[|s.reviews|].reviewerId == s.orders[orderId].clientId
    requires s'.reviews[|s.reviews|].revieweeId == s.orders[orderId].freelancerId
    requires |s'.orders| == |s.orders| && s'.orders[orderId] == s.orders[orderId].(isReviewed := true)
    requires forall j :: 0 <= j < |s.orders| && j != orderId ==> s'.orders[j] == s.orders[j]
    ensures forall i :: 0 <= i < |s'.reviews| ==> ValidReview(s'.reviews[i])
    ensures OneReviewPerOrder(s'.reviews)
    ensures ReviewsMatchOrders(s')
    ensures forall j :: 0 <= j < |s'.orders| ==> ValidOrder(s'.orders[j])
  {
    var n := |s.reviews|;
    forall i | 0 <= i < n
      ensures s'.reviews[i] == s.reviews[i]
    {
      assert s'.reviews[..n][i] == s'.reviews[i];
    }
    forall i, j | 0 <= i < j < |s'.reviews|
      ensures s'.reviews[i].orderId != s'.reviews[j].orderId
    {
      if j == n {
        assert s.reviews[i].orderId != orderId;
      }
    }
  }

  /** Recomputing a freelancer's rating over valid reviews keeps every
      user within the schema and every email where it was. */
  lemma ReratedUsersValid(s: Store, s': Store, u: UserId, g: GigId)
    requires forall v :: v in s.users ==> ValidUser(s.users[v])
    requires EmailsUnique(s.users)
    requires forall i :: 0 <= i < |s'.reviews| ==> ValidReview(s'.reviews[i])
    requires Rerated(s, s', u, g)
    ensures forall v :: v in s'.users ==> ValidUser(s'.users[v])
    ensures EmailsUnique(s'.users)
  {
    if u in s.users {
      var rs := Ratings.UserReviews(s'.reviews, u);
      assert forall i :: 0 <= i < |rs| ==> ValidReview(rs[i]);
      Ratings.SumOfValid(rs);
      Ratings.RoundedMeanBounds(Ratings.Sum(rs), |rs|);
    }
    EmailsKeptUnique(s.users, s'.users);
  }

  /** Recomputing a gig's rating over valid reviews keeps every gig within
      the schema. */
  lemma ReratedGigsValid(s: Store, s': Store, u: UserId, g: GigId)
    requires forall h :: h in s.gigs ==> ValidGig(s.gigs[h])
    requires forall i :: 0 <= i < |s'.reviews| ==> ValidReview(s'.reviews[i])
    requires Rerated(s, s', u, g)
    ensures forall h :: h in s'.gigs ==> ValidGig(s'.gigs[h])
  {
    if g in s.gigs {
      var rs := Ratings.GigReviews(s', g);
      assert forall i :: 0 <= i < |rs| ==> ValidReview(rs[i]);
      Ratings.SumOfValid(rs);
      Ratings.RoundedMeanBounds(Ratings.Sum(rs), |rs|);
    }
  }

  // ---------------------------------------------------------------- listings

  /** The reviewer as a listing shows them: the populated user (identifier,
      name, picture), or the fixed anonymous stand-in without identifier. */
  datatype ReviewerView = ReviewerView(id: Option<UserId>, name: string, profilePicture: Option<string>)

  /** One review as a listing shows it: every field of the review, with the
      reviewer identifier replaced by the reviewer view (null when the
      reviewer's account no longer exists). */
  datatype ReviewEntry = ReviewEntry(
    orderId: OrderId,
    revieweeId: UserId,
    rating: int,
    message: string,
    anonymous: bool,
    createdAt: Time,
    reviewer: Option<ReviewerView>)

  const AnonymousReviewer: ReviewerView := ReviewerView(None, "Anonymous", None)

  /** The reviewer as the store populates them: null for a deleted user. */
  function PopulateReviewer(s: Store, id: UserId): Option<ReviewerView>
  {
    if id in s.users then Some(ReviewerView(Some(id), s.users[id].name, s.users[id].profilePicture)) else None
  }

  function Mask(s: Store, r: Review): ReviewEntry
  {
    ReviewEntry(r.orderId, r.revieweeId, r.rating, r.message, r.anonymous, r.createdAt,
                if r.anonymous then Some(AnonymousReviewer) else PopulateReviewer(s, r.reviewerId))
  }

  /** A listing response: `count` and the processed reviews. */
  datatype Listing = Listing(count: nat, reviews: seq<ReviewEntry>)

  /** The listing of `rs`: one entry per review, in order, anonymous
      reviewers masked, everything else carried over; the count is the
      number of reviews. */
  function ListReviews(s: Store, rs: seq<Review>): (l: Listing)
    ensures l.count == |rs| == |l.reviews|
    ensures forall i :: 0 <= i < |rs| ==>
      && l.reviews[i].orderId == rs[i].orderId && l.reviews[i].rating == rs[i].rating
      && l.reviews[i].message == rs[i].message && l.reviews[i].anonymous == rs[i].anonymous
      && l.reviews[i].revieweeId == rs[i].revieweeId && l.reviews[i].createdAt == rs[i].createdAt
    ensures forall i :: 0 <= i < |rs| && rs[i].anonymous ==> l.reviews[i].reviewer == Some(AnonymousReviewer)
    ensures forall i :: 0 <= i < |rs| && !rs[i].anonymous && rs[i].reviewerId in s.users ==>
      l.reviews[i].reviewer.Some? && l.reviews[i].reviewer.value.id == Some(rs[i].reviewerId)
  {
    Listing(|rs|, seq(|rs|, i requires 0 <= i < |rs| => Mask(s, rs[i])))
  }

  /** An anonymous entry does not depend on who wrote the review. */
  lemma AnonymousHidesReviewer(s: Store, r: Review, other: UserId)
    requires r.anonymous
    ensures Mask(s, r) == Mask(s, r.(reviewerId := other))
  {
  }

  /** The creation time, the key both listings sort on. */
  function ReviewTime(r: Review): int
  {
    r.createdAt
  }

  /** `l` is the listing of the reviews of `pool` taken newest first: the
      listing of some ordering of exactly those reviews by creation time. */
  ghost predicate ListsNewestFirst(s: Store, l: Listing, pool: seq<Review>)
  {
    exists rs :: multiset(rs) == multiset(pool) && Seqs.SortedDesc(rs, ReviewTime) && l == ListReviews(s, rs)
  }

  /** Sorting `pool` newest first and listing it gives a listing of
      exactly `pool`, and every sorted review comes from `pool`. */
  lemma SortedListing(s: Store, pool: seq<Review>)
    ensures var rs := Seqs.SortDesc(pool, ReviewTime);
      && ListsNewestFirst(s, ListReviews(s, rs), pool)
      && forall i :: 0 <= i < |rs| ==> rs[i] in pool
  {
    var rs := Seqs.SortDesc(pool, ReviewTime);
    forall i | 0 <= i < |rs|
      ensures rs[i] in pool
    {
      Seqs.SortKeepsElements(pool, ReviewTime, rs[i]);
    }
  }

  /** Entry `e` shows the order and rating of a stored review of one of
      the orders of gig `g`. */
  predicate FromGigOrder(s: Store, g: GigId, e: ReviewEntry)
  {
    exists j :: 0 <= j < |s.reviews| && Ratings.OfGig(s.orders, g, s.reviews[j])
      && e.orderId == s.reviews[j].orderId && e.rating == s.reviews[j].rating
  }

  /** The entry of a review of the gig's orders comes from the store. */
  lemma GigEntryFromStore(s: Store, g: GigId, r: Review)
    requires r in Ratings.GigReviews(s, g)
    ensures FromGigOrder(s, g, Mask(s, r))
  {
    var pool := Ratings.GigReviews(s, g);
    var k :| 0 <= k < |pool| && pool[k] == r;
    var j :| 0 <= j < |s.reviews| && s.reviews[j] == r;
  }

  /** `getGigReviews`: the reviews of the gig's orders, newest first,
      masked, with their number as the count. */
  function GetGigReviews(s: Store, g: GigId): (l: Listing)
    ensures ListsNewestFirst(s, l, Ratings.GigReviews(s, g))
    ensures l.count == |Ratings.GigReviews(s, g)| == |l.reviews|
    ensures forall i :: 0 <= i < |l.reviews| ==> FromGigOrder(s, g, l.reviews[i])
    ensures forall i, j :: 0 <= i < j < |l.reviews| ==> l.reviews[i].createdAt >= l.reviews[j].createdAt
  {
    var pool := Ratings.GigReviews(s, g);
    var rs := Seqs.SortDesc(pool, ReviewTime);
    SortedListing(s, pool);
    var l := ListReviews(s, rs);
    forall i | 0 <= i < |l.reviews|
      ensures FromGigOrder(s, g, l.reviews[i])
    {
      GigEntryFromStore(s, g, rs[i]);
    }
    l
  }

  /** Every review of an order of the gig is in its listing, masked. */
  lemma EveryGigReviewListed(s: Store, g: GigId, i: nat) returns (k: nat)
    requires i < |s.reviews| && Ratings.OfGig(s.orders, g, s.reviews[i])
    ensures k < |GetGigReviews(s, g).reviews| && GetGigReviews(s, g).reviews[k] == Mask(s, s.reviews[i])
  {
    var pool := Ratings.GigReviews(s, g);
    assert s.reviews[i] in pool;
    var p :| 0 <= p < |pool| && pool[p] == s.reviews[i];
    k := Seqs.InputPosition(pool, ReviewTime, p);
  }

  /** `getUserReviews`: the reviews about the user, newest first, masked,
      with their number as the count. */
  function GetUserReviews(s: Store, u: UserId): (l: Listing)
    ensures ListsNewestFirst(s, l, Ratings.UserReviews(s.reviews, u))
    ensures l.count == |Ratings.UserReviews(s.reviews, u)| == |l.reviews|
    ensures forall i :: 0 <= i < |l.reviews| ==> l.reviews[i].revieweeId == u
    ensures forall i, j :: 0 <= i < j < |l.reviews| ==> l.reviews[i].createdAt >= l.reviews[j].createdAt
  {
    var pool := Ratings.UserReviews(s.reviews, u);
    SortedListing(s, pool);
    ListReviews(s, Seqs.SortDesc(pool, ReviewTime))
  }

  /** Every review about the user is in their listing, masked. */
  lemma EveryUserReviewListed(s: Store, u: UserId, i: nat) returns (k: nat)
    requires i < |s.reviews| && s.reviews[i].revieweeId == u
    ensures k < |GetUserReviews(s, u).reviews| && GetUserReviews(s, u).reviews[k] == Mask(s, s.reviews[i])
  {
    var pool := Ratings.UserReviews(s.reviews, u);
    assert s.reviews[i] in pool;
    var p :| 0 <= p < |pool| && pool[p] == s.reviews[i];
    k := Seqs.InputPosition(pool, ReviewTime, p);
  }
}

=== FILE: seqs.dfy ===
/** Sequence helpers standing in for the document store's query operators:
    `find` with a filter (Filter), `countDocuments` (Count), a numeric sum
    (`reduce`), and `sort` on one numeric key (SortDesc, a stable insertion
    sort; an ascending sort is a descending sort on the negated key). */
module Seqs {

  /** The elements of `xs` that satisfy `p`, in their original order. */
  function Filter<T>(xs: seq<T>, p: T -> bool): (r: seq<T>)
    ensures |r| <= |xs|
    ensures forall i :: 0 <= i < |r| ==> p(r[i]) && r[i] in xs
    ensures forall i :: 0 <= i < |xs| && p(xs[i]) ==> xs[i] in r
    ensures multiset(r) <= multiset(xs)
    decreases |xs|
  {
    if |xs| == 0 then []
    else
      assert xs == [xs[0]] + xs[1..];
      if p(xs[0]) then [xs[0]] + Filter(xs[1..], p) else Filter(xs[1..], p)
  }

  /** The number of elements of `xs` that satisfy `p`. */
  function Count<T>(xs: seq<T>, p: T -> bool): (n: nat)
    ensures n <= |xs|
  {
    |Filter(xs, p)|
  }

  /** The positions of `xs` whose element satisfies `p`. */
  function Positions<T>(xs: seq<T>, p: T -> bool): set<nat>
  {
    set i: nat | i < |xs| && p(xs[i])
  }

  /** Count agrees with the number of matching positions: it counts
      documents, not distinct values. */
  lemma {:induction false} CountIsPositions<T>(xs: seq<T>, p: T -> bool)
    ensures Count(xs, p) == |Positions(xs, p)|
    decreases |xs|
  {
    if |xs| > 0 {
      var n := |xs| - 1;
      var init := xs[..n];
      CountIsPositions(init, p);
      FilterAppend(init, [xs[n]], p);
      assert xs == init + [xs[n]];
      PositionsSnoc(xs, p);
    }
  }

  /** The positions of a non-empty sequence: those of all but its last
      element, and the last position when its element matches. */
  lemma PositionsSnoc<T>(xs: seq<T>, p: T -> bool)
    requires |xs| > 0
    ensures var n := |xs| - 1;
      var here: set<nat> := if p(xs[n]) then {n} else {};
      && Positions(xs, p) == Positions(xs[..n], p) + here
      && |Positions(xs, p)| == |Positions(xs[..n], p)| + |here|
  {
    var n := |xs| - 1;
    var init := xs[..n];
    var before := Positions(init, p);
    var here: set<nat> := if p(xs[n]) then {n} else {};
    forall i | i in Positions(xs, p)
      ensures i in before + here
    {
      if i < n {
        assert init[i] == xs[i];
      }
    }
    assert Positions(xs, p) == before + here;
    assert before !! here;
  }

  /** Filtering distributes over concatenation. */
  lemma {:induction false} FilterAppend<T>(xs: seq<T>, ys: seq<T>, p: T -> bool)
    ensures Filter(xs + ys, p) == Filter(xs, p) + Filter(ys, p)
    decreases |xs|
  {
    if |xs| > 0 {
      assert (xs + ys)[1..] == xs[1..] + ys;
      FilterAppend(xs[1..], ys, p);
    } else {
      assert xs + ys == ys;
    }
  }

  /** Filters whose predicates agree on every element of `xs` select the
      same elements. */
  lemma {:induction false} FilterCongruent<T>(xs: seq<T>, p: T -> bool, q: T -> bool)
    requires forall i :: 0 <= i < |xs| ==> p(xs[i]) == q(xs[i])
    ensures Filter(xs, p) == Filter(xs, q)
    decreases |xs|
  {
    if |xs| > 0 {
      assert forall i :: 0 <= i < |xs[1..]| ==> xs[1..][i] == xs[i + 1];
      FilterCongruent(xs[1..], p, q);
    }
  }

  /** Counts over two equally long sequences agree when the predicates agree
      position by position. */
  lemma {:induction false} CountPointwise<T>(xs: seq<T>, p: T -> bool, ys: seq<T>, q: T -> bool)
    requires |xs| == |ys|
    requires forall i :: 0 <= i < |xs| ==> p(xs[i]) == q(ys[i])
    ensures Count(xs, p) == Count(ys, q)
    decreases |xs|
  {
    if |xs| > 0 {
      assert forall i :: 0 <= i < |xs[1..]| ==> xs[1..][i] == xs[i + 1] && ys[1..][i] == ys[i + 1];
      CountPointwise(xs[1..], p, ys[1..], q);
    }
  }

  /** A count can only drop when, position by position, the predicate on
      the second sequence implies the one on the first. */
  lemma {:induction false} CountMonotone<T>(xs: seq<T>, p: T -> bool, ys: seq<T>, q: T -> bool)
    requires |xs| == |ys|
    requires forall i :: 0 <= i < |xs| ==> q(ys[i]) ==> p(xs[i])
    ensures Count(ys, q) <= Count(xs, p)
    decreases |xs|
  {
    if |xs| > 0 {
      assert forall i :: 0 <= i < |xs[1..]| ==> xs[1..][i] == xs[i + 1] && ys[1..][i] == ys[i + 1];
      CountMonotone(xs[1..], p, ys[1..], q);
    }
  }

  /** `xs` is ordered by non-increasing `key`. */
  predicate SortedDesc<T>(xs: seq<T>, key: T -> int)
  {
    forall i, j :: 0 <= i < j < |xs| ==> key(xs[i]) >= key(xs[j])
  }

  /** Inserts `x` in front of the first element whose key is not larger,
      so that `x` precedes the elements with an equal key. */
  function Insert<T>(x: T, xs: seq<T>, key: T -> int): (r: seq<T>)
    requires SortedDesc(xs, key)
    ensures SortedDesc(r, key)
    ensures multiset(r) == multiset(xs) + multiset{x}
    ensures |r| == |xs| + 1
    ensures r[0] == x || (|xs| > 0 && r[0] == xs[0])
    decreases |xs|
  {
    if |xs| == 0 || key(xs[0]) <= key(x) then [x] + xs
    else
      var rest := Insert(x, xs[1..], key);
      assert xs == [xs[0]] + xs[1..];
      assert key(xs[0]) >= key(rest[0]);
      ConsSorted(xs[0], rest, key);
      [xs[0]] + rest
  }

  /** An element no smaller than the head of a sorted sequence may go in
      front of it. */
  lemma ConsSorted<T>(h: T, xs: seq<T>, key: T -> int)
    requires SortedDesc(xs, key)
    requires |xs| > 0 ==> key(h) >= key(xs[0])
    ensures SortedDesc([h] + xs, key)
  {
    var r := [h] + xs;
    forall i, j | 0 <= i < j < |r|
      ensures key(r[i]) >= key(r[j])
    {
      assert r[j] == xs[j - 1];
      if i > 0 {
        assert r[i] == xs[i - 1];
      }
    }
  }

  /** Stable sort by non-increasing `key`: a sorted permutation of `xs`. */
  function SortDesc<T>(xs: seq<T>, key: T -> int): (r: seq<T>)
    ensures SortedDesc(r, key)
    ensures multiset(r) == multiset(xs)
    ensures |r| == |xs|
    decreases |xs|
  {
    if |xs| == 0 then []
    else
      assert xs == [xs[0]] + xs[1..];
      var r := Insert(xs[0], SortDesc(xs[1..], key), key);
      assert |r| == |multiset(r)|;
      r
  }

  /** The elements whose key is `v`. */
  function KeyIs<T>(key: T -> int, v: int): T -> bool
  {
    (y: T) => key(y) == v
  }

  /** Filtering a sequence with a given head decides the head first. */
  lemma FilterCons<T>(a: T, ys: seq<T>, p: T -> bool)
    ensures Filter([a] + ys, p) == if p(a) then [a] + Filter(ys, p) else Filter(ys, p)
  {
    assert ([a] + ys)[1..] == ys;
  }

  /** Inserting `x` keeps the order among the elements of each key: `x`
      goes in front of the elements with its own key, as if prepended. */
  lemma {:induction false} InsertKeepsTies<T>(x: T, xs: seq<T>, key: T -> int, v: int)
    requires SortedDesc(xs, key)
    ensures Filter(Insert(x, xs, key), KeyIs(key, v)) == Filter([x] + xs, KeyIs(key, v))
    decreases |xs|
  {
    var p := KeyIs(key, v);
    if |xs| > 0 && key(xs[0]) > key(x) {
      var rest := xs[1..];
      assert xs == [xs[0]] + rest;
      var ins := Insert(x, rest, key);
      assert Insert(x, xs, key) == [xs[0]] + ins;
      InsertKeepsTies(x, rest, key, v);
      FilterCons(xs[0], ins, p);
      FilterCons(x, rest, p);
      FilterCons(x, xs, p);
      FilterCons(xs[0], rest, p);
    }
  }

  /** One step of SortDesc: the head is inserted into the sorted tail. */
  lemma SortDescStep<T>(xs: seq<T>, key: T -> int)
    requires |xs| > 0
    ensures SortDesc(xs, key) == Insert(xs[0], SortDesc(xs[1..], key), key)
  {
  }

  /** SortDesc is stable: the elements of each key keep their input order. */
  lemma {:induction false} SortIsStable<T>(xs: seq<T>, key: T -> int, v: int)
    ensures Filter(SortDesc(xs, key), KeyIs(key, v)) == Filter(xs, KeyIs(key, v))
    decreases |xs|
  {
    if |xs| > 0 {
      var p := KeyIs(key, v);
      var tail := xs[1..];
      var rest := SortDesc(tail, key);
      SortDescStep(xs, key);
      SortIsStable(tail, key, v);
      InsertKeepsTies(xs[0], rest, key, v);
      FilterCons(xs[0], rest, p);
      FilterCons(xs[0], tail, p);
      assert xs == [xs[0]] + tail;
    }
  }

  /** Sorting keeps exactly the elements it was given. */
  lemma SortKeepsElements<T>(xs: seq<T>, key: T -> int, x: T)
    ensures x in SortDesc(xs, key) <==> x in xs
  {
    var r := SortDesc(xs, key);
    assert x in r <==> x in multiset(r);
    assert x in xs <==> x in multiset(xs);
  }

  /** Every position of the sorted sequence holds an element of the input
      and every element of the input has a position in the sorted one. */
  lemma SortedPosition<T>(xs: seq<T>, key: T -> int, k: nat) returns (l: nat)
    requires k < |xs|
    ensures l < |xs| && xs[l] == SortDesc(xs, key)[k]
  {
    var r := SortDesc(xs, key);
    assert r[k] in multiset(r);
    l :| 0 <= l < |xs| && xs[l] == r[k];
  }

  lemma InputPosition<T>(xs: seq<T>, key: T -> int, l: nat) returns (k: nat)
    requires l < |xs|
    ensures k < |xs| && SortDesc(xs, key)[k] == xs[l]
  {
    var r := SortDesc(xs, key);
    assert xs[l] in multiset(r);
    k :| 0 <= k < |r| && r[k] == xs[l];
  }

  /** The sum of `f` over `xs` (an `Array.reduce` with `+`). */
  function SumOf<T>(xs: seq<T>, f: T -> int): int
    decreases |xs|
  {
    if |xs| == 0 then 0 else f(xs[0]) + SumOf(xs[1..], f)
  }

  /** A sum of values that all lie in [lo, hi] lies in [lo*n, hi*n]. */
  lemma {:induction false} SumBounds<T>(xs: seq<T>, f: T -> int, lo: int, hi: int)
    requires forall i :: 0 <= i < |xs| ==> lo <= f(xs[i]) <= hi
    ensures lo * |xs| <= SumOf(xs, f) <= hi * |xs|
    decreases |xs|
  {
    if |xs| > 0 {
      SumBounds(xs[1..], f, lo, hi);
      assert lo <= f(xs[0]) <= hi;
    }
  }
}

=== FILE: signup.dfy ===
/** The signup form's client-side check: which fields it flags, with which
    message, and when it lets the form through to the server. */
module Signup {
  import opened Outcome
  import Entities
  import Text

  /** The form's fields as typed. */
  datatype SignupForm = SignupForm(name: string, email: string, password: string, confirmPassword: string,
                                   userType: string)

  const NameRequired := "Name is required"
  const EmailRequired := "Email is required"
  const PasswordRequired := "Password is required"
  const PasswordTooShort := "Password must be at least 6 characters"
  const PasswordsDiffer := "Passwords do not match"

  /** `validate`: the error messages recorded field by field, in the order
      the form checks them (a later check on the same field replaces the
      earlier message), and whether none was recorded. */
  function Validate(f: SignupForm): (r: (bool, map<string, string>))
    ensures var (ok, errors) := r;
      && (ok <==> errors == map[])
      && ("name" in errors <==> f.name == "")
      && ("email" in errors <==> f.email == "")
      && ("password" in errors <==> Text.JsLength(f.password) < 6)
      && ("confirmPassword" in errors <==> f.password != f.confirmPassword)
      && errors.Keys <= {"name", "email", "password", "confirmPassword"}
    ensures "name" in r.1 ==> r.1["name"] == NameRequired
    ensures "email" in r.1 ==> r.1["email"] == EmailRequired
    ensures "password" in r.1 ==> r.1["password"] == PasswordTooShort
    ensures "confirmPassword" in r.1 ==> r.1["confirmPassword"] == PasswordsDiffer
  {
    var e0: map<string, string> := map[];
    var e1 := if f.name == "" then e0["name" := NameRequired] else e0;
    var e2 := if f.email == "" then e1["email" := EmailRequired] else e1;
    var e3 := if f.password == "" then e2["password" := PasswordRequired] else e2;
    var e4 := if Text.JsLength(f.password) < 6 then e3["password" := PasswordTooShort] else e3;
    var e5 := if f.password != f.confirmPassword then e4["confirmPassword" := PasswordsDiffer] else e4;
    (e5 == map[], e5)
  }

  /** The form passes exactly when name and email are filled in, the
      password has at least six characters and the confirmation repeats it. */
  lemma ValidateAccepts(f: SignupForm)
    ensures Validate(f).0 <==>
      f.name != "" && f.email != "" && Text.JsLength(f.password) >= 6 && f.password == f.confirmPassword
  {
    var errors := Validate(f).1;
    if !Validate(f).0 {
      assert errors != map[];
      var k :| k in errors;
    }
  }

  /** The "required" message for the password is never what the form shows:
      an empty password is also too short, and that message replaces it. */
  lemma PasswordRequiredNeverShown(f: SignupForm)
    ensures "password" in Validate(f).1 ==> Validate(f).1["password"] != PasswordRequired
    ensures f.password == "" ==> Validate(f).1["password"] == PasswordTooShort
  {
  }

  /** The length rule counts UTF-16 code units, as JavaScript does: three
      emoji make a password of length 6, which the form lets through. */
  lemma AstralPasswordPasses()
    ensures var pw := "\U{1F600}\U{1F600}\U{1F600}";
      |pw| == 3 && Validate(SignupForm("a", "a@b.io", pw, pw, "client")).0
  {
    Text.SurrogatePairsCountTwice();
    ValidateAccepts(SignupForm("a", "a@b.io", "\U{1F600}\U{1F600}\U{1F600}", "\U{1F600}\U{1F600}\U{1F600}", "client"));
  }

  /** A form the client lets through meets the server's password rule, and
      with a known role and a name that is not only white space the server
      builds the user. */
  lemma PassedFormIsAccepted(f: SignupForm, now: Entities.Time)
    requires Validate(f).0
    requires Entities.ParseRole(f.userType).Some?
    requires |Text.Trim(f.name)| > 0
    ensures Entities.NewUser(f.name, f.email, f.password, f.userType, now).Ok?
  {
    ValidateAccepts(f);
  }

  /** A name of white space passes the form but not the server, which trims
      it away. */
  lemma BlankNamePassesOnlyTheForm(now: Entities.Time)
    ensures var f := SignupForm(" ", "a@b.io", "secret", "secret", "client");
      Validate(f).0 && Entities.NewUser(f.name, f.email, f.password, f.userType, now).Err?
  {
    var f := SignupForm(" ", "a@b.io", "secret", "secret", "client");
    ValidateAccepts(f);
    assert Text.IsSpace(f.name[0]);
    assert Text.LeadingSpaces(f.name) == 1;
  }
}

=== FILE: text.dfy ===
/** String helpers with the semantics of the JavaScript built-ins the
    marketplace relies on: `trim`, `split` on one separator character,
    `startsWith`, `toLowerCase` (ASCII letters only), and `length`, which
    counts UTF-16 code units rather than characters. */
module Text {

  /** The characters `String.prototype.trim` removes: the ECMAScript
      WhiteSpace and LineTerminator productions. */
  predicate IsSpace(c: char)
  {
    || c == ' ' || c == '\t' || c == '\n' || c == '\r'
    || c == '\U{000B}' || c == '\U{000C}' || c == '\U{00A0}' || c == '\U{FEFF}'
    || c == '\U{1680}' || ('\U{2000}' <= c <= '\U{200A}')
    || c == '\U{2028}' || c == '\U{2029}' || c == '\U{202F}' || c == '\U{205F}'
    || c == '\U{3000}'
  }

  /** Characters that the regular-expression `.` does not match. */
  predicate IsLineTerminator(c: char)
  {
    c == '\n' || c == '\r' || c == '\U{2028}' || c == '\U{2029}'
  }

  /** No white space at either end. */
  predicate IsTrimmed(s: string)
  {
    |s| == 0 || (!IsSpace(s[0]) && !IsSpace(s[|s| - 1]))
  }

  /** The number of white-space characters `s` starts with. */
  function LeadingSpaces(s: string): (n: nat)
    ensures n <= |s|
    ensures forall i :: 0 <= i < n ==> IsSpace(s[i])
    ensures n == |s| || !IsSpace(s[n])
    decreases |s|
  {
    if |s| > 0 && IsSpace(s[0]) then 1 + LeadingSpaces(s[1..]) else 0
  }

  /** The number of white-space characters `s` ends with. */
  function TrailingSpaces(s: string): (n: nat)
    ensures n <= |s|
    ensures forall i :: |s| - n <= i < |s| ==> IsSpace(s[i])
    ensures n == |s| || !IsSpace(s[|s| - n - 1])
    decreases |s|
  {
    if |s| > 0 && IsSpace(s[|s| - 1]) then 1 + TrailingSpaces(s[..|s| - 1]) else 0
  }

  /** `String.prototype.trim`: the infix of `s` that starts after its
      leading white space and ends at its last non-space character. */
  function Trim(s: string): (r: string)
    ensures IsTrimmed(r)
    ensures LeadingSpaces(s) + |r| <= |s|
    ensures r == s[LeadingSpaces(s)..LeadingSpaces(s) + |r|]
  {
    var a := LeadingSpaces(s);
    var rest := s[a..];
    var r := rest[..|rest| - TrailingSpaces(rest)];
    assert |r| > 0 ==> r[0] == s[a] && r[|r| - 1] == rest[|rest| - TrailingSpaces(rest) - 1];
    r
  }

  /** Everything trimming removes is white space. */
  lemma TrimRemovesOnlySpace(s: string)
    ensures var a := LeadingSpaces(s);
      forall i :: 0 <= i < |s| && !(a <= i < a + |Trim(s)|) ==> IsSpace(s[i])
  {
    var a := LeadingSpaces(s);
    var rest := s[a..];
    var b := TrailingSpaces(rest);
    assert |Trim(s)| == |rest| - b;
    forall i | a + |Trim(s)| <= i < |s|
      ensures IsSpace(s[i])
    {
      assert s[i] == rest[i - a];
    }
  }

  /** Every character of the trimmed string occurs in the original. */
  lemma TrimKeepsCharacters(s: string)
    ensures forall c :: c in Trim(s) ==> c in s
  {
    var t := Trim(s);
    var a := LeadingSpaces(s);
    forall c | c in t
      ensures c in s
    {
      var i :| 0 <= i < |t| && t[i] == c;
      assert s[a + i] == c;
    }
  }

  /** A string already free of edge white space is its own trim. */
  lemma TrimOfTrimmed(s: string)
    requires IsTrimmed(s)
    ensures Trim(s) == s
  {
    assert LeadingSpaces(s) == 0;
    assert s[0..] == s;
    assert TrailingSpaces(s) == 0;
  }

  /** Trimming is idempotent. */
  lemma TrimIdempotent(s: string)
    ensures Trim(Trim(s)) == Trim(s)
  {
    TrimOfTrimmed(Trim(s));
  }

  function StartsWith(s: string, prefix: string): (b: bool)
    ensures b <==> |prefix| <= |s| && s[..|prefix|] == prefix
  {
    |prefix| <= |s| && s[..|prefix|] == prefix
  }

  /** `parts` glued back together with `sep` between neighbours. */
  function Join(parts: seq<string>, sep: char): string
    requires |parts| > 0
  {
    if |parts| == 1 then parts[0] else parts[0] + [sep] + Join(parts[1..], sep)
  }

  /** `String.prototype.split` with a one-character separator: always at
      least one piece, and no piece contains the separator. */
  function Split(s: string, sep: char): (parts: seq<string>)
    ensures |parts| > 0
    ensures forall k :: 0 <= k < |parts| ==> sep !in parts[k]
    decreases |s|
  {
    if |s| == 0 then [""]
    else
      var rest := Split(s[1..], sep);
      if s[0] == sep then [""] + rest
      else [[s[0]] + rest[0]] + rest[1..]
  }

  /** Splitting then joining gives back the input. */
  lemma {:induction false} JoinSplit(s: string, sep: char)
    ensures Join(Split(s, sep), sep) == s
    decreases |s|
  {
    if |s| > 0 {
      var rest := Split(s[1..], sep);
      JoinSplit(s[1..], sep);
      if s[0] == sep {
        assert Split(s, sep) == [""] + rest;
      } else {
        var parts := Split(s, sep);
        assert parts == [[s[0]] + rest[0]] + rest[1..];
        if |rest| == 1 {
          assert Join(parts, sep) == [s[0]] + rest[0];
        } else {
          assert parts[1..] == rest[1..];
          assert Join(parts, sep) == [s[0]] + rest[0] + [sep] + Join(rest[1..], sep);
        }
      }
    }
  }

  /** Joining pieces that do not contain the separator, then splitting,
      gives back the pieces. */
  lemma {:induction false} SplitJoin(parts: seq<string>, sep: char)
    requires |parts| > 0
    requires forall k :: 0 <= k < |parts| ==> sep !in parts[k]
    ensures Split(Join(parts, sep), sep) == parts
    decreases |parts|, |parts[0]|
  {
    var p := parts[0];
    if |p| == 0 {
      if |parts| > 1 {
        SplitJoin(parts[1..], sep);
        assert Join(parts, sep) == [sep] + Join(parts[1..], sep);
        assert ([sep] + Join(parts[1..], sep))[1..] == Join(parts[1..], sep);
      }
    } else {
      var parts' := [p[1..]] + parts[1..];
      assert sep !in p[1..] by {
        assert forall c :: c in p[1..] ==> c in p;
      }
      assert forall k :: 0 <= k < |parts'| ==> sep !in parts'[k];
      SplitJoin(parts', sep);
      var j := Join(parts, sep);
      if |parts| == 1 {
        assert j[1..] == Join(parts', sep);
      } else {
        assert parts'[1..] == parts[1..];
        assert j == [p[0]] + (p[1..] + [sep] + Join(parts[1..], sep));
        assert j[1..] == Join(parts', sep);
      }
      assert p == [p[0]] + p[1..];
    }
  }

  /** Splitting at a separator between two strings splits each side on
      its own: the pieces of `a` come first, those of `b` after them. */
  lemma {:induction false} SplitAppend(a: string, b: string, sep: char)
    ensures Split(a + [sep] + b, sep) == Split(a, sep) + Split(b, sep)
    decreases |a|
  {
    var s := a + [sep] + b;
    if |a| == 0 {
      assert s[1..] == b;
    } else {
      assert s[1..] == a[1..] + [sep] + b;
      SplitAppend(a[1..], b, sep);
    }
  }

  /** ASCII lower-casing of one character. */
  function LowerChar(c: char): char
  {
    if 'A' <= c <= 'Z' then (c as int - 'A' as int + 'a' as int) as char else c
  }

  /** `String.prototype.toLowerCase` on ASCII letters. */
  function Lower(s: string): (r: string)
    ensures |r| == |s|
    ensures forall i :: 0 <= i < |s| ==> r[i] == LowerChar(s[i])
  {
    seq(|s|, i requires 0 <= i < |s| => LowerChar(s[i]))
  }

  predicate IsLower(s: string)
  {
    forall i :: 0 <= i < |s| ==> !('A' <= s[i] <= 'Z')
  }

  /** Lower-casing leaves no upper-case letter and changes nothing twice. */
  lemma LowerIsLower(s: string)
    ensures IsLower(Lower(s))
    ensures Lower(Lower(s)) == Lower(s)
  {
  }

  // ---------------------------------------------------------------- length

  /** The UTF-16 code units a character takes: two (a surrogate pair) for
      a character outside the Basic Multilingual Plane, one otherwise. */
  function CodeUnits(c: char): nat
  {
    if c as int < 0x10000 then 1 else 2
  }

  /** `String.prototype.length`, which is also what the schema's
      `minlength` and `maxlength` validators count: the number of UTF-16
      code units. It equals the number of characters exactly when none lies
      outside the Basic Multilingual Plane. */
  function JsLength(s: string): (n: nat)
    ensures |s| <= n <= 2 * |s|
    ensures n == |s| <==> forall i :: 0 <= i < |s| ==> CodeUnits(s[i]) == 1
    decreases |s|
  {
    if |s| == 0 then 0
    else
      var n := CodeUnits(s[0]) + JsLength(s[1..]);
      assert forall i :: 1 <= i < |s| ==> s[i] == s[1..][i - 1];
      n
  }

  /** The length of a concatenation is the sum of the lengths. */
  lemma {:induction false} JsLengthAppend(a: string, b: string)
    ensures JsLength(a + b) == JsLength(a) + JsLength(b)
    decreases |a|
  {
    if |a| == 0 {
      assert a + b == b;
    } else {
      assert (a + b)[1..] == a[1..] + b;
      JsLengthAppend(a[1..], b);
    }
  }

  /** Three emoji are three characters but six code units, so JavaScript
      counts them as a string of length 6. */
  lemma SurrogatePairsCountTwice()
    ensures var s := "\U{1F600}\U{1F600}\U{1F600}"; |s| == 3 && JsLength(s) == 6
  {
    var s := "\U{1F600}\U{1F600}\U{1F600}";
    assert s[1..][1..][1..] == [];
  }
}

=== FILE: users.dfy ===
/** User account operations: the public profile, the owner's profile
    update through an allow-list, the freelancer directory, and account
    deletion.

    The store's natural order of users is a parameter of the directory
    listing (`natural`, a sequence of user identifiers); the listing sorts
    it by rating, highest first. */
module Users {
  import opened Outcome
  import opened Entities
  import Text
  import Seqs
  import Paging

  /** `getUserProfile`: 404 for an unknown user, otherwise the public
      profile (no password, no wallet balance). */
  function GetUserProfile(s: Store, id: UserId): (r: Result<PublicProfile>)
    ensures r.Ok? <==> id in s.users
    ensures r.Err? ==> r.error == NotFound
    ensures r.Ok? ==> r.value.id == id && r.value.name == s.users[id].name && r.value.email == s.users[id].email
    ensures r.Ok? ==> r.value.rating == s.users[id].rating && r.value.totalReviews == s.users[id].totalReviews
    ensures r.Ok? ==> r.value == PublicProfileOf(id, s.users[id])
  {
    if id !in s.users then Err(NotFound) else Ok(PublicProfileOf(id, s.users[id]))
  }

  // -------------------------------------------------------------- update

  /** The body of a profile update: the five editable fields, and the
      protected ones a caller may also send. */
  datatype ProfileBody = ProfileBody(
    name: Option<string>,
    description: Option<string>,
    profilePicture: Option<string>,
    skills: Option<seq<string>>,
    category: Option<string>,
    email: Option<string>,
    password: Option<string>,
    userType: Option<string>,
    rating: Option<Tenths>,
    totalReviews: Option<int>,
    walletBalance: Option<int>)

  /** The schema validators the update runs on the supplied editable
      fields: the name stays present once trimmed, the description stays
      within 500 characters. */
  predicate PassesProfileValidators(body: ProfileBody)
  {
    && (body.name.Some? ==> |Text.Trim(body.name.value)| > 0)
    && (body.description.Some? ==> Text.JsLength(body.description.value) <= 500)
  }

  /** The user after the allow-listed fields of `body` are copied over it
      and the update time is set; the name goes through the schema's
      trimming. */
  function ApplyProfile(u: User, body: ProfileBody, now: Time): (v: User)
    ensures v.email == u.email && v.password == u.password && v.userType == u.userType
    ensures v.rating == u.rating && v.totalReviews == u.totalReviews && v.walletBalance == u.walletBalance
    ensures v.createdAt == u.createdAt && v.updatedAt == now
    ensures v.name == (if body.name.Some? then Text.Trim(body.name.value) else u.name)
    ensures v.description == OrElse(body.description, u.description)
    ensures v.profilePicture == (if body.profilePicture.Some? then body.profilePicture else u.profilePicture)
    ensures v.skills == OrElse(body.skills, u.skills)
    ensures v.category == (if body.category.Some? then body.category else u.category)
  {
    u.(name := if body.name.Some? then Text.Trim(body.name.value) else u.name,
       description := OrElse(body.description, u.description),
       profilePicture := if body.profilePicture.Some? then body.profilePicture else u.profilePicture,
       skills := OrElse(body.skills, u.skills),
       category := if body.category.Some? then body.category else u.category,
       updatedAt := now)
  }

  /** `updateProfile`: the validators run first (a 500 when they refuse),
      then an unknown caller is a 404; otherwise the caller's document is
      replaced by the patched one and its public profile returned. No other
      document changes. */
  function UpdateProfile(s: Store, caller: UserId, body: ProfileBody, now: Time): (r: Result<(Store, PublicProfile)>)
    ensures !PassesProfileValidators(body) ==> r == Err(ServerError)
    ensures PassesProfileValidators(body) && caller !in s.users ==> r == Err(NotFound)
    ensures r.Ok? <==> PassesProfileValidators(body) && caller in s.users
    ensures r.Ok? ==>
      var (s', p) := r.value;
      && s'.users == s.users[caller := ApplyProfile(s.users[caller], body, now)]
      && p == PublicProfileOf(caller, s'.users[caller])
      && s'.gigs == s.gigs && s'.orders == s.orders && s'.reviews == s.reviews && s'.messages == s.messages
  {
    if !PassesProfileValidators(body) then Err(ServerError)
    else if caller !in s.users then Err(NotFound)
    else
      var u := ApplyProfile(s.users[caller], body, now);
      Ok((s.(users := s.users[caller := u]), PublicProfileOf(caller, u)))
  }

  /** The allow-list: whatever the body says about the email, password,
      role, rating, review count or wallet, the update comes out the same. */
  lemma UpdateIgnoresProtectedFields(s: Store, caller: UserId, body: ProfileBody, now: Time,
                                     email: Option<string>, password: Option<string>, userType: Option<string>,
                                     rating: Option<Tenths>, totalReviews: Option<int>, wallet: Option<int>)
    ensures UpdateProfile(s, caller, body, now)
         == UpdateProfile(s, caller, body.(email := email, password := password, userType := userType,
                                           rating := rating, totalReviews := totalReviews,
                                           walletBalance := wallet), now)
  {
  }

  /** What the update answers is what a later profile fetch shows. */
  lemma UpdateThenGet(s: Store, caller: UserId, body: ProfileBody, now: Time)
    requires UpdateProfile(s, caller, body, now).Ok?
    ensures var (s', p) := UpdateProfile(s, caller, body, now).value;
      GetUserProfile(s', caller) == Ok(p)
  {
  }

  /** A valid store stays valid: the patched user passes the schema, and
      since the email cannot change the unique index still holds. */
  lemma UpdatePreservesValidity(s: Store, caller: UserId, body: ProfileBody, now: Time)
    requires ValidStore(s)
    requires UpdateProfile(s, caller, body, now).Ok?
    ensures ValidStore(UpdateProfile(s, caller, body, now).value.0)
  {
    var s' := UpdateProfile(s, caller, body, now).value.0;
    PatchedUserIsValid(s.users[caller], body, now);
    EmailsKeptUnique(s.users, s'.users);
    assert s'.reviews == s.reviews && s'.orders == s.orders;
  }

  /** A valid user patched with a body that passes the validators is
      valid. */
  lemma PatchedUserIsValid(u: User, body: ProfileBody, now: Time)
    requires ValidUser(u) && PassesProfileValidators(body)
    ensures ValidUser(ApplyProfile(u, body, now))
  {
  }

  // ---------------------------------------------------------- directory

  /** The directory filters as the query string supplies them (already
      parsed; an empty string counts as absent). `minRating` is in tenths. */
  datatype FreelancerQuery = FreelancerQuery(
    category: Option<string>,
    skill: Option<string>,
    minRating: Option<Tenths>,
    page: Option<int>,
    limit: Option<int>)

  /** Freelancers only, with the given category, listing the given skill,
      rated at least the given minimum. */
  predicate MatchesFreelancerQuery(u: User, q: FreelancerQuery)
  {
    && u.userType == Freelancer
    && (q.category.Some? && |q.category.value| > 0 ==> u.category == q.category)
    && (q.skill.Some? && |q.skill.value| > 0 ==> q.skill.value in u.skills)
    && (q.minRating.Some? ==> u.rating >= q.minRating.value)
  }

  /** A directory entry: the user without the password. The wallet balance
      and the update time are not deselected and so are listed too. */
  datatype DirectoryEntry = DirectoryEntry(profile: PublicProfile, walletBalance: int, updatedAt: Time)

  function EntryOf(id: UserId, u: User): (e: DirectoryEntry)
  {
    DirectoryEntry(PublicProfileOf(id, u), u.walletBalance, u.updatedAt)
  }

  /** The identifiers in natural order of the users that match `q`. */
  function MatchingUsers(s: Store, q: FreelancerQuery, natural: seq<UserId>): (ids: seq<UserId>)
    ensures forall k :: 0 <= k < |ids| ==> ids[k] in s.users && MatchesFreelancerQuery(s.users[ids[k]], q)
    ensures forall k :: 0 <= k < |natural| && natural[k] in s.users && MatchesFreelancerQuery(s.users[natural[k]], q)
                        ==> natural[k] in ids
  {
    Seqs.Filter(natural, (id: UserId) => id in s.users && MatchesFreelancerQuery(s.users[id], q))
  }

  function Rating(e: DirectoryEntry): int
  {
    e.profile.rating
  }

  /** `e` is the entry of a stored user that matches `q`. */
  predicate ListedFor(s: Store, q: FreelancerQuery, e: DirectoryEntry)
  {
    e.profile.id in s.users && e == EntryOf(e.profile.id, s.users[e.profile.id])
    && MatchesFreelancerQuery(s.users[e.profile.id], q)
  }

  /** The matching users' entries, highest rating first, ties in natural
      order. */
  function Ranked(s: Store, q: FreelancerQuery, natural: seq<UserId>): (es: seq<DirectoryEntry>)
    ensures |es| == |MatchingUsers(s, q, natural)|
    ensures Seqs.SortedDesc(es, Rating)
    ensures forall k :: 0 <= k < |es| ==> ListedFor(s, q, es[k])
  {
    var ids := MatchingUsers(s, q, natural);
    var listed := seq(|ids|, k requires 0 <= k < |ids| => EntryOf(ids[k], s.users[ids[k]]));
    var es := Seqs.SortDesc(listed, Rating);
    forall k | 0 <= k < |es|
      ensures ListedFor(s, q, es[k])
    {
      Seqs.SortKeepsElements(listed, Rating, es[k]);
      var j :| 0 <= j < |listed| && listed[j] == es[k];
    }
    es
  }

  /** `getAllFreelancers`: page `page` (default 1) of `limit` (default 10)
      directory entries among the matching freelancers, highest rated
      first, with the number of all matching freelancers and the page
      count. A negative offset makes the store refuse the query. */
  function GetAllFreelancers(s: Store, q: FreelancerQuery, natural: seq<UserId>)
    : (r: Result<Paging.Listing<DirectoryEntry>>)
    ensures var page := OrElse(q.page, 1);
      var limit := OrElse(q.limit, 10);
      && (r.Ok? <==> Paging.Skip(page, limit) >= 0)
      && (r.Err? ==> r.error == ServerError)
      && (r.Ok? ==>
            && r.value.total == |MatchingUsers(s, q, natural)|
            && r.value.page == page
            && r.value.totalPages == Paging.TotalPages(r.value.total, limit)
            && r.value.count == |r.value.items|)
    ensures r.Ok? ==>
      var limit := OrElse(q.limit, 10);
      Paging.Page(Ranked(s, q, natural), Paging.Skip(OrElse(q.page, 1), limit), limit) == Ok(r.value.items)
    ensures r.Ok? ==> Seqs.SortedDesc(r.value.items, Rating)
    ensures r.Ok? ==> forall k :: 0 <= k < |r.value.items| ==> ListedFor(s, q, r.value.items[k])
  {
    var es := Ranked(s, q, natural);
    var page := OrElse(q.page, 1);
    var limit := OrElse(q.limit, 10);
    var r := Paging.Paginate(es, page, limit);
    if r.Ok? then
      PageOfRanked(es, s, q, page, limit);
      r
    else r
  }

  /** A page of a sorted list of listed entries is sorted and listed. */
  lemma PageOfRanked(es: seq<DirectoryEntry>, s: Store, q: FreelancerQuery, page: int, limit: int)
    requires Seqs.SortedDesc(es, Rating)
    requires forall k :: 0 <= k < |es| ==> ListedFor(s, q, es[k])
    requires Paging.Paginate(es, page, limit).Ok?
    ensures var items := Paging.Paginate(es, page, limit).value.items;
      && Seqs.SortedDesc(items, Rating)
      && forall k :: 0 <= k < |items| ==> ListedFor(s, q, items[k])
  {
    var items := Paging.Paginate(es, page, limit).value.items;
    var start := Paging.Min(Paging.Skip(page, limit), |es|);
    forall x, y | 0 <= x < y < |items|
      ensures Rating(items[x]) >= Rating(items[y])
    {
      assert items[x] == es[start + x] && items[y] == es[start + y];
    }
    forall k | 0 <= k < |items|
      ensures ListedFor(s, q, items[k])
    {
      assert items[k] == es[start + k];
    }
  }

  /** The ranking does not depend on the paging fields of the query. */
  lemma RankedIgnoresPaging(s: Store, q: FreelancerQuery, natural: seq<UserId>, page: Option<int>, limit: Option<int>)
    ensures Ranked(s, q.(page := page, limit := limit), natural) == Ranked(s, q, natural)
  {
    var q' := q.(page := page, limit := limit);
    var p := (v: UserId) => v in s.users && MatchesFreelancerQuery(s.users[v], q);
    var p' := (v: UserId) => v in s.users && MatchesFreelancerQuery(s.users[v], q');
    Seqs.FilterCongruent(natural, p, p');
    assert MatchingUsers(s, q', natural) == MatchingUsers(s, q, natural);
  }

  /** A matching freelancer's entry is among the ranked entries. */
  lemma MatchingIsRanked(s: Store, q: FreelancerQuery, natural: seq<UserId>, id: UserId) returns (i: nat)
    requires id in natural && id in s.users && MatchesFreelancerQuery(s.users[id], q)
    ensures i < |Ranked(s, q, natural)| && Ranked(s, q, natural)[i] == EntryOf(id, s.users[id])
  {
    var ids := MatchingUsers(s, q, natural);
    var listed := seq(|ids|, k requires 0 <= k < |ids| => EntryOf(ids[k], s.users[ids[k]]));
    assert Ranked(s, q, natural) == Seqs.SortDesc(listed, Rating);
    var j :| 0 <= j < |natural| && natural[j] == id;
    var m :| 0 <= m < |ids| && ids[m] == id;
    i := Seqs.InputPosition(listed, Rating, m);
  }

  /** With a positive limit, every matching freelancer is listed on one of
      the reported pages, when every page query breaks rating ties in the
      same order `natural`. */
  lemma EveryFreelancerListed(s: Store, q: FreelancerQuery, natural: seq<UserId>, id: UserId, limit: int)
    returns (page: int)
    requires limit > 0
    requires id in natural && id in s.users && MatchesFreelancerQuery(s.users[id], q)
    ensures 1 <= page
    ensures var r := GetAllFreelancers(s, q.(page := Some(page), limit := Some(limit)), natural);
      && r.Ok? && r.value.totalPages.Finite? && page <= r.value.totalPages.n
      && EntryOf(id, s.users[id]) in r.value.items
  {
    var es := Ranked(s, q, natural);
    var i := MatchingIsRanked(s, q, natural, id);
    Paging.PagesCoverAll(es, limit, i);
    page := i / limit + 1;
    var q' := q.(page := Some(page), limit := Some(limit));
    RankedIgnoresPaging(s, q, natural, Some(page), Some(limit));
    var r := GetAllFreelancers(s, q', natural);
    assert r.value.items == Paging.Page(es, Paging.Skip(page, limit), limit).value;
    assert r.value.items[i % limit] == EntryOf(id, s.users[id]);
  }

  /** The directory never depends on a user's password. */
  lemma DirectoryHidesPasswords(s: Store, q: FreelancerQuery, natural: seq<UserId>, id: UserId, password: string)
    requires id in s.users
    ensures var t := s.(users := s.users[id := s.users[id].(password := password)]);
      GetAllFreelancers(s, q, natural) == GetAllFreelancers(t, q, natural)
  {
    var t := s.(users := s.users[id := s.users[id].(password := password)]);
    var p := (v: UserId) => v in s.users && MatchesFreelancerQuery(s.users[v], q);
    var p' := (v: UserId) => v in t.users && MatchesFreelancerQuery(t.users[v], q);
    Seqs.FilterCongruent(natural, p, p');
    var ids := MatchingUsers(s, q, natural);
    assert MatchingUsers(t, q, natural) == ids;
    var listed := seq(|ids|, k requires 0 <= k < |ids| => EntryOf(ids[k], s.users[ids[k]]));
    var listed' := seq(|ids|, k requires 0 <= k < |ids| => EntryOf(ids[k], t.users[ids[k]]));
    assert listed == listed';
  }

  // -------------------------------------------------------------- delete

  /** `deleteAccount`: 404 for an unknown caller; otherwise the caller's
      document, and nothing else, is removed. The caller's gigs, orders,
      reviews and messages stay. */
  function DeleteAccount(s: Store, caller: UserId): (r: Result<Store>)
    ensures r.Ok? <==> caller in s.users
    ensures r.Err? ==> r.error == NotFound
    ensures r.Ok? ==>
      && r.value.users.Keys == s.users.Keys - {caller}
      && (forall v :: v in r.value.users ==> r.value.users[v] == s.users[v])
      && r.value.gigs == s.gigs && r.value.orders == s.orders
      && r.value.reviews == s.reviews && r.value.messages == s.messages
  {
    if caller !in s.users then Err(NotFound) else Ok(s.(users := s.users - {caller}))
  }

  /** After deletion the profile is gone, and deleting again is a 404. */
  lemma DeletedAccountIsGone(s: Store, caller: UserId)
    requires DeleteAccount(s, caller).Ok?
    ensures GetUserProfile(DeleteAccount(s, caller).value, caller) == Err(NotFound)
    ensures DeleteAccount(DeleteAccount(s, caller).value, caller) == Err(NotFound)
  {
  }

  /** Deletion keeps a valid store valid. */
  lemma DeletePreservesValidity(s: Store, caller: UserId)
    requires ValidStore(s)
    requires DeleteAccount(s, caller).Ok?
    ensures ValidStore(DeleteAccount(s, caller).value)
  {
  }
}
